=== FILE: README.md ===
# AutoLife front end — a Dafny model of its client-side logic

AutoLife is a React front end for a car-services platform. Visitors sign up,
confirm a one-time password (OTP) sent by email, and then browse and book
services, plan routes, read the blog, post in the forum and manage their
bookings, reviews and profile. Staff use an admin area whose menu and actions
depend on a role.

Most of the front end sends REST requests and renders the replies. This
project models the sequential logic underneath and proves properties of it:

- **Session.** The authentication provider, the route guard, the OTP page and
  the registration hand-off.
- **Roles.** The admin provider's role-to-permission table, the admin sidebar
  and the admin users page's pager and permission gates.
- **Page helpers.** The list and string helpers inside the pages: cancelling a
  booking, forum likes and posts, the blog's featured post, service sorting,
  booking time slots, duration and distance texts, review filters and stars,
  the event filter, and the FAQ accordion.
- **Forms.** The validation schemas of the register, profile, partnership and
  support forms, and their submit handlers.

How the model treats the world outside the code:

- Every page or provider is a record of state plus pure transition functions.
- An async handler is one atomic step. The backend's reply is a parameter,
  either the shared `Types.Reply` or a page-specific reply datatype.
- A handler's result records:
  - the request it sent, as an `Option`;
  - where it navigates, as an `Option`;
  - how its promise settled.
- Notifications (`toast.success`, `toast.error`) are appended to a log.
- `localStorage` is a map from keys to values. JSON text is represented by the
  value it encodes.
- Email format is an abstract predicate `isEmail` passed to each schema. It
  also stands for the browser's own check of the `type="email"` inputs.
- The browser's constraint validation comes before a form's submit handler.
  The forms that use it are the OTP cells (`pattern`), the forum's create form
  and the route planner (`required`). Their submit functions leave the page
  unchanged and send nothing when it fails.
- The current time, the geolocation fix, the confirm dialog's answer and the
  FAQ texts are parameters.
- Countdown ticks are explicit steps.

JavaScript semantics are written out where they matter:

- The empty string is falsy.
- `%` truncates toward zero (`RoutePlanner.TruncRem`).
- `Math.floor(m / 60)` is Dafny's `/` by a positive divisor.
- `toLowerCase` is an ASCII case fold.
- `Number.prototype.toString` and `padStart(2, '0')` are defined in `Text`,
  together with a parser that reads their output back.

One module per source file; shared pieces live in `Common` (Option,
order-preserving `Filter`, `Map`, `FindIndex`, `Distinct`), `Text`, `Types`,
`Storage` and `Validation`.

## Model

| member | source | states |
|---|---|---|
| Types.ParseRole | src/types/admin.ts:139-144 | A role string parses to the role whose wire value it is, and every role's wire value parses back to that role. |
| Types.ParseStatus | src/types/index.ts:70-75 | The same round trip for the four booking statuses. |
| Types.ParseCategory | src/types/index.ts:64-68 | The same round trip for the three service categories. |
| Types.CategoryName | src/pages/ServiceDetailPage.tsx:59-70 | A known category shows its label and any other value shows the page's fallback. When the fallback is no label, it appears exactly for an unknown value. The service detail page uses "Xizmat" and the events page "Boshqa". |
| Types.CategoryNameDistinguishes | src/pages/EventsPage.tsx:43-54 | Different known categories get different names, whatever the fallback. |
| Storage.StoredText | src/context/AuthContext.tsx:26-29 | Reading a key gives a string exactly when the key holds a non-empty string, which is the truthiness test of line 29, and then it gives that string. |
| Storage.StoredUser | src/context/AuthContext.tsx:27-31 | Reading a key gives a user exactly when the key holds a user's JSON, and then it gives that user. |
| Storage.TextRoundTrip | src/context/AuthContext.tsx:47 | A non-empty string written under a key reads back as itself, and an empty one reads back as nothing. A removed key reads back as nothing. Neither a write nor a removal changes what another key reads. |
| Storage.UserRoundTrip | src/context/AuthContext.tsx:48 | A user written as JSON under a key reads back as the same user, and a removed key reads back as no user. Neither changes what another key reads. |
| Auth.Boot | src/context/AuthContext.tsx:25-33 | On mount a session is restored only when both `authToken` and `user` hold truthy values. Otherwise token and user stay empty. Storage is untouched and loading is off. |
| Auth.Install | src/context/AuthContext.tsx:45-48 | Installing a session writes the same token and user to memory and to the two storage keys. Every other key keeps its value. |
| Auth.Login | src/context/AuthContext.tsx:35-59 | An OTP reply leaves the session and storage untouched, even with a token, and rejects with the `OTP_REQUIRED` sentinel and a success toast. A plain success stores the same token and user in memory and storage. A failure changes nothing, rethrows, and shows an error toast unless its message is the sentinel. Loading ends off and validity is preserved. |
| Auth.Register | src/context/AuthContext.tsx:61-72 | Registration never touches the session. It resolves exactly on success, with a success toast. A failure rejects with the message and an error toast. Loading ends off. |
| Auth.VerifyOtp | src/context/AuthContext.tsx:74-89 | A verified code installs the same token and user in memory and storage. A failure leaves the session unchanged, shows an error toast and rejects. Loading ends off. |
| Auth.Logout | src/context/AuthContext.tsx:91-97 | Both in-memory fields and both storage keys are cleared, other keys are kept, and one toast is added. |
| Auth.LogoutIdempotent | src/context/AuthContext.tsx:91-97 | Logging out twice leaves the same session and storage as logging out once. |
| Auth.LoginThenReload | src/context/AuthContext.tsx:25-48 | After a plain login, a reload restores exactly the installed session when the token is non-empty, and nothing when it is empty. |
| Auth.VerifyThenReload | src/context/AuthContext.tsx:25-33 | After OTP verification with a non-empty token, a reload restores the verified user and token. |
| Auth.LogoutThenReload | src/context/AuthContext.tsx:25-33 | After logout a reload restores no session. |
| Auth.RunKeepsValid | src/context/AuthContext.tsx:25-97 | From boot, any sequence of logins, registrations, verifications and logouts keeps token and user set or cleared together, mirrored in storage, with loading off. |
| Auth.RunFromValid | src/context/AuthContext.tsx:35-97 | The same invariant holds from any valid, idle state. |
| Auth.SessionOnlyFromLoginOrVerify | src/context/AuthContext.tsx:35-89 | A session appears only through a plain login success or a verified code, never through registration or the OTP branch of login. |
| Guard.Decide | src/components/ProtectedRoute.tsx:9-19 | The children render exactly when a user and a non-empty token are present. Otherwise the guard redirects to `/login` carrying the requested path. |
| Guard.DecisionIgnoresPath | src/components/ProtectedRoute.tsx:10-18 | Whether the guard renders never depends on the requested path. |
| Guard.LoginOpensGuard | src/components/ProtectedRoute.tsx:13-18 | After a plain login with a non-empty token every protected view renders. |
| Guard.OtpLoginKeepsGuard | src/components/ProtectedRoute.tsx:13-18 | A login that asks for an OTP leaves the guard's decision as it was. |
| Guard.LogoutClosesGuard | src/components/ProtectedRoute.tsx:13-15 | After logout every protected view redirects to the login page with its path. |
| OtpVerify.Enter | src/pages/OTPVerifyPage.tsx:9-20 | Without a truthy email in navigation state the page goes to the login page. Otherwise it shows six empty cells and a running 300-second clock. |
| OtpVerify.ChangeDigit | src/pages/OTPVerifyPage.tsx:35-47 | An input longer than one character changes nothing. Otherwise the page is the old page with the edited cell set to the input: the other cells, the clock, the interval and the toasts are untouched. Focus moves to the next cell exactly when one character was typed below the last cell. |
| OtpVerify.KeyDown | src/pages/OTPVerifyPage.tsx:49-54 | Backspace on an empty cell other than the first moves focus to the previous cell; nothing else moves focus. |
| OtpVerify.TypeThenBackspace | src/pages/OTPVerifyPage.tsx:35-54 | Typing one character into a cell before the last moves focus to the next cell. Backspace there, while that cell is empty, brings focus back to the cell just typed in. |
| OtpVerify.EraseThenBackspace | src/pages/OTPVerifyPage.tsx:35-54 | Erasing a cell keeps focus in place. Backspace there then moves focus to the previous cell, and on the first cell it moves nowhere. |
| OtpVerify.Tick | src/pages/OTPVerifyPage.tsx:22-30 | A running tick takes one second off, and the interval stops exactly when the clock reaches 0. A stopped interval does nothing. The clock never goes negative. |
| OtpVerify.TicksCountDown | src/pages/OTPVerifyPage.tsx:22-30 | After n ticks of a running clock it shows `timeLeft - n` and still runs when n is smaller. Otherwise it shows 0 and has stopped. |
| OtpVerify.StoppedStaysStopped | src/pages/OTPVerifyPage.tsx:25 | Once the interval is cleared, further ticks change nothing. |
| OtpVerify.JoinFullIffAllFilled | src/pages/OTPVerifyPage.tsx:58-60 | With cells of at most one character, the joined code has full length exactly when every cell is filled. |
| OtpVerify.HandleSubmit | src/pages/OTPVerifyPage.tsx:56-71 | A code that is not six characters long is refused with a toast and no call. Otherwise the provider verifies the code built from the six cells. The page navigates to `/` exactly on success. |
| OtpVerify.OnSubmit | src/pages/OTPVerifyPage.tsx:108-147 | While loading or at 0 seconds the disabled button sends nothing. A cell holding a non-digit fails the cells' `[0-9]*` pattern, so the browser stops the submit: nothing is sent, no toast is shown and nothing changes. Any call that is made had time left and six digit cells, and sends their six-digit code. When every cell holds a digit and the button is enabled, the code is sent. |
| OtpVerify.LetterCellSendsNothing | src/pages/OTPVerifyPage.tsx:112-125 | With cells "1","2","3","4","5","a" the submit leaves the page and the auth state as they were and sends nothing. |
| OtpVerify.ResendAsWritten | src/pages/OTPVerifyPage.tsx:73-77 | As written, resend sets the clock to 300 and adds a toast, but it leaves the interval as it was. |
| OtpVerify.ResendFreezesCountdown | src/pages/OTPVerifyPage.tsx:22-77 | Resend is enabled only at 0, when the interval is already cleared. After an as-written resend the clock shows 300 however many seconds pass. |
| OtpVerify.Resend | src/pages/OTPVerifyPage.tsx:73-77 | The corrected resend sets the clock to 300 with the countdown running, and keeps the cells. |
| OtpVerify.ResendRestartsCountdown | src/pages/OTPVerifyPage.tsx:22-77 | After a corrected resend the clock shows `300 - n` after n seconds and reaches 0 after 300. |
| OtpVerify.FormatTimeReadsBack | src/pages/OTPVerifyPage.tsx:79-83 | The text is a minutes number, a colon and exactly two second digits below 60. Read back as `minutes * 60 + seconds`, it gives the original number of seconds. |
| OtpVerify.FormatTimeExamples | src/pages/OTPVerifyPage.tsx:79-83 | 300 seconds show as "5:00" and 65 as "1:05". |
| Common.DistinctBy | src/pages/ForumPage.tsx:77 | The category choices of the forum and blog pages: each category carried by a post appears exactly once, nothing else appears, and they follow the order of the first post carrying each. |
| Text.IncludesSpec | src/pages/ForumPage.tsx:71-72 | The `includes` scan answers yes exactly when some window of the text equals the search term. |
| Text.ParseNatToString | src/pages/OTPVerifyPage.tsx:80-82 | The decimal text of a number reads back as that number. |
| Text.PadKeepsValue | src/pages/OTPVerifyPage.tsx:82 | `padStart(2, '0')` on a digit string keeps it all digits with the same value. |
| Validation.MatchPhone | src/pages/PartnershipsPage.tsx:27 | A left-to-right scan accepts exactly the strings the phone pattern `^\+?[1-9]\d{1,14}$` describes: an optional plus, a first digit 1 to 9, and 2 to 15 digits in all. |
| Validation.PhonePatternEdges | src/pages/ProfilePage.tsx:24-26 | The pattern rejects "", "+", a single digit, a leading zero, a double plus and 16 digits. It accepts two digits, 15 digits and an international number. |
| RegisterPage.Valid | src/pages/RegisterPage.tsx:10-31 | The registration schema: first and last names of at least two characters, a required email in email format, a password of at least six characters, and a confirmation equal to it. |
| RegisterPage.Submit | src/pages/RegisterPage.tsx:49-56 | Nothing is sent while loading or when the schema fails. Otherwise registration runs, and the page moves to `/verify-otp` with the email exactly when it resolves. The session is never touched. |
| RegisterPage.HandOffOpensOtpPage | src/pages/RegisterPage.tsx:52 | The hand-off carries a truthy email, so the OTP page opens for the registered email instead of bouncing to login. |
| RegisterPage.RejectedForms | src/pages/RegisterPage.tsx:11-30 | Short names, a password under six characters, a mismatched confirmation and an empty email are each rejected, whatever the email test. |
| Admin.PermissionsFor | src/context/AdminContext.tsx:67-78 | Admins hold the wildcard and nobody else does. Managers and operators get their fixed lists. Technicians and unknown roles get nothing. |
| Admin.Project | src/context/AdminContext.tsx:39-46 | The admin projection keeps the user's fields and role, is active, carries both time stamps and the role's permissions. |
| Admin.OnUserChange | src/context/AdminContext.tsx:36-48 | A user with a truthy role replaces the projection. Anything else, signing out included, keeps the previous one. |
| Admin.ProjectedRoles | src/context/AdminContext.tsx:67-86 | A projected admin holds every permission and is admin and manager. A technician or unknown role holds none. |
| Admin.RoleFlags | src/context/AdminContext.tsx:85-86 | `isAdmin` holds exactly for the admin role, which is exactly when the wildcard is held. `isManager` holds exactly for managers and admins. Neither holds without a projection. |
| Admin.PermissionLadder | src/context/AdminContext.tsx:67-83 | Whatever an operator may do a manager may do, and whatever a manager may do an admin may do. |
| Admin.ProjectionOutlivesLogout | src/context/AdminContext.tsx:36-48 | Signing out leaves the projection granting what it granted before. |
| Admin.NoRoleNoAdmin | src/context/AdminContext.tsx:36-48 | A user without a truthy role gets no permission from a fresh provider. |
| Admin.RestorePrefs | src/context/AdminContext.tsx:50-55 | On mount the sidebar is expanded. Dark mode is on exactly when storage holds the JSON `true` under `adminDarkMode`. |
| Admin.ToggleDarkMode | src/context/AdminContext.tsx:57-61 | The flag flips, the sidebar is untouched, and the new flag is stored under `adminDarkMode` with every other key kept. |
| Admin.ToggleSidebar | src/context/AdminContext.tsx:63-65 | Only the sidebar flag flips. |
| Admin.ToggleThenReload | src/context/AdminContext.tsx:50-61 | After a toggle a reload restores the toggled dark-mode flag. |
| Admin.ToggleTwice | src/context/AdminContext.tsx:57-65 | Toggling twice restores each flag, and the stored dark-mode value matches again. |
| Sidebar.Visible | src/components/Admin/Layout/AdminSidebar.tsx:22-73 | The entries shown are the menu items whose permission is held, in menu order, and every such item is shown. |
| Sidebar.VisibleCount | src/components/Admin/Layout/AdminSidebar.tsx:22-73 | A permitted item appears exactly as often as in the menu, and any other item not at all. |
| Sidebar.AdminMenu | src/components/Admin/Layout/AdminSidebar.tsx:73 | An admin sees all eight entries. |
| Sidebar.ManagerShown | src/components/Admin/Layout/AdminSidebar.tsx:22-73 | For a manager exactly Users, Orders, Services and Staff pass the permission test. |
| Sidebar.OperatorShown | src/components/Admin/Layout/AdminSidebar.tsx:22-73 | For an operator exactly Orders and Services pass the permission test. |
| Sidebar.ManagerMenu | src/components/Admin/Layout/AdminSidebar.tsx:22-73 | A manager's menu is Users, Orders, Services, Staff, without the dashboard. |
| Sidebar.OperatorMenu | src/components/Admin/Layout/AdminSidebar.tsx:22-73 | An operator's menu is Orders, Services. |
| Sidebar.SignedOutMenu | src/components/Admin/Layout/AdminSidebar.tsx:73 | Without an admin projection the menu is empty. |
| Sidebar.MenuPathsDistinct | src/components/Admin/Layout/AdminSidebar.tsx:22-71 | No two menu entries share a path. |
| Sidebar.AtMostOneActive | src/components/Admin/Layout/AdminSidebar.tsx:109 | Because an entry is active exactly when its path equals the current path, at most one entry is highlighted. |
| AdminUsers.TotalPages | src/pages/Admin/AdminUsers.tsx:133 | The page count is the least n with `10 * n` at least the total. It is 0 exactly for an empty list. |
| AdminUsers.ShowingTilesTheList | src/pages/Admin/AdminUsers.tsx:361 | On every real page the range names at most ten users within the total. Each page starts right after the previous one, and the last page ends at the total. |
| AdminUsers.ClickPrev | src/pages/Admin/AdminUsers.tsx:365-366 | Previous does nothing on page 1 and moves back one page from page 2 on. From any page at or below 1 it lands on exactly 1. |
| AdminUsers.ClickNextAsWritten | src/pages/Admin/AdminUsers.tsx:379-380 | As written, Next does nothing exactly on the page equal to the page count. On any other page it moves to the next page or to the page count, whichever is smaller. |
| AdminUsers.NextAsWrittenWithUsers | src/pages/Admin/AdminUsers.tsx:379-380 | With users present, Next as written stays on real pages. |
| AdminUsers.NextAsWrittenOnEmptyList | src/pages/Admin/AdminUsers.tsx:379-380 | With no users, Next as written moves from page 1 to page 0, whose range reads "Showing -9 to 0". |
| AdminUsers.ClickNext | src/pages/Admin/AdminUsers.tsx:379-380 | The corrected Next moves on exactly when a later page exists. |
| AdminUsers.PaginateStaysOnRealPages | src/pages/Admin/AdminUsers.tsx:365-380 | Any sequence of Previous and corrected Next clicks keeps the page at least 1 and no further than the last page, or at page 1 when there are no users. |
| AdminUsers.HandleRoleChange | src/pages/Admin/AdminUsers.tsx:56-69 | Without `users.update` the handler refuses with a toast before any call. Otherwise it updates the role, then reloads on success or toasts the failure. |
| AdminUsers.HandleSuspend | src/pages/Admin/AdminUsers.tsx:71-88 | The same permission gate comes first, then the confirm dialog. A declined dialog does nothing. A confirmed one suspends the user, then reloads on success or toasts the failure. |
| AdminUsers.OnlyAdminsSuspend | src/pages/Admin/AdminUsers.tsx:71-75 | Under the role table the suspend button shows and the handler calls the backend exactly for admins. |
| AdminUsers.OnlyAdminsChangeRoles | src/pages/Admin/AdminUsers.tsx:56-60 | The role selector is enabled, and the handler calls the backend, exactly for admins. |
| Bookings.CanCancelByStatus | src/pages/BookingsPage.tsx:96-98 | A booking may be cancelled exactly when its status is pending or approved. |
| Bookings.MarkCancelled | src/pages/BookingsPage.tsx:42-46 | The list keeps its length. Bookings with the id become cancelled with every other field kept, and every other booking is unchanged. |
| Bookings.HandleCancel | src/pages/BookingsPage.tsx:34-53 | A declined confirm does nothing. Otherwise the cancel is requested and the in-flight marker ends cleared. The list changes only on success, with one toast either way. |
| Bookings.MarkCancelledKeepsIds | src/pages/BookingsPage.tsx:42-46 | The update keeps every booking's id in place. |
| Bookings.MarkCancelledIdempotent | src/pages/BookingsPage.tsx:42-46 | Cancelling the same booking twice gives the same list as once. |
| Bookings.CancelHidesButton | src/pages/BookingsPage.tsx:42-46 | After a successful cancel the booking no longer offers a cancel button. |
| Bookings.StatusText | src/pages/BookingsPage.tsx:70-83 | The fallback label "Noma'lum" appears exactly for an unknown status. |
| Bookings.StatusTextDistinguishes | src/pages/BookingsPage.tsx:70-83 | Different known statuses get different labels. |
| Forum.AddLike | src/pages/ForumPage.tsx:60-64 | The list keeps its length. Posts with the id gain exactly one like, and every other post is unchanged. |
| Forum.AddLikeTotal | src/pages/ForumPage.tsx:60-64 | The page's like total grows by the number of posts with the id. |
| Forum.HandleLike | src/pages/ForumPage.tsx:52-68 | Signed out, it adds an error toast and makes no call. Signed in, it calls the backend with the id; on success the like is added, on failure only an error toast. |
| Forum.HandleCreate | src/pages/ForumPage.tsx:34-50 | Signed out, no call is made. On success the new post goes first and the rest follow in order, and the form is cleared and closed. On failure only an error toast is added. |
| Forum.SubmitCreate | src/pages/ForumPage.tsx:140-181 | The title, category and text are `required`. With any of them empty the browser stops the submit: nothing is sent and nothing changes. Every create request sent carries a complete draft. A complete draft reaches the create handler. |
| Forum.CreateShowsNewPostFirst | src/pages/ForumPage.tsx:41-43 | After a successful create, the unfiltered list is the new post followed by the old list, and the like total grows by the new post's likes. |
| Forum.FilteredPosts | src/pages/ForumPage.tsx:70-75 | The posts shown keep their order. Each holds the term, ignoring case, in its title or content, and matches a chosen category. Every post that matches is shown. |
| Forum.FilteredPostsCount | src/pages/ForumPage.tsx:70-75 | A matching post appears in the filtered list exactly as often as in the full list, and any other post not at all. |
| Forum.EmptyFilterKeepsAll | src/pages/ForumPage.tsx:70-75 | An empty search with no category shows every post. |
| Blog.FeaturedPost | src/pages/BlogPage.tsx:49 | The featured post is the first post in the "featured" category, else the first post. There is none exactly when the list is empty. |
| Blog.RegularPosts | src/pages/BlogPage.tsx:50 | The regular posts keep their order and are exactly the posts whose id differs from the featured post's. |
| Blog.RegularPostsCount | src/pages/BlogPage.tsx:50 | A post whose id differs from the featured post's appears among the regular posts exactly as often as in the whole list; a post sharing that id does not appear. With no featured post (an empty list) nothing is dropped. |
| Blog.RegularPostsOneShorter | src/pages/BlogPage.tsx:49-50 | With unique ids the regular list is exactly one post shorter than the whole list. |
| Blog.FilteredPosts | src/pages/BlogPage.tsx:31-36 | The posts shown keep their order. Each holds the term, ignoring case, in its title or excerpt, and matches a chosen category. Every post that matches is shown. |
| Blog.FilteredPostsCount | src/pages/BlogPage.tsx:31-36 | A matching post appears in the filtered list exactly as often as in the full list, and any other post not at all. |
| Blog.EmptyFilterKeepsAll | src/pages/BlogPage.tsx:31-36 | An empty search with no category shows every post. |
| Services.SortServices | src/pages/ServicesPage.tsx:56-70 | The result is a permutation of the input. By price it is non-decreasing in price, and by rating non-increasing in rating. Any other key keeps the input order. |
| Services.QueryFor | src/pages/ServicesPage.tsx:34-44 | With a known location the request asks for nearby services within 25 km. Otherwise it is the listing, where an empty search or category is left out. |
| Services.Load | src/pages/ServicesPage.tsx:29-54 | A load sends the request for its state and shows the reply sorted by its sort key. A failure keeps the old list and adds an error toast. |
| Services.ChangeSortAsWritten | src/pages/ServicesPage.tsx:142-145 | As written, the new sort key is stored, but the reload sorts the fetched list by the previous key. |
| Services.SortChangeAsWrittenKeepsOldOrder | src/pages/ServicesPage.tsx:142-145 | Switching from rating to price as written can leave the dearer service first. |
| Services.ChangeSort | src/pages/ServicesPage.tsx:142-145 | The corrected sort change reloads and sorts by the key just chosen. |
| Services.ChangeSortShowsNewOrder | src/pages/ServicesPage.tsx:142-145 | After a corrected change to price the list is in price order. |
| Services.OnParamsAsWritten | src/pages/ServicesPage.tsx:21-27 | As written, a truthy URL category becomes the selection, but the load in the same effect sends the previous selection. |
| Services.UrlCategoryAsWrittenNotSent | src/pages/ServicesPage.tsx:21-38 | Opening the page with `?category=parking` as written selects parking but asks for every category. |
| Services.OnParams | src/pages/ServicesPage.tsx:21-27 | The corrected effect sends the request for the selection it has just made. |
| Services.UrlCategorySent | src/pages/ServicesPage.tsx:21-38 | Without a location, the corrected effect asks for exactly the URL's category. |
| ServiceDetail.ClockTextReadsBack | src/pages/ServiceDetailPage.tsx:106-108 | A time below 100 hours is shown as "HH:MM", which reads back as the same minutes. |
| ServiceDetail.TimeSlots | src/pages/ServiceDetailPage.tsx:103-112 | There are 19 slots, the k-th being the clock text of 9:00 plus 30·k minutes. |
| ServiceDetail.SlotsAreHalfHours | src/pages/ServiceDetailPage.tsx:103-112 | The slots run from 09:00 to 18:00, each 30 minutes after the previous, and 18:30 is never offered. |
| ServiceDetail.HandleBooking | src/pages/ServiceDetailPage.tsx:72-101 | Without a session there is an error toast, the page goes to `/login`, and no call is made. Without a date or time there is an error toast and no call. Otherwise the booking is requested with the service, date, time and non-empty notes, and the page goes to `/bookings` exactly on success. The loading flag ends off. |
| ServiceDetail.EnabledButtonSends | src/pages/ServiceDetailPage.tsx:314 | For a signed-in visitor the enabled button always reaches the backend, and loading ends off. |
| RoutePlanner.CalculateRoute | src/pages/RoutePlannerPage.tsx:17-44 | With an empty origin or destination there is an error toast and no call. Otherwise the fixed coordinates are sent with the chosen vehicle. The route shown changes only on success, and loading ends off. |
| RoutePlanner.SubmitRoute | src/pages/RoutePlannerPage.tsx:86-145 | Both addresses are `required` and the button is disabled while loading. With an empty address or while loading the submit changes nothing and sends nothing. Otherwise the handler runs. |
| RoutePlanner.SubmitNeverShowsAddressToast | src/pages/RoutePlannerPage.tsx:20-23 | Through the form the handler's missing-address toast never appears: a submit only appends to the toast log, and never that message. |
| RoutePlanner.RequestIgnoresAddresses | src/pages/RoutePlannerPage.tsx:27-35 | Any two filled-in forms with the same vehicle send the same request, whatever addresses were typed. |
| RoutePlanner.UseCurrentLocation | src/pages/RoutePlannerPage.tsx:46-53 | With a known position the origin becomes "Joriy joylashuv" and nothing is thrown. Otherwise a new fix is requested, and the handler then throws because the notification library has no `info` notice. No notice appears and the page state is unchanged. |
| RoutePlanner.CurrentLocationFillsOrigin | src/pages/RoutePlannerPage.tsx:46-48 | After using a known position, only the destination can still block the request. |
| RoutePlanner.TruncRem | src/pages/RoutePlannerPage.tsx:64 | JavaScript's `%` by a positive number. For a non-negative dividend it is the mathematical remainder. For a negative one it is the dividend minus the divisor times the quotient truncated toward zero, which lies in (-b, 0]. |
| RoutePlanner.FormatDuration | src/pages/RoutePlannerPage.tsx:62-69 | Under an hour the text is the minutes followed by " daqiqa". |
| RoutePlanner.DurationParts | src/pages/RoutePlannerPage.tsx:62-69 | Hours times 60 plus minutes gives back the duration, the minutes stay below 60, the hours part appears exactly from 60 minutes on, and the text has the matching shape. |
| RoutePlanner.DurationTextDistinguishes | src/pages/RoutePlannerPage.tsx:62-69 | Different non-negative durations are shown as different texts. |
| RoutePlanner.FormatDistance | src/pages/RoutePlannerPage.tsx:55-58 | Below one kilometre the text is the metres followed by " m". |
| RoutePlanner.DistanceTextReadsBack | src/pages/RoutePlannerPage.tsx:55-58 | A distance text below one kilometre ends in " m" and reads back as the metres it was made from. |
| Reviews.FilteredReviews | src/pages/ReviewsPage.tsx:33-44 | The reviews shown keep their order. "high" keeps ratings of at least 4, "low" at most 2, and "recent" the last 30 days, with every such review kept. |
| Reviews.FilteredReviewsCount | src/pages/ReviewsPage.tsx:33-44 | A review the filter admits appears exactly as often as in the full list, and any other review not at all. |
| Reviews.AllKeepsEverything | src/pages/ReviewsPage.tsx:41-42 | The "all" filter shows every review. |
| Reviews.HighAndLowDisjoint | src/pages/ReviewsPage.tsx:37-40 | No review is both high and low, and a rating of 3 is in neither. |
| Reviews.PositiveCountIsHigh | src/pages/ReviewsPage.tsx:93 | The positive-review tile counts exactly the reviews the "high" filter shows. |
| Reviews.StarsShowRating | src/pages/ReviewsPage.tsx:55-64 | Of the five stars, the rating clamped to 0..5 are filled, and every filled star comes before every empty one. |
| Reviews.FilledPrefix | src/pages/ReviewsPage.tsx:56-60 | In a row of n stars filled below the rating, the filled count is the rating clamped to 0..n. |
| Reviews.AverageRating | src/pages/ReviewsPage.tsx:66-70 | The average is 0 with no reviews, and otherwise multiplies back to the sum of the ratings. |
| Reviews.AverageWithinRatings | src/pages/ReviewsPage.tsx:66-70 | With ratings between 1 and 5 the average lies between 1 and 5. |
| Reviews.LoadReviews | src/pages/ReviewsPage.tsx:15-31 | Only a signed-in user's reviews are fetched. A success replaces the list. A failure keeps it and adds an error toast. Loading ends off once the fetch settles. |
| Reviews.LoadThenShowAll | src/pages/ReviewsPage.tsx:15-44 | For a signed-in user, a successful load shown under "all" lists exactly the reviews returned. |
| Reviews.RetryAfterFailure | src/pages/ReviewsPage.tsx:15-31 | A failed load followed by a successful one gives the same page as the successful load alone, plus the error toast. |
| Events.LoadEvents | src/pages/EventsPage.tsx:14-28 | The running events are fetched exactly when the list filter is "active". A success replaces the list. A failure keeps it and adds an error toast. Loading ends off. |
| Events.LoadThenShowAll | src/pages/EventsPage.tsx:14-32 | A successful load shown with no category chosen lists exactly the events returned. |
| Events.RetryAfterFailure | src/pages/EventsPage.tsx:14-28 | A failed load followed by a successful one fetches from the same list and gives the same page as the successful load alone, plus the error toast. |
| Events.FilteredEvents | src/pages/EventsPage.tsx:30-32 | The events shown keep their order. A chosen category keeps exactly its events, and no category keeps all. |
| Events.FilteredEventsCount | src/pages/EventsPage.tsx:30-32 | An event of the chosen category (any event when none is chosen) appears exactly as often as in the full list, and any other event not at all. |
| Events.EmptyCategoryKeepsAll | src/pages/EventsPage.tsx:30-32 | With no category chosen every event is listed. |
| Events.FilterIdempotent | src/pages/EventsPage.tsx:30-32 | Filtering the filtered list by the same category changes nothing. |
| Events.StatusLabel | src/pages/EventsPage.tsx:146-147 | The label is "Faol" exactly for an active event and "Tugagan" exactly for an ended one. |
| Events.StatusLabelDistinguishes | src/pages/EventsPage.tsx:146-147 | Two cards show the same status exactly when both events are running or both have ended. |
| Profile.ProfileValidAsWritten | src/pages/ProfilePage.tsx:11-27 | The profile schema as written: names of at least two characters, a required email in email format, and a phone that must match the phone pattern even when empty. |
| Profile.ProfileValid | src/pages/ProfilePage.tsx:11-27 | The corrected profile schema: the same rules, except that the phone is either empty or matches the pattern. |
| Profile.FormFor | src/pages/ProfilePage.tsx:59-64 | The form holds the user's fields, with an empty phone when the user has none and all fields empty without a user. |
| Profile.PhonelessUserBlockedAsWritten | src/pages/ProfilePage.tsx:24-26 | As written, a user without a phone number cannot save the profile until they type one. |
| Profile.PhonelessUserAccepted | src/pages/ProfilePage.tsx:24-26 | With the phone optional, such a user's own details pass whenever the names and email do. |
| Profile.SchemasAgreeOnGivenPhone | src/pages/ProfilePage.tsx:11-27 | The schema as written and the corrected one differ only on the empty phone. |
| Profile.ProfileSubmit | src/pages/ProfilePage.tsx:76-87 | The schema is a parameter: the page as written passes `Profile.ProfileValidAsWritten`, and the corrected page passes `Profile.ProfileValid`. A form the schema rejects sends nothing and changes nothing. An accepted form is sent as typed. Success leaves edit mode, and failure stays in it with the message toasted. Loading ends off, and the signed-in user kept by the auth provider is untouched. |
| Profile.PhonelessSaveBlockedAsWritten | src/pages/ProfilePage.tsx:24-26 | On the page as written, a user without a phone number who saves their own details sends nothing, and the page stays as it was. |
| Profile.PhonelessSaveSent | src/pages/ProfilePage.tsx:24-26 | On the corrected page, the same save sends the user's details, provided the names and email pass. |
| Profile.Cancel | src/pages/ProfilePage.tsx:103-111 | Cancel restores the user's details and leaves edit mode. |
| Profile.CancelForgetsEdits | src/pages/ProfilePage.tsx:103-111 | Whatever was typed, cancelling leads to the same page. |
| Profile.PasswordValid | src/pages/ProfilePage.tsx:29-41 | The password schema: a current password, a new one of at least six characters, and a confirmation equal to the new one. |
| Profile.PasswordSubmit | src/pages/ProfilePage.tsx:89-101 | A form that fails the schema changes nothing. A valid one is always reported changed, with no backend call, and the form is cleared. |
| Profile.PasswordChangeNeverFails | src/pages/ProfilePage.tsx:89-101 | A password submission adds only success toasts, and the cleared form cannot be submitted again as it stands. |
| Profile.RejectedPasswords | src/pages/ProfilePage.tsx:29-41 | A short new password, a mismatched confirmation and an empty current password are each rejected. |
| Partnerships.Valid | src/pages/PartnershipsPage.tsx:11-35 | The partnership schema: company and contact names of at least two characters, a required email in email format, a required phone matching the pattern, a chosen service type, and a description of at least 50 characters. |
| Partnerships.RejectedRequests | src/pages/PartnershipsPage.tsx:11-35 | A description under 50 characters, short names, a phone off the pattern and no service type are each rejected, and so is the empty form, whatever the email test. |
| Partnerships.Submit | src/pages/PartnershipsPage.tsx:52-64 | A request is sent exactly when the form shows and passes the schema. Success shows the thank-you panel with the form cleared. Failure keeps the form as typed. Loading ends off. |
| Partnerships.NewRequest | src/pages/PartnershipsPage.tsx:99 | "New request" returns to the form and changes nothing else. |
| Partnerships.NewRequestStartsOver | src/pages/PartnershipsPage.tsx:52-64 | After a successful request and "new request" the form is empty and cannot be sent until filled in. |
| Partnerships.SubmittedSendsNothing | src/pages/PartnershipsPage.tsx:89-105 | While the thank-you panel shows nothing can be sent. |
| Support.ContactValid | src/pages/SupportPage.tsx:9-25 | The contact schema: a name of at least two characters, a required email in email format, a subject, and a message of at least ten characters. |
| Support.ContactSubmit | src/pages/SupportPage.tsx:43-55 | A form that fails the schema changes nothing. A valid one is always reported sent, with no backend call, and the form is cleared. |
| Support.ContactNeverFails | src/pages/SupportPage.tsx:43-55 | A contact submission adds only success toasts, and the cleared form cannot be sent again as it stands. |
| Support.RejectedContacts | src/pages/SupportPage.tsx:9-25 | A short name, an empty subject and a message under ten characters are each rejected. |
| Support.FilteredFaqs | src/pages/SupportPage.tsx:92-95 | The questions shown keep their order, and each holds the term, ignoring case, in its question or answer. Every question that does is shown. |
| Support.FilteredFaqsCount | src/pages/SupportPage.tsx:92-95 | A matching question appears exactly as often as in the full list, and any other question not at all. |
| Support.EmptySearchKeepsAll | src/pages/SupportPage.tsx:92-95 | An empty search lists every question. |
| Support.ToggleFaq | src/pages/SupportPage.tsx:171 | A click opens the clicked item exactly when it was not the open one, and closes everything exactly when it was. |
| Support.ToggleTwiceCloses | src/pages/SupportPage.tsx:171 | Two clicks on an item close it unless it was open before. A click never opens another item. |
| Support.OpenFaq | src/pages/SupportPage.tsx:168-181 | An answer is open exactly when the remembered position exists in the filtered list, and the open item is the one at that position. |
| Support.OpenItemFollowsPosition | src/pages/SupportPage.tsx:168-181 | Because the open item is remembered by position, a search that hides it opens the next matching question instead. |

## Left out

- The HTTP services (`src/services/*.ts`) and the `api` module behind them are not part of this model. Each reply is a parameter of the handler that awaits it.
- Rendering, CSS classes, icons, React scheduling and router mechanics are left out. Navigation is an outcome value and toasts are an appended log.
- Double-submit races and the interleaving of async handlers are left out: each handler is one atomic step.
- The initial list loads of the bookings, forum, blog and admin users pages are not modelled. They have the same fetch/replace/toast shape as `Events.LoadEvents` and `Reviews.LoadReviews`. The detail page's load of one service is left out too.
- The admin users page's search, role and status filters and the "Add User" button are left out: they only pass values to the backend or do nothing.
- The CSV/Excel export (Blob, object URL and download) is a browser API and is left out.
- Geolocation is a parameter (`RoutePlanner.UseCurrentLocation`, `Services.QueryFor`). The hook that obtains it is not modelled.
- Wall-clock time and dates are left out. `Date.now()` for the "recent" filter and the ISO time stamps of the admin projection are parameters. The booking date's ISO conversion, the date picker's minimum and every `toLocaleDateString` are omitted.
- Timers: the OTP interval's firings are explicit `Tick` steps. The support form's two-second delay is not modelled.
- yup's email format is an abstract predicate. Any other library behaviour beyond required, min length, equality and the phone pattern is left out.
- `toLowerCase` is an ASCII case fold. Unicode case mapping is not modelled.
- Validation.MinLength: counts Unicode scalar values, while yup's `min` counts UTF-16 code units. A character outside the Basic Multilingual Plane, such as an emoji, counts 1 here and 2 in the browser. For example, the one-emoji name "😀" passes `min(2)` in the source but fails in the model. `RegisterPage.RejectedForms`, `Partnerships.RejectedRequests`, `Support.RejectedContacts` and `Profile.RejectedPasswords` are therefore stated for this length only. They agree with the source on text inside the Basic Multilingual Plane.
- The FAQ texts are a parameter of `Support.FilteredFaqs`, so the property "an empty search keeps all eight" is proved for any list.
- The category select on the services page has the same stale-reload shape as the sort select. It is not modelled separately.
- Auth.Boot: assumes storage holds what the provider itself wrote. A hand-edited `user` entry such as the text `null` would give a token without a user in the source, and non-JSON text would throw; neither is modelled.
- Admin.RestorePrefs: assumes storage holds what the toggle itself wrote. A non-boolean JSON value under `adminDarkMode` is treated as absent.
- Services.SortServices: for price and rating it proves a sorted permutation but not that ties keep their input order, which the source's stable sort guarantees.
- RoutePlanner.FormatDistance: takes whole metres only. The reply's distance is a JavaScript number, so a fractional value such as 523.7 would show as "523.7 m", which the model cannot express. The kilometre branch uses `toFixed(1)` on a float and gives no text in the model.
- RoutePlanner.FormatDuration: takes whole minutes only. A fractional duration from the reply, such as 90.5, would show as "1 soat 30.5 daqiqa", which the model cannot express. The same holds for `RouteInfo`'s distance and duration fields, which are integers.
- RoutePlanner.DurationParts: the read-back properties are proved for non-negative durations only. A negative duration follows JavaScript's operators in `FormatDuration` but has no stated property.
- Reviews.AverageRating: the exact mean is modelled, without the rounding to one decimal by `toFixed(1)`.
- ServiceDetail.HandleBooking: the request carries the chosen date and time as typed, not the ISO text built from them.
- Admin price and currency displays (`Intl.NumberFormat`, `toLocaleString`) and the presentational components (headers, footer, home page, dashboard, service card) are not part of this model.

## Findings

| source | as written | input that shows it | evidently intended | confidence | as-written member | corrected member |
|---|---|---|---|---|---|---|
| src/pages/OTPVerifyPage.tsx:73-77 | Resend sets the clock to 300 but does not restart the interval. The interval was cleared when the clock reached 0, which is the only time resend is enabled. | Wait 300 seconds, then press resend: the clock shows 5:00 and never counts down again, so the new code never expires and resend stays disabled. | Resend restarts the 300-second countdown. | not executed | OtpVerify.ResendFreezesCountdown | OtpVerify.ResendRestartsCountdown |
| src/pages/Admin/AdminUsers.tsx:379-380 | Next is disabled only when the page equals the page count, and it moves to `min(totalPages, page + 1)`. | With 0 users the page count is 0: on page 1 Next is enabled and moves to page 0, and the range reads "Showing -9 to 0 of 0". | Next is disabled whenever there is no later page. | not executed | AdminUsers.NextAsWrittenOnEmptyList | AdminUsers.PaginateStaysOnRealPages |
| src/pages/ServicesPage.tsx:142-145 | The sort select stores the new key and reloads at once. The reload is the function from the current render, which still sorts by the previous key. | Sort is "rating" and the reply is [B (10, rated 1), A (20, rated 5)]; choosing "price" shows [A, B]. | The reload sorts by the key just chosen. | not executed | Services.SortChangeAsWrittenKeepsOldOrder | Services.ChangeSortShowsNewOrder |
| src/pages/ServicesPage.tsx:21-27 | The URL effect selects the `category` parameter and loads in the same effect, so the load sends the previous selection. | Opening `/services?category=parking` with no location selects parking but requests every category. | The load asks for the category taken from the URL. | not executed | Services.UrlCategoryAsWrittenNotSent | Services.UrlCategorySent |
| src/pages/ProfilePage.tsx:24-26 | The phone rule is `.matches(...)` without `excludeEmptyString`, so it also tests the empty field that the form's defaults give a user without a phone. | A user with names and email filled in and no phone number cannot save the profile without typing a phone number. | The phone number is optional: empty, or a number matching the pattern. | not executed | Profile.PhonelessSaveBlockedAsWritten | Profile.PhonelessSaveSent |

## Notes

- Login signals "OTP needed" by throwing an error whose message is `OTP_REQUIRED`. `Auth.Login` keeps this as written. A backend failure whose message happens to be `OTP_REQUIRED` is therefore rethrown without an error toast, exactly like the OTP branch.
- A session is restored on reload only from a non-empty token. A login whose reply carries an empty token installs a session that the guard refuses, and a reload drops it (`Auth.LoginThenReload`, `Guard.Decide`).
- The blog page computes `regularPosts` but never renders it. It is modelled as computed.
- `Profile.ProfileSubmit` takes the schema as a parameter. The page as written passes `Profile.ProfileValidAsWritten`; the corrected page passes `Profile.ProfileValid`.
- The route planner's "use current location" button, with no position yet, calls `toast.info`. The page's notification library (react-hot-toast, imported at src/pages/RoutePlannerPage.tsx:7) has no such method, so the call throws right after the new fix is requested and the notice never appears. `RoutePlanner.UseCurrentLocation` models this as written.

=== FILE: admin.dfy ===
/** The admin provider (src/context/AdminContext.tsx): the admin projection of
    the signed-in user with its role-derived permissions, the permission test the
    admin views gate on, and the dark-mode and sidebar preferences. The ISO time
    stamps the projection records are a parameter. */
module Admin {
  import opened Common
  import opened Types
  import opened Storage

  /** The wildcard permission that grants every permission. */
  const Wildcard := "*"

  datatype AdminUser = AdminUser(
    id: string,
    firstName: string,
    lastName: string,
    email: string,
    phoneNumber: Option<string>,
    avatar: Option<string>,
    role: string,
    status: string,
    lastLogin: string,
    createdAt: string,
    permissions: seq<string>)

  const ManagerPermissions := ["users.read", "orders.read", "orders.update", "services.read", "services.update", "staff.read"]
  const OperatorPermissions := ["orders.read", "orders.update", "services.read"]

  /** `getPermissionsByRole`: admins hold the wildcard, managers and operators
      fixed lists, every other role (technicians included) nothing. */
  function PermissionsFor(role: string): (r: seq<string>)
    ensures Wildcard in r <==> ParseRole(role) == Some(Admin)
    ensures ParseRole(role) == Some(Manager) ==> r == ManagerPermissions
    ensures ParseRole(role) == Some(Operator) ==> r == OperatorPermissions
    ensures ParseRole(role).None? || ParseRole(role) == Some(Technician) ==> r == []
  {
    if role == Admin.Value() then [Wildcard]
    else if role == Manager.Value() then ManagerPermissions
    else if role == Operator.Value() then OperatorPermissions
    else []
  }

  /** The projection: the user's fields, the role, an active status, both time
      stamps set to `now`, and the role's permissions. */
  function Project(user: User, role: string, now: string): (a: AdminUser)
    ensures a.id == user.id && a.email == user.email && a.role == role
    ensures a.firstName == user.firstName && a.lastName == user.lastName
    ensures a.phoneNumber == user.phoneNumber && a.avatar == user.avatar
    ensures a.status == "active" && a.lastLogin == now && a.createdAt == now
    ensures a.permissions == PermissionsFor(role)
  {
    AdminUser(user.id, user.firstName, user.lastName, user.email, user.phoneNumber, user.avatar,
              role, "active", now, now, PermissionsFor(role))
  }

  /** The effect run whenever the auth user changes: a user with a truthy role
      replaces the projection; anything else, including signing out, keeps the
      previous one. */
  function OnUserChange(current: Option<AdminUser>, user: Option<User>, now: string): (r: Option<AdminUser>)
    ensures user.Some? && user.value.role.Some? && user.value.role.value != "" ==>
              r == Some(Project(user.value, user.value.role.value, now))
    ensures !(user.Some? && user.value.role.Some? && user.value.role.value != "") ==> r == current
  {
    if user.Some? && user.value.role.Some? && user.value.role.value != "" then
      Some(Project(user.value, user.value.role.value, now))
    else current
  }

  /** `hasPermission`: false without an admin user; otherwise the wildcard or
      the exact permission string must be held. */
  predicate HasPermission(admin: Option<AdminUser>, permission: string)
  {
    admin.Some? && (Wildcard in admin.value.permissions || permission in admin.value.permissions)
  }

  predicate IsAdmin(admin: Option<AdminUser>)
  {
    admin.Some? && admin.value.role == Admin.Value()
  }

  /** Admins count as managers. */
  predicate IsManager(admin: Option<AdminUser>)
  {
    (admin.Some? && admin.value.role == Manager.Value()) || IsAdmin(admin)
  }

  /** A projected admin holds every permission, and a projected technician or
      unknown role holds none. */
  lemma ProjectedRoles(user: User, now: string, permission: string)
    ensures HasPermission(Some(Project(user, "admin", now)), permission)
    ensures IsAdmin(Some(Project(user, "admin", now))) && IsManager(Some(Project(user, "admin", now)))
    ensures forall role :: ParseRole(role).None? || ParseRole(role) == Some(Technician) ==>
              !HasPermission(Some(Project(user, role, now)), permission)
  {
  }

  /** On a projection, `isAdmin` holds exactly for the admin role, which is also
      exactly when the wildcard is held; `isManager` holds for managers and admins. */
  lemma RoleFlags(user: User, role: string, now: string)
    ensures var a := Some(Project(user, role, now));
            (IsAdmin(a) <==> role == "admin") && (IsAdmin(a) <==> Wildcard in a.value.permissions)
    ensures var a := Some(Project(user, role, now));
            IsManager(a) <==> role == "admin" || role == "manager"
    ensures !IsAdmin(None) && !IsManager(None)
  {
  }

  /** The roles form a ladder: what an operator may do a manager may do, and
      what a manager may do an admin may do. */
  lemma {:induction false} PermissionLadder(user: User, now: string, permission: string)
    ensures HasPermission(Some(Project(user, "operator", now)), permission) ==>
              HasPermission(Some(Project(user, "manager", now)), permission)
    ensures HasPermission(Some(Project(user, "manager", now)), permission) ==>
              HasPermission(Some(Project(user, "admin", now)), permission)
  {
    assert Wildcard !in OperatorPermissions && Wildcard !in ManagerPermissions;
    assert forall p :: p in OperatorPermissions ==> p in ManagerPermissions;
  }

  /** Signing out does not clear the projection: it still grants what it
      granted, and only the route guard keeps a signed-out visitor out. */
  lemma ProjectionOutlivesLogout(current: Option<AdminUser>, now: string, permission: string)
    ensures HasPermission(OnUserChange(current, None, now), permission) == HasPermission(current, permission)
  {
  }

  /** A signed-in user whose payload has no role never gets an admin projection
      from a fresh provider. */
  lemma NoRoleNoAdmin(user: User, now: string, permission: string)
    requires user.role.None? || user.role.value == ""
    ensures !HasPermission(OnUserChange(None, Some(user), now), permission)
  {
  }

  /** The two layout preferences and the storage that persists one of them. */
  datatype Prefs = Prefs(darkMode: bool, sidebarCollapsed: bool, store: Store)

  /** The provider as mounted: both flags off, then the restore effect, which
      reads the JSON boolean saved under `adminDarkMode`. */
  function RestorePrefs(store: Store): (p: Prefs)
    ensures p.store == store && !p.sidebarCollapsed
    ensures p.darkMode <==> DarkModeKey in store && store[DarkModeKey] == BoolJson(true)
  {
    if DarkModeKey in store && store[DarkModeKey].BoolJson? then Prefs(store[DarkModeKey].flag, false, store)
    else Prefs(false, false, store)
  }

  function ToggleDarkMode(p: Prefs): (r: Prefs)
    ensures r.darkMode != p.darkMode && r.sidebarCollapsed == p.sidebarCollapsed
    ensures r.store.Keys == p.store.Keys + {DarkModeKey}
    ensures r.store[DarkModeKey] == BoolJson(r.darkMode)
    ensures forall k :: k in p.store && k != DarkModeKey ==> r.store[k] == p.store[k]
  {
    var flag := !p.darkMode;
    p.(darkMode := flag, store := p.store[DarkModeKey := BoolJson(flag)])
  }

  function ToggleSidebar(p: Prefs): (r: Prefs)
    ensures r.sidebarCollapsed != p.sidebarCollapsed && r.darkMode == p.darkMode && r.store == p.store
  {
    p.(sidebarCollapsed := !p.sidebarCollapsed)
  }

  /** The dark-mode choice survives a reload: the restore effect reads back the
      value the toggle saved. */
  lemma ToggleThenReload(p: Prefs)
    ensures RestorePrefs(ToggleDarkMode(p).store).darkMode == ToggleDarkMode(p).darkMode
  {
  }

  /** Toggling twice restores the flag and leaves storage holding it. */
  lemma ToggleTwice(p: Prefs)
    ensures ToggleDarkMode(ToggleDarkMode(p)).darkMode == p.darkMode
    ensures RestorePrefs(ToggleDarkMode(ToggleDarkMode(p)).store).darkMode == p.darkMode
    ensures ToggleSidebar(ToggleSidebar(p)) == p
  {
  }
}

=== FILE: adminusers.dfy ===
/** The admin users page (src/pages/Admin/AdminUsers.tsx): the pager over
    server-side pages of ten users, and the permission gates in front of the
    role-change and suspend actions. */
module AdminUsers {
  import opened Common
  import opened Types
  import Admin

  const PerPage := 10

  /** The number of pages: the user count divided by the page size, rounded up. */
  function TotalPages(total: nat): (n: nat)
    ensures n * PerPage >= total
    ensures n > 0 ==> (n - 1) * PerPage < total
    ensures n == 0 <==> total == 0
  {
    (total + PerPage - 1) / PerPage
  }

  /** The "Showing first to last of total" line. */
  datatype Span = Span(first: int, last: int)

  function Showing(page: int, total: nat): Span
  {
    Span((page - 1) * PerPage + 1, if page * PerPage < total then page * PerPage else total)
  }

  /** On every real page the line names at most ten users, all of them within
      the total; consecutive pages continue where the previous one stopped and
      the last page ends at the total. */
  lemma ShowingTilesTheList(page: int, total: nat)
    requires 1 <= page <= TotalPages(total)
    ensures var s := Showing(page, total); 1 <= s.first <= s.last <= total && s.last - s.first < PerPage
    ensures page < TotalPages(total) ==> Showing(page + 1, total).first == Showing(page, total).last + 1
    ensures page == TotalPages(total) ==> Showing(page, total).last == total
  {
  }

  /** Previous: disabled on page 1, otherwise one page back but never below 1. */
  function ClickPrev(page: int): (r: int)
    ensures page == 1 ==> r == page
    ensures page != 1 ==> r >= 1 && (page > 1 ==> r == page - 1)
    ensures page <= 1 ==> r == 1
  {
    if page == 1 then page else if page - 1 > 1 then page - 1 else 1
  }

  /** Next as written: disabled only when the page equals the page count,
      otherwise one page on but never past the page count. */
  function ClickNextAsWritten(page: int, total: nat): (r: int)
    ensures page == TotalPages(total) ==> r == page
    ensures page != TotalPages(total) ==> r <= TotalPages(total)
    ensures page != TotalPages(total) && page + 1 <= TotalPages(total) ==> r == page + 1
    ensures page != TotalPages(total) && page + 1 > TotalPages(total) ==> r == TotalPages(total)
  {
    var pages := TotalPages(total);
    if page == pages then page else if pages < page + 1 then pages else page + 1
  }

  /** With users present, Next as written stays on real pages. */
  lemma NextAsWrittenWithUsers(page: int, total: nat)
    requires total > 0 && 1 <= page <= TotalPages(total)
    ensures 1 <= ClickNextAsWritten(page, total) <= TotalPages(total)
  {
  }

  /** With no users the page count is 0, so Next is enabled on page 1 and moves
      to page 0, whose line reads "Showing -9 to 0 of 0". */
  lemma NextAsWrittenOnEmptyList()
    ensures TotalPages(0) == 0 && ClickNextAsWritten(1, 0) == 0
    ensures Showing(ClickNextAsWritten(1, 0), 0) == Span(-9, 0)
  {
  }

  /** Next disabled whenever there is no later page. */
  function ClickNext(page: int, total: nat): (r: int)
    ensures r == page + 1 <==> page < TotalPages(total)
    ensures page >= TotalPages(total) ==> r == page
  {
    if page < TotalPages(total) then page + 1 else page
  }

  datatype Click = PrevClick | NextClick

  function Paginate(page: int, total: nat, clicks: seq<Click>): int
    decreases |clicks|
  {
    if |clicks| == 0 then page
    else
      var next := if clicks[0] == PrevClick then ClickPrev(page) else ClickNext(page, total);
      Paginate(next, total, clicks[1..])
  }

  /** The pages a visitor can reach from page 1: at least 1, and no further than
      the last page (page 1 when there are no users). */
  predicate OnRealPage(page: int, total: nat)
  {
    1 <= page && (page <= TotalPages(total) || page == 1)
  }

  lemma {:induction false} PaginateStaysOnRealPages(page: int, total: nat, clicks: seq<Click>)
    requires OnRealPage(page, total)
    ensures OnRealPage(Paginate(page, total, clicks), total)
    decreases |clicks|
  {
    if |clicks| > 0 {
      var next := if clicks[0] == PrevClick then ClickPrev(page) else ClickNext(page, total);
      assert OnRealPage(next, total);
      PaginateStaysOnRealPages(next, total, clicks[1..]);
    }
  }

  const UpdatePermission := "users.update"
  const DeletePermission := "users.delete"

  /** The service calls the page's actions make. */
  datatype AdminCall = UpdateRole(userId: string, role: string) | SuspendUser(userId: string)

  /** What an action did: its toasts, the call it made, and whether it reloaded
      the list afterwards. */
  datatype Handled = Handled(toasts: Toasts, call: Option<AdminCall>, reload: bool)

  /** `handleRoleChange`: refused with a toast without `users.update`; otherwise
      the role is updated and the list reloaded on success. */
  function HandleRoleChange(admin: Option<Admin.AdminUser>, userId: string, role: string, reply: Reply): (r: Handled)
    ensures r.call.Some? <==> Admin.HasPermission(admin, UpdatePermission)
    ensures r.call.Some? ==> r.call.value == UpdateRole(userId, role)
    ensures r.reload <==> r.call.Some? && reply.Done?
    ensures r.call.None? ==> r.toasts == [Error("You do not have permission to update user roles")]
    ensures r.call.Some? && reply.Done? ==> r.toasts == [Success("User role updated successfully")]
    ensures r.call.Some? && reply.Failed? ==> r.toasts == [Error("Failed to update user role")]
  {
    if !Admin.HasPermission(admin, UpdatePermission) then
      Handled([Error("You do not have permission to update user roles")], None, false)
    else if reply.Done? then
      Handled([Success("User role updated successfully")], Some(UpdateRole(userId, role)), true)
    else
      Handled([Error("Failed to update user role")], Some(UpdateRole(userId, role)), false)
  }

  /** `handleSuspendUser`: the same permission gate, then the confirm dialog
      (its answer is a parameter); a declined dialog does nothing at all. */
  function HandleSuspend(admin: Option<Admin.AdminUser>, userId: string, confirmed: bool, reply: Reply): (r: Handled)
    ensures r.call.Some? <==> Admin.HasPermission(admin, UpdatePermission) && confirmed
    ensures r.call.Some? ==> r.call.value == SuspendUser(userId)
    ensures r.reload <==> r.call.Some? && reply.Done?
    ensures !Admin.HasPermission(admin, UpdatePermission) ==> r.toasts == [Error("You do not have permission to suspend users")]
    ensures Admin.HasPermission(admin, UpdatePermission) && !confirmed ==> r.toasts == []
    ensures r.call.Some? && reply.Done? ==> r.toasts == [Success("User suspended successfully")]
    ensures r.call.Some? && reply.Failed? ==> r.toasts == [Error("Failed to suspend user")]
  {
    if !Admin.HasPermission(admin, UpdatePermission) then
      Handled([Error("You do not have permission to suspend users")], None, false)
    else if !confirmed then
      Handled([], None, false)
    else if reply.Done? then
      Handled([Success("User suspended successfully")], Some(SuspendUser(userId)), true)
    else
      Handled([Error("Failed to suspend user")], Some(SuspendUser(userId)), false)
  }

  /** The suspend button renders only with `users.delete`. */
  predicate SuspendButtonShown(admin: Option<Admin.AdminUser>)
  {
    Admin.HasPermission(admin, DeletePermission)
  }

  /** The role selector in the user modal is enabled only with `users.update`. */
  predicate RoleSelectorEnabled(admin: Option<Admin.AdminUser>)
  {
    Admin.HasPermission(admin, UpdatePermission)
  }

  /** Under the role table only an admin can suspend a user: no other role
      holds `users.delete` or `users.update`. */
  lemma OnlyAdminsSuspend(user: User, role: string, now: string, userId: string, reply: Reply)
    ensures var a := Some(Admin.Project(user, role, now));
            SuspendButtonShown(a) && HandleSuspend(a, userId, true, reply).call.Some? <==> role == "admin"
  {
    var a := Some(Admin.Project(user, role, now));
    if role != "admin" {
      assert DeletePermission !in a.value.permissions;
    }
  }

  /** Likewise only an admin can change roles; a manager, who may read the
      user list, finds the selector disabled and the handler refusing. */
  lemma OnlyAdminsChangeRoles(user: User, role: string, now: string, userId: string, newRole: string, reply: Reply)
    ensures var a := Some(Admin.Project(user, role, now));
            RoleSelectorEnabled(a) <==> role == "admin"
    ensures var a := Some(Admin.Project(user, role, now));
            HandleRoleChange(a, userId, newRole, reply).call.Some? <==> role == "admin"
  {
    var a := Some(Admin.Project(user, role, now));
    if role != "admin" {
      assert UpdatePermission !in a.value.permissions;
    }
  }
}

=== FILE: auth.dfy ===
/** The authentication provider (src/context/AuthContext.tsx): the in-memory
    session (user, token, loading), its mirror in `localStorage`, and the
    login / register / verifyOTP / logout transitions. Each async handler is one
    atomic step that receives the backend's reply as a parameter and reports how
    its promise settled. */
module Auth {
  import opened Common
  import opened Types
  import opened Storage

  datatype AuthState = AuthState(
    user: Option<User>,
    token: Option<string>,
    loading: bool,
    store: Store,
    toasts: Toasts)

  /** How the promise returned to the calling page settled. */
  datatype Settled = Resolved | Rejected(message: string)

  datatype Step = Step(state: AuthState, settled: Settled)

  /** Reply of `POST /auth/login`; with `requiresOTP` set, token and user are ignored. */
  datatype LoginReply = LoginOk(token: string, user: User, requiresOTP: bool) | LoginFailed(message: string)

  /** Reply of `POST /auth/register`. */
  datatype RegisterReply = RegisterOk | RegisterFailed(message: string)

  /** Reply of `POST /auth/verify-otp`. */
  datatype VerifyReply = VerifyOk(token: string, user: User) | VerifyFailed(message: string)

  /** The sentinel message login throws to tell the page an OTP is needed. */
  const OtpRequired := "OTP_REQUIRED"

  /** Token and user are set and cleared together. */
  predicate Paired(s: AuthState)
  {
    s.user.None? <==> s.token.None?
  }

  /** Storage holds `token` under `authToken` and the JSON of `user` under `user`. */
  predicate Holds(store: Store, token: string, user: User)
  {
    TokenKey in store && store[TokenKey] == Text(token) &&
    UserKey in store && store[UserKey] == UserJson(user)
  }

  /** An installed session is also what storage holds under the two keys. */
  predicate Mirrored(s: AuthState)
  {
    s.user.Some? && s.token.Some? ==> Holds(s.store, s.token.value, s.user.value)
  }

  predicate Valid(s: AuthState)
  {
    Paired(s) && Mirrored(s)
  }

  /** Same user, token and storage; the loading flag and toast logs may differ. */
  predicate SameSession(a: AuthState, b: AuthState)
  {
    a.user == b.user && a.token == b.token && a.store == b.store
  }

  /** The provider as mounted: empty session, then the restore effect, which
      installs a session only when both keys hold truthy values. */
  function Boot(store: Store): (s: AuthState)
    ensures Valid(s) && !s.loading && s.toasts == []
    ensures s.store == store
    ensures s.token.Some? <==> StoredText(store, TokenKey).Some? && StoredUser(store, UserKey).Some?
    ensures s.token.Some? ==> s.token == StoredText(store, TokenKey) && s.user == StoredUser(store, UserKey)
  {
    var t := StoredText(store, TokenKey);
    var u := StoredUser(store, UserKey);
    if t.Some? && u.Some? then AuthState(u, t, false, store, [])
    else AuthState(None, None, false, store, [])
  }

  /** Installs a session in memory and storage. */
  function Install(s: AuthState, token: string, user: User, note: string): (r: AuthState)
    ensures Valid(r) && r.user == Some(user) && r.token == Some(token) && !r.loading
    ensures r.store.Keys == s.store.Keys + {TokenKey, UserKey}
    ensures forall k :: k in s.store && k != TokenKey && k != UserKey ==> r.store[k] == s.store[k]
    ensures r.toasts == s.toasts + [Success(note)]
  {
    AuthState(Some(user), Some(token), false, s.store[TokenKey := Text(token)][UserKey := UserJson(user)],
              s.toasts + [Success(note)])
  }

  function Login(s: AuthState, reply: LoginReply): (r: Step)
    ensures !r.state.loading
    ensures Valid(s) ==> Valid(r.state)
    // An OTP reply installs nothing, even if it carries a token, and is not reported as an error.
    ensures reply.LoginOk? && reply.requiresOTP ==>
              SameSession(r.state, s) && r.settled == Rejected(OtpRequired) &&
              r.state.toasts == s.toasts + [Success("OTP kod emailingizga yuborildi")]
    // A plain success writes the same token and user to memory and storage.
    ensures reply.LoginOk? && !reply.requiresOTP ==>
              r.settled == Resolved && r.state.user == Some(reply.user) && r.state.token == Some(reply.token) &&
              Holds(r.state.store, reply.token, reply.user)
    // A failure changes no session state and rethrows; it is toasted unless its message is the sentinel.
    ensures reply.LoginFailed? ==> SameSession(r.state, s) && r.settled == Rejected(reply.message)
    ensures reply.LoginFailed? && reply.message != OtpRequired ==>
              r.state.toasts == s.toasts + [Error("Login xatosi: " + reply.message)]
    ensures reply.LoginFailed? && reply.message == OtpRequired ==> r.state.toasts == s.toasts
  {
    match reply
    case LoginOk(token, user, requiresOTP) =>
      if requiresOTP then
        Step(s.(loading := false, toasts := s.toasts + [Success("OTP kod emailingizga yuborildi")]), Rejected(OtpRequired))
      else
        Step(Install(s, token, user, "Muvaffaqiyatli kirildi"), Resolved)
    case LoginFailed(message) =>
      if message == OtpRequired then
        Step(s.(loading := false), Rejected(message))
      else
        Step(s.(loading := false, toasts := s.toasts + [Error("Login xatosi: " + message)]), Rejected(message))
  }

  /** Registration only notifies: it never creates a session. */
  function Register(s: AuthState, reply: RegisterReply): (r: Step)
    ensures !r.state.loading && SameSession(r.state, s)
    ensures Valid(s) ==> Valid(r.state)
    ensures reply.RegisterOk? <==> r.settled == Resolved
    ensures reply.RegisterOk? ==>
              r.state.toasts == s.toasts + [Success("Ro'yxatdan o'tish muvaffaqiyatli. OTP kod emailingizga yuborildi")]
    ensures reply.RegisterFailed? ==>
              r.settled == Rejected(reply.message) &&
              r.state.toasts == s.toasts + [Error("Ro'yxatdan o'tish xatosi: " + reply.message)]
  {
    match reply
    case RegisterOk =>
      Step(s.(loading := false, toasts := s.toasts + [Success("Ro'yxatdan o'tish muvaffaqiyatli. OTP kod emailingizga yuborildi")]),
           Resolved)
    case RegisterFailed(message) =>
      Step(s.(loading := false, toasts := s.toasts + [Error("Ro'yxatdan o'tish xatosi: " + message)]), Rejected(message))
  }

  function VerifyOtp(s: AuthState, reply: VerifyReply): (r: Step)
    ensures !r.state.loading
    ensures Valid(s) ==> Valid(r.state)
    ensures reply.VerifyOk? ==>
              r.settled == Resolved && r.state.user == Some(reply.user) && r.state.token == Some(reply.token) &&
              Holds(r.state.store, reply.token, reply.user)
    ensures reply.VerifyFailed? ==>
              SameSession(r.state, s) && r.settled == Rejected(reply.message) &&
              r.state.toasts == s.toasts + [Error("OTP tasdiqlanmadi: " + reply.message)]
  {
    match reply
    case VerifyOk(token, user) =>
      Step(Install(s, token, user, "OTP muvaffaqiyatli tasdiqlandi"), Resolved)
    case VerifyFailed(message) =>
      Step(s.(loading := false, toasts := s.toasts + [Error("OTP tasdiqlanmadi: " + message)]), Rejected(message))
  }

  function Logout(s: AuthState): (r: AuthState)
    ensures r.user.None? && r.token.None? && Valid(r)
    ensures TokenKey !in r.store && UserKey !in r.store
    ensures forall k :: k in s.store && k != TokenKey && k != UserKey ==> k in r.store && r.store[k] == s.store[k]
    ensures r.loading == s.loading
    ensures r.toasts == s.toasts + [Success("Tizimdan chiqildi")]
  {
    s.(user := None, token := None, store := s.store - {TokenKey, UserKey},
       toasts := s.toasts + [Success("Tizimdan chiqildi")])
  }

  /** Logging out twice leaves the same session state as logging out once. */
  lemma LogoutIdempotent(s: AuthState)
    ensures SameSession(Logout(Logout(s)), Logout(s))
  {
    assert Logout(s).store - {TokenKey, UserKey} == Logout(s).store;
  }

  /** What a fresh page load after a successful login restores: the same
      session, provided the token is truthy; an empty token restores nothing. */
  lemma {:induction false} LoginThenReload(s: AuthState, token: string, user: User)
    ensures var r := Login(s, LoginOk(token, user, false)).state;
            token != "" ==> Boot(r.store).user == r.user && Boot(r.store).token == r.token
    ensures var r := Login(s, LoginOk(token, user, false)).state;
            token == "" ==> Boot(r.store).user.None? && Boot(r.store).token.None?
  {
    var r := Login(s, LoginOk(token, user, false)).state;
    assert r.store[TokenKey] == Text(token);
    assert r.store[UserKey] == UserJson(user);
  }

  /** The same reload round trip for a session issued by OTP verification. */
  lemma {:induction false} VerifyThenReload(s: AuthState, token: string, user: User)
    requires token != ""
    ensures var r := VerifyOtp(s, VerifyOk(token, user)).state;
            Boot(r.store).user == Some(user) && Boot(r.store).token == Some(token)
  {
    var r := VerifyOtp(s, VerifyOk(token, user)).state;
    assert r.store[TokenKey] == Text(token);
    assert r.store[UserKey] == UserJson(user);
  }

  /** After logging out, a reload restores nothing. */
  lemma LogoutThenReload(s: AuthState)
    ensures Boot(Logout(s).store).user.None? && Boot(Logout(s).store).token.None?
  {
  }

  /** One user action on the provider, with the reply the backend gave. */
  datatype Action =
    | DoLogin(login: LoginReply)
    | DoRegister(register: RegisterReply)
    | DoVerify(verify: VerifyReply)
    | DoLogout

  function Apply(s: AuthState, a: Action): AuthState
  {
    match a
    case DoLogin(reply) => Login(s, reply).state
    case DoRegister(reply) => Register(s, reply).state
    case DoVerify(reply) => VerifyOtp(s, reply).state
    case DoLogout => Logout(s)
  }

  function Run(s: AuthState, actions: seq<Action>): AuthState
    decreases |actions|
  {
    if |actions| == 0 then s else Run(Apply(s, actions[0]), actions[1..])
  }

  /** From boot, any sequence of actions keeps token and user paired and
      mirrored in storage, and leaves `loading` reset. */
  lemma {:induction false} RunKeepsValid(store: Store, actions: seq<Action>)
    ensures Valid(Run(Boot(store), actions)) && !Run(Boot(store), actions).loading
  {
    RunFromValid(Boot(store), actions);
  }

  lemma {:induction false} RunFromValid(s: AuthState, actions: seq<Action>)
    requires Valid(s) && !s.loading
    ensures Valid(Run(s, actions)) && !Run(s, actions).loading
    decreases |actions|
  {
    if |actions| > 0 {
      var a := actions[0];
      assert Valid(Apply(s, a)) && !Apply(s, a).loading by {
        match a
        case DoLogin(reply) =>
        case DoRegister(reply) =>
        case DoVerify(reply) =>
        case DoLogout =>
      }
      RunFromValid(Apply(s, a), actions[1..]);
    }
  }

  /** A session appears only through a non-OTP login success or a successful
      OTP verification; register and the OTP branch of login never create one. */
  lemma SessionOnlyFromLoginOrVerify(s: AuthState, a: Action)
    requires s.user.None? && Apply(s, a).user.Some?
    ensures (a.DoLogin? && a.login.LoginOk? && !a.login.requiresOTP) || (a.DoVerify? && a.verify.VerifyOk?)
  {
  }
}

=== FILE: blog.dfy ===
/** The blog page (src/pages/BlogPage.tsx): the featured post, the regular
    posts beside it, the search and category filter, and the category list. */
module Blog {
  import opened Common
  import opened Text

  /** The fields of a blog post the page's logic reads. */
  datatype BlogPost = BlogPost(id: string, title: string, excerpt: string, category: string)

  const FeaturedCategory := "featured"

  predicate IsFeatured(post: BlogPost)
  {
    post.category == FeaturedCategory
  }

  /** The featured post: the first post in the "featured" category, or else
      the first post of the list. */
  function FeaturedPost(posts: seq<BlogPost>): (r: Option<BlogPost>)
    ensures r.None? <==> |posts| == 0
    ensures r.Some? ==> r.value in posts
    ensures (exists i :: 0 <= i < |posts| && IsFeatured(posts[i])) ==>
              r.Some? && IsFeatured(r.value) &&
              exists i :: 0 <= i < |posts| && posts[i] == r.value && forall j :: 0 <= j < i ==> !IsFeatured(posts[j])
    ensures (forall i :: 0 <= i < |posts| ==> !IsFeatured(posts[i])) && |posts| > 0 ==> r == Some(posts[0])
  {
    var k := FindIndex(posts, IsFeatured);
    if k.Some? then Some(posts[k.value])
    else if |posts| > 0 then Some(posts[0])
    else None
  }

  function NotId(id: string): BlogPost -> bool
  {
    (q: BlogPost) => q.id != id
  }

  /** The regular posts: every post whose id differs from the featured post's.
      Without a featured post there is no id to compare with, and every post is
      kept. */
  function RegularPosts(posts: seq<BlogPost>): (r: seq<BlogPost>)
    ensures Subseq(r, posts)
    ensures FeaturedPost(posts).Some? ==> forall i :: 0 <= i < |r| ==> r[i].id != FeaturedPost(posts).value.id
    ensures FeaturedPost(posts).Some? ==>
              forall i :: 0 <= i < |posts| && posts[i].id != FeaturedPost(posts).value.id ==> posts[i] in r
  {
    var f := FeaturedPost(posts);
    if f.None? then posts
    else
      FilterIsSubseq(posts, NotId(f.value.id));
      Filter(posts, NotId(f.value.id))
  }

  /** Each post not sharing the featured post's id appears among the regular
      posts exactly as often as in the whole list, and no other post appears. */
  lemma RegularPostsCount(posts: seq<BlogPost>, x: BlogPost)
    ensures multiset(RegularPosts(posts))[x]
            == if FeaturedPost(posts).None? || x.id != FeaturedPost(posts).value.id then multiset(posts)[x] else 0
  {
    var f := FeaturedPost(posts);
    if f.Some? {
      FilterCount(posts, NotId(f.value.id), x);
    }
  }

  predicate UniqueIds(posts: seq<BlogPost>)
  {
    forall i, j :: 0 <= i < j < |posts| ==> posts[i].id != posts[j].id
  }

  /** Dropping the id of one post from a list with unique ids removes exactly
      that post. */
  lemma {:induction false} DropOneId(posts: seq<BlogPost>, k: nat)
    requires UniqueIds(posts) && k < |posts|
    ensures |Filter(posts, NotId(posts[k].id))| == |posts| - 1
    decreases |posts|
  {
    var id := posts[k].id;
    if k == 0 {
      var rest := posts[1..];
      assert forall x :: x in rest ==> NotId(id)(x) by {
        forall x | x in rest
          ensures NotId(id)(x)
        {
          var j :| 0 <= j < |rest| && rest[j] == x;
          assert posts[j + 1] == x;
        }
      }
      FilterAll(rest, NotId(id));
    } else {
      assert posts[1..][k - 1] == posts[k];
      assert UniqueIds(posts[1..]) by {
        forall i, j | 0 <= i < j < |posts[1..]|
          ensures posts[1..][i].id != posts[1..][j].id
        {
          assert posts[1..][i] == posts[i + 1] && posts[1..][j] == posts[j + 1];
        }
      }
      DropOneId(posts[1..], k - 1);
    }
  }

  /** With unique ids the featured post and the regular posts together are the
      whole list: the regular list is one shorter. */
  lemma RegularPostsOneShorter(posts: seq<BlogPost>)
    requires UniqueIds(posts) && |posts| > 0
    ensures |RegularPosts(posts)| == |posts| - 1
  {
    var f := FeaturedPost(posts).value;
    var k :| 0 <= k < |posts| && posts[k] == f;
    DropOneId(posts, k);
  }

  predicate Matches(post: BlogPost, term: string, category: string)
  {
    EitherIncludes(post.title, post.excerpt, term) && CategoryMatches(post.category, category)
  }

  /** `filteredPosts`. */
  function FilteredPosts(posts: seq<BlogPost>, term: string, category: string): (r: seq<BlogPost>)
    ensures Subseq(r, posts)
    ensures forall i :: 0 <= i < |r| ==> r[i] in posts && EitherIncludes(r[i].title, r[i].excerpt, term)
    ensures forall i :: 0 <= i < |r| ==> category == "" || r[i].category == category
    ensures forall i :: 0 <= i < |posts| && Matches(posts[i], term, category) ==> posts[i] in r
  {
    FilterIsSubseq(posts, (q: BlogPost) => Matches(q, term, category));
    Filter(posts, (q: BlogPost) => Matches(q, term, category))
  }
  /** The filter keeps every matching post as often as it is listed and no
      other post. */
  lemma FilteredPostsCount(posts: seq<BlogPost>, term: string, category: string, x: BlogPost)
    ensures multiset(FilteredPosts(posts, term, category))[x]
            == if Matches(x, term, category) then multiset(posts)[x] else 0
  {
    FilterCount(posts, (q: BlogPost) => Matches(q, term, category), x);
  }


  /** An empty search with no category shows every post. */
  lemma EmptyFilterKeepsAll(posts: seq<BlogPost>)
    ensures FilteredPosts(posts, "", "") == posts
  {
    forall q: BlogPost
      ensures Matches(q, "", "")
    {
      EmptyTermMatches(q.title);
    }
    FilterAll(posts, (q: BlogPost) => Matches(q, "", ""));
  }

  function CategoryOf(post: BlogPost): string
  {
    post.category
  }

  /** The category filter's choices: the posts' categories without repeats
      (see `Common.DistinctBy`). */
  function Categories(posts: seq<BlogPost>): seq<string>
  {
    DistinctBy(posts, CategoryOf)
  }
}

=== FILE: bookings.dfy ===
/** The bookings page (src/pages/BookingsPage.tsx): which bookings may be
    cancelled, the cancel handler's update of the list, and the status labels. */
module Bookings {
  import opened Common
  import opened Types

  /** Pending and approved bookings may be cancelled; their cancel buttons
      render only then. */
  predicate CanCancel(b: Booking)
  {
    b.status == Pending.Value() || b.status == Approved.Value()
  }

  lemma CanCancelByStatus(b: Booking)
    ensures CanCancel(b) <==> ParseStatus(b.status) == Some(Pending) || ParseStatus(b.status) == Some(Approved)
  {
  }

  /** The list update after a cancel: every booking with the given id gets the
      cancelled status. */
  function MarkCancelled(bookings: seq<Booking>, id: string): (r: seq<Booking>)
    ensures |r| == |bookings|
    ensures forall i :: 0 <= i < |r| && bookings[i].id != id ==> r[i] == bookings[i]
    ensures forall i :: 0 <= i < |r| && bookings[i].id == id ==> r[i] == bookings[i].(status := Cancelled.Value())
    decreases |bookings|
  {
    if |bookings| == 0 then []
    else
      var b := bookings[0];
      [if b.id == id then b.(status := Cancelled.Value()) else b] + MarkCancelled(bookings[1..], id)
  }

  datatype BookingsPage = BookingsPage(bookings: seq<Booking>, cancellingId: Option<string>, toasts: Toasts)

  datatype CancelResult = CancelOutcome(page: BookingsPage, call: Option<string>)

  /** `handleCancelBooking`: a declined confirm does nothing; otherwise the
      backend is asked to cancel, the list is updated only on success, and the
      in-flight marker is cleared however the call settles. */
  function HandleCancel(p: BookingsPage, id: string, confirmed: bool, reply: Reply): (r: CancelResult)
    ensures !confirmed ==> r.page == p && r.call.None?
    ensures confirmed ==> r.call == Some(id) && r.page.cancellingId.None?
    ensures confirmed && reply.Done? ==>
              r.page.bookings == MarkCancelled(p.bookings, id) &&
              r.page.toasts == p.toasts + [Success("Buyurtma bekor qilindi")]
    ensures confirmed && reply.Failed? ==>
              r.page.bookings == p.bookings &&
              r.page.toasts == p.toasts + [Error("Buyurtmani bekor qilishda xatolik yuz berdi")]
  {
    if !confirmed then CancelOutcome(p, None)
    else if reply.Done? then
      CancelOutcome(BookingsPage(MarkCancelled(p.bookings, id), None, p.toasts + [Success("Buyurtma bekor qilindi")]), Some(id))
    else
      CancelOutcome(BookingsPage(p.bookings, None, p.toasts + [Error("Buyurtmani bekor qilishda xatolik yuz berdi")]), Some(id))
  }

  /** The update keeps the order of the list and every booking's id. */
  lemma MarkCancelledKeepsIds(bookings: seq<Booking>, id: string)
    ensures forall i :: 0 <= i < |bookings| ==> MarkCancelled(bookings, id)[i].id == bookings[i].id
  {
  }

  /** Cancelling the same booking twice changes nothing more than cancelling it once. */
  lemma MarkCancelledIdempotent(bookings: seq<Booking>, id: string)
    ensures MarkCancelled(MarkCancelled(bookings, id), id) == MarkCancelled(bookings, id)
  {
  }

  /** After a successful cancel the booking's cancel button disappears. */
  lemma CancelHidesButton(p: BookingsPage, id: string)
    ensures var r := HandleCancel(p, id, true, Done).page;
            forall i :: 0 <= i < |r.bookings| && r.bookings[i].id == id ==> !CanCancel(r.bookings[i])
  {
  }

  /** `getStatusText`. */
  function StatusText(status: string): (text: string)
    ensures text == "Noma'lum" <==> ParseStatus(status).None?
  {
    if status == Pending.Value() then "Kutilmoqda"
    else if status == Approved.Value() then "Tasdiqlangan"
    else if status == Completed.Value() then "Bajarilgan"
    else if status == Cancelled.Value() then "Bekor qilingan"
    else "Noma'lum"
  }

  /** Different known statuses get different labels. */
  lemma StatusTextDistinguishes(a: string, b: string)
    requires ParseStatus(a).Some? && StatusText(a) == StatusText(b)
    ensures a == b
  {
  }
}

=== FILE: common.dfy ===
/** Sequence helpers shared by the pages: JavaScript's array filter, map and
    find-index, and the de-duplication a `Set` performs. */
module Common {

  datatype Option<+T> = None | Some(value: T)

  /** `a` is obtained from `b` by deleting elements: order is preserved. */
  ghost predicate Subseq<T>(a: seq<T>, b: seq<T>)
    decreases |b|
  {
    if |a| == 0 then true
    else if |b| == 0 then false
    else (a[0] == b[0] && Subseq(a[1..], b[1..])) || Subseq(a, b[1..])
  }

  /** The elements that satisfy `p`, in their order (JavaScript's `filter`). */
  function Filter<T>(s: seq<T>, p: T -> bool): (r: seq<T>)
    ensures |r| <= |s|
    ensures forall i :: 0 <= i < |r| ==> r[i] in s && p(r[i])
    ensures forall i :: 0 <= i < |s| && p(s[i]) ==> s[i] in r
    decreases |s|
  {
    if |s| == 0 then []
    else if p(s[0]) then [s[0]] + Filter(s[1..], p)
    else Filter(s[1..], p)
  }

  /** The filter keeps each passing element as often as it occurs and drops
      every other one: the result is the sub-multiset of passing elements. */
  lemma {:induction false} FilterCount<T>(s: seq<T>, p: T -> bool, x: T)
    ensures multiset(Filter(s, p))[x] == if p(x) then multiset(s)[x] else 0
    decreases |s|
  {
    if |s| > 0 {
      assert s == [s[0]] + s[1..];
      FilterCount(s[1..], p, x);
    }
  }

  lemma {:induction false} SubseqRefl<T>(s: seq<T>)
    ensures Subseq(s, s)
    decreases |s|
  {
    if |s| > 0 {
      SubseqRefl(s[1..]);
    }
  }

  /** The filter keeps its survivors in their original order. */
  lemma {:induction false} FilterIsSubseq<T>(s: seq<T>, p: T -> bool)
    ensures Subseq(Filter(s, p), s)
    decreases |s|
  {
    if |s| > 0 {
      FilterIsSubseq(s[1..], p);
      var r := Filter(s, p);
      if p(s[0]) {
        assert r[0] == s[0] && r[1..] == Filter(s[1..], p);
      } else {
        var t := Filter(s[1..], p);
        if |t| > 0 {
          assert Subseq(t, s[1..]);
        }
      }
    }
  }

  /** A predicate that accepts everything leaves the list as it is. */
  lemma {:induction false} FilterAll<T>(s: seq<T>, p: T -> bool)
    requires forall x :: x in s ==> p(x)
    ensures Filter(s, p) == s
    decreases |s|
  {
    if |s| > 0 {
      assert forall x :: x in s[1..] ==> x in s;
      FilterAll(s[1..], p);
    }
  }

  /** Two filters that agree on every element of the list give the same result. */
  lemma {:induction false} FilterExt<T>(s: seq<T>, p: T -> bool, q: T -> bool)
    requires forall x :: x in s ==> p(x) == q(x)
    ensures Filter(s, p) == Filter(s, q)
    decreases |s|
  {
    if |s| > 0 {
      assert forall x :: x in s[1..] ==> x in s;
      FilterExt(s[1..], p, q);
    }
  }

  /** Filtering with a conjunction is filtering twice. */
  lemma {:induction false} FilterAnd<T>(s: seq<T>, p: T -> bool, q: T -> bool)
    ensures Filter(s, x => p(x) && q(x)) == Filter(Filter(s, p), q)
    decreases |s|
  {
    if |s| > 0 {
      FilterAnd(s[1..], p, q);
    }
  }

  /** Two filters whose predicates never hold together keep no common element. */
  lemma FilterDisjoint<T>(s: seq<T>, p: T -> bool, q: T -> bool)
    requires forall x :: !(p(x) && q(x))
    ensures forall x :: !(x in Filter(s, p) && x in Filter(s, q))
  {
  }

  /** Index of the first occurrence of `x` in `s`. */
  function FirstIndex<T(==)>(s: seq<T>, x: T): (i: nat)
    requires x in s
    ensures i < |s| && s[i] == x
    ensures forall j :: 0 <= j < i ==> s[j] != x
    decreases |s|
  {
    if s[0] == x then 0 else 1 + FirstIndex(s[1..], x)
  }

  /** `f` applied to every element, in order (JavaScript's `map`). */
  function Map<T, U>(s: seq<T>, f: T -> U): (r: seq<U>)
    ensures |r| == |s|
    ensures forall i :: 0 <= i < |s| ==> r[i] == f(s[i])
  {
    seq(|s|, i requires 0 <= i < |s| => f(s[i]))
  }

  /** The position of the first element that satisfies `p` (JavaScript's
      `findIndex`), with "not found" as `None`. */
  function FindIndex<T>(s: seq<T>, p: T -> bool): (r: Option<nat>)
    ensures r.Some? ==> r.value < |s| && p(s[r.value]) && forall j :: 0 <= j < r.value ==> !p(s[j])
    ensures r.None? ==> forall j :: 0 <= j < |s| ==> !p(s[j])
    decreases |s|
  {
    if |s| == 0 then None
    else if p(s[0]) then Some(0)
    else
      var rest := FindIndex(s[1..], p);
      if rest.Some? then Some(rest.value + 1) else None
  }

  /** The distinct elements of `s` in first-occurrence order, as spreading a
      `Set` built from `s` lists them. */
  function Distinct<T(==)>(s: seq<T>): (r: seq<T>)
    decreases |s|
  {
    if |s| == 0 then []
    else
      var init := Distinct(s[..|s| - 1]);
      if s[|s| - 1] in init then init else init + [s[|s| - 1]]
  }

  ghost predicate NoDuplicates<T>(s: seq<T>)
  {
    forall i, j :: 0 <= i < j < |s| ==> s[i] != s[j]
  }

  lemma FirstIndexPrefix<T>(s: seq<T>, y: T, x: T)
    requires y in s
    ensures y in s + [x] && FirstIndex(s + [x], y) == FirstIndex(s, y)
  {
    var i := FirstIndex(s, y);
    var k := FirstIndex(s + [x], y);
    assert (s + [x])[i] == y;
    assert forall j :: 0 <= j < |s| ==> (s + [x])[j] == s[j];
  }

  /** Every element appears exactly once, nothing new appears, and elements are
      listed in the order of their first occurrence in the input. */
  lemma {:induction false} DistinctSpec<T>(s: seq<T>)
    ensures NoDuplicates(Distinct(s))
    ensures forall x :: x in Distinct(s) <==> x in s
    ensures forall i, j :: 0 <= i < j < |Distinct(s)| ==>
              FirstIndex(s, Distinct(s)[i]) < FirstIndex(s, Distinct(s)[j])
    decreases |s|
  {
    if |s| > 0 {
      var init := s[..|s| - 1];
      var x := s[|s| - 1];
      assert s == init + [x];
      DistinctSpec(init);
      var d := Distinct(init);
      forall y | y in init
        ensures y in s && FirstIndex(s, y) == FirstIndex(init, y)
      {
        FirstIndexPrefix(init, y, x);
      }
      if x !in d {
        assert x !in init;
        assert FirstIndex(s, x) == |init| by {
          assert forall j :: 0 <= j < |init| ==> s[j] == init[j];
        }
        forall i | 0 <= i < |d|
          ensures FirstIndex(s, d[i]) < FirstIndex(s, x)
        {
          assert d[i] in d;
        }
      }
    }
  }

  /** The keys of the elements of `xs` without repeats: every key carried by an
      element, once each, in the order of the first element that carries it. */
  function DistinctBy<T, K(==,!new)>(xs: seq<T>, key: T -> K): (r: seq<K>)
    ensures NoDuplicates(r)
    ensures forall k :: k in r <==> exists i :: 0 <= i < |xs| && key(xs[i]) == k
    ensures forall i, j :: 0 <= i < j < |r| ==>
              r[i] in Map(xs, key) && r[j] in Map(xs, key) &&
              FirstIndex(Map(xs, key), r[i]) < FirstIndex(Map(xs, key), r[j])
  {
    var all := Map(xs, key);
    DistinctSpec(all);
    Distinct(all)
  }
}

=== FILE: events.dfy ===
/** The events page (src/pages/EventsPage.tsx): which list is fetched, the
    category filter, the category names and the status label. */
module Events {
  import opened Common
  import opened Types

  /** The fields of an event the page's logic reads. */
  datatype Event = Event(id: string, title: string, category: string, isActive: bool)

  /** The two lists the page can fetch: "active" asks for the running events
      only, "all" for every event. */
  datatype Source = ActiveEvents | AllEvents

  datatype EventsState = EventsState(filter: string, events: seq<Event>, loading: bool, toasts: Toasts)

  datatype EventsReply = EventsFetched(list: seq<Event>) | EventsFailed

  datatype EventsLoaded = EventsLoaded(state: EventsState, source: Source)

  /** `loadEvents`, run whenever the list filter changes. */
  function LoadEvents(st: EventsState, reply: EventsReply): (r: EventsLoaded)
    ensures r.source == ActiveEvents <==> st.filter == "active"
    ensures !r.state.loading && r.state.filter == st.filter
    ensures reply.EventsFetched? ==> r.state.events == reply.list && r.state.toasts == st.toasts
    ensures reply.EventsFailed? ==>
              r.state.events == st.events && r.state.toasts == st.toasts + [Error("Tadbirlarni yuklashda xatolik yuz berdi")]
  {
    var source := if st.filter == "active" then ActiveEvents else AllEvents;
    match reply
    case EventsFetched(list) => EventsLoaded(st.(events := list, loading := false), source)
    case EventsFailed =>
      EventsLoaded(st.(loading := false, toasts := st.toasts + [Error("Tadbirlarni yuklashda xatolik yuz berdi")]), source)
  }

  function InCategory(category: string): Event -> bool
  {
    (e: Event) => category == "" || e.category == category
  }

  /** `filteredEvents`: an empty category (falsy) keeps every event, any
      other keeps those of that category, in order. */
  function FilteredEvents(events: seq<Event>, category: string): (r: seq<Event>)
    ensures Subseq(r, events)
    ensures category != "" ==> forall i :: 0 <= i < |r| ==> r[i].category == category
    ensures forall i :: 0 <= i < |events| && (category == "" || events[i].category == category) ==> events[i] in r
  {
    FilterIsSubseq(events, InCategory(category));
    Filter(events, InCategory(category))
  }
  /** A successful load shown with no category chosen lists exactly the
      events the server returned. */
  lemma LoadThenShowAll(st: EventsState, list: seq<Event>)
    ensures FilteredEvents(LoadEvents(st, EventsFetched(list)).state.events, "") == list
  {
    EmptyCategoryKeepsAll(list);
  }

  /** A failed load leaves nothing behind but its toast: loading again
      successfully gives the same page as a first successful load, with the
      error toast added. */
  lemma RetryAfterFailure(st: EventsState, list: seq<Event>)
    ensures var failed := LoadEvents(st, EventsFailed);
            && LoadEvents(failed.state, EventsFetched(list)).state
               == LoadEvents(st, EventsFetched(list)).state.(toasts := st.toasts + [Error("Tadbirlarni yuklashda xatolik yuz berdi")])
            && LoadEvents(failed.state, EventsFetched(list)).source == LoadEvents(st, EventsFetched(list)).source
  {
  }

  /** The category filter keeps every event of the category as often as it
      is listed and no other event. */
  lemma FilteredEventsCount(events: seq<Event>, category: string, x: Event)
    ensures multiset(FilteredEvents(events, category))[x]
            == if category == "" || x.category == category then multiset(events)[x] else 0
  {
    FilterCount(events, InCategory(category), x);
  }


  /** With no category chosen every event is listed. */
  lemma EmptyCategoryKeepsAll(events: seq<Event>)
    ensures FilteredEvents(events, "") == events
  {
    FilterAll(events, InCategory(""));
  }

  /** Choosing the same category again changes nothing. */
  lemma FilterIdempotent(events: seq<Event>, category: string)
    ensures FilteredEvents(FilteredEvents(events, category), category) == FilteredEvents(events, category)
  {
    var once := FilteredEvents(events, category);
    FilterAll(once, InCategory(category));
  }

  /** `getCategoryName`: the category's label, "Boshqa" for any other value. */
  function CategoryName(category: string): string
  {
    Types.CategoryName(category, "Boshqa")
  }

  /** The status line of an event card. */
  function StatusLabel(e: Event): (text: string)
    ensures text == "Faol" <==> e.isActive
    ensures text == "Tugagan" <==> !e.isActive
  {
    if e.isActive then "Faol" else "Tugagan"
  }

  /** Two cards show the same status exactly when both events are running
      or both have ended. */
  lemma StatusLabelDistinguishes(a: Event, b: Event)
    ensures StatusLabel(a) == StatusLabel(b) <==> a.isActive == b.isActive
  {
  }
}

=== FILE: forum.dfy ===
/** The forum page (src/pages/ForumPage.tsx): liking and creating posts for a
    signed-in user, the search and category filter, and the category list. */
module Forum {
  import opened Common
  import opened Types
  import opened Text

  /** The fields of a forum post the page reads or updates. */
  datatype ForumPost = ForumPost(id: string, title: string, content: string, category: string, likes: int)

  /** The create form; it is also the body of the create request. */
  datatype Draft = Draft(title: string, content: string, category: string)

  const EmptyDraft := Draft("", "", "")

  datatype ForumPage = ForumPage(posts: seq<ForumPost>, showCreateForm: bool, draft: Draft, toasts: Toasts)

  /** The list update in the like handler: one more like on every post with the id. */
  function AddLike(posts: seq<ForumPost>, id: string): (r: seq<ForumPost>)
    ensures |r| == |posts|
    ensures forall i :: 0 <= i < |r| && posts[i].id != id ==> r[i] == posts[i]
    ensures forall i :: 0 <= i < |r| && posts[i].id == id ==> r[i] == posts[i].(likes := posts[i].likes + 1)
    decreases |posts|
  {
    if |posts| == 0 then []
    else
      var p := posts[0];
      [if p.id == id then p.(likes := p.likes + 1) else p] + AddLike(posts[1..], id)
  }

  function TotalLikes(posts: seq<ForumPost>): int
    decreases |posts|
  {
    if |posts| == 0 then 0 else posts[0].likes + TotalLikes(posts[1..])
  }

  function CountId(posts: seq<ForumPost>, id: string): nat
    decreases |posts|
  {
    if |posts| == 0 then 0 else (if posts[0].id == id then 1 else 0) + CountId(posts[1..], id)
  }

  /** A like adds exactly one to the page's like total per post carrying the
      id: with unique ids, exactly one. */
  lemma {:induction false} AddLikeTotal(posts: seq<ForumPost>, id: string)
    ensures TotalLikes(AddLike(posts, id)) == TotalLikes(posts) + CountId(posts, id)
    decreases |posts|
  {
    if |posts| > 0 {
      AddLikeTotal(posts[1..], id);
      assert AddLike(posts, id)[1..] == AddLike(posts[1..], id);
    }
  }

  datatype Liked = Liked(page: ForumPage, call: Option<string>)

  /** `handleLikePost`: refused with a toast when signed out, no change on a
      failed call. */
  function HandleLike(p: ForumPage, user: Option<User>, id: string, reply: Reply): (r: Liked)
    ensures r.call.Some? <==> user.Some?
    ensures r.call.Some? ==> r.call.value == id
    ensures user.None? ==> r.page == p.(toasts := p.toasts + [Error("Like qo'yish uchun tizimga kiring")])
    ensures user.Some? && reply.Done? ==> r.page == p.(posts := AddLike(p.posts, id))
    ensures user.Some? && reply.Failed? ==> r.page == p.(toasts := p.toasts + [Error("Like qo'yishda xatolik yuz berdi")])
  {
    if user.None? then Liked(p.(toasts := p.toasts + [Error("Like qo'yish uchun tizimga kiring")]), None)
    else if reply.Done? then Liked(p.(posts := AddLike(p.posts, id)), Some(id))
    else Liked(p.(toasts := p.toasts + [Error("Like qo'yishda xatolik yuz berdi")]), Some(id))
  }

  /** Reply of the create call: the stored post, or a failure. */
  datatype CreateReply = CreatedPost(post: ForumPost) | CreateFailed

  datatype Created = Created(page: ForumPage, call: Option<Draft>)

  /** `handleCreatePost`: refused with a toast when signed out; on success the
      new post goes first and the form is cleared and closed; on failure the
      form stays as it was. */
  function HandleCreate(p: ForumPage, user: Option<User>, reply: CreateReply): (r: Created)
    ensures r.call.Some? <==> user.Some?
    ensures r.call.Some? ==> r.call.value == p.draft
    ensures user.None? ==> r.page == p.(toasts := p.toasts + [Error("Post yaratish uchun tizimga kiring")])
    ensures user.Some? && reply.CreatedPost? ==>
              |r.page.posts| == |p.posts| + 1 && r.page.posts[0] == reply.post && r.page.posts[1..] == p.posts &&
              r.page.draft == EmptyDraft && !r.page.showCreateForm &&
              r.page.toasts == p.toasts + [Success("Post muvaffaqiyatli yaratildi")]
    ensures user.Some? && reply.CreateFailed? ==>
              r.page == p.(toasts := p.toasts + [Error("Post yaratishda xatolik yuz berdi")])
  {
    if user.None? then Created(p.(toasts := p.toasts + [Error("Post yaratish uchun tizimga kiring")]), None)
    else match reply
      case CreatedPost(post) =>
        Created(ForumPage([post] + p.posts, false, EmptyDraft, p.toasts + [Success("Post muvaffaqiyatli yaratildi")]), Some(p.draft))
      case CreateFailed =>
        Created(p.(toasts := p.toasts + [Error("Post yaratishda xatolik yuz berdi")]), Some(p.draft))
  }

  /** The title input, the category select and the text area are all
      `required`: with any of them empty the browser refuses to submit. */
  predicate DraftComplete(d: Draft)
  {
    d.title != "" && d.category != "" && d.content != ""
  }

  /** The create form's submit: an incomplete draft is stopped by the browser
      and nothing changes; a complete one reaches the create handler. */
  function SubmitCreate(p: ForumPage, user: Option<User>, reply: CreateReply): (r: Created)
    ensures !DraftComplete(p.draft) ==> r == Created(p, None)
    ensures r.call.Some? <==> DraftComplete(p.draft) && user.Some?
    ensures r.call.Some? ==> r.call.value == p.draft && DraftComplete(r.call.value)
    ensures DraftComplete(p.draft) ==> r == HandleCreate(p, user, reply)
  {
    if DraftComplete(p.draft) then HandleCreate(p, user, reply) else Created(p, None)
  }

  predicate Matches(post: ForumPost, term: string, category: string)
  {
    EitherIncludes(post.title, post.content, term) && CategoryMatches(post.category, category)
  }

  /** `filteredPosts`. */
  function FilteredPosts(posts: seq<ForumPost>, term: string, category: string): (r: seq<ForumPost>)
    ensures Subseq(r, posts)
    ensures forall i :: 0 <= i < |r| ==> r[i] in posts && EitherIncludes(r[i].title, r[i].content, term)
    ensures forall i :: 0 <= i < |r| ==> category == "" || r[i].category == category
    ensures forall i :: 0 <= i < |posts| && Matches(posts[i], term, category) ==> posts[i] in r
  {
    FilterIsSubseq(posts, (q: ForumPost) => Matches(q, term, category));
    Filter(posts, (q: ForumPost) => Matches(q, term, category))
  }
  /** The filter keeps every matching post as often as it is listed and no
      other post. */
  lemma FilteredPostsCount(posts: seq<ForumPost>, term: string, category: string, x: ForumPost)
    ensures multiset(FilteredPosts(posts, term, category))[x]
            == if Matches(x, term, category) then multiset(posts)[x] else 0
  {
    FilterCount(posts, (q: ForumPost) => Matches(q, term, category), x);
  }


  /** An empty search with no category shows every post. */
  lemma EmptyFilterKeepsAll(posts: seq<ForumPost>)
    ensures FilteredPosts(posts, "", "") == posts
  {
    forall q: ForumPost
      ensures Matches(q, "", "")
    {
      EmptyTermMatches(q.title);
    }
    FilterAll(posts, (q: ForumPost) => Matches(q, "", ""));
  }
  /** After a successful create, the unfiltered list shows the new post first
      and then the old list, and the like total grows by the new post's likes. */
  lemma CreateShowsNewPostFirst(p: ForumPage, user: Option<User>, post: ForumPost)
    requires user.Some?
    ensures var r := HandleCreate(p, user, CreatedPost(post));
            && FilteredPosts(r.page.posts, "", "") == [post] + p.posts
            && TotalLikes(r.page.posts) == TotalLikes(p.posts) + post.likes
  {
    var r := HandleCreate(p, user, CreatedPost(post));
    EmptyFilterKeepsAll(r.page.posts);
    assert r.page.posts == [post] + p.posts;
    assert r.page.posts[1..] == p.posts;
  }


  function CategoryOf(post: ForumPost): string
  {
    post.category
  }

  /** The category filter's choices: the posts' categories without repeats
      (see `Common.DistinctBy`). */
  function Categories(posts: seq<ForumPost>): seq<string>
  {
    DistinctBy(posts, CategoryOf)
  }
}

=== FILE: guard.dfy ===
/** The route guard (src/components/ProtectedRoute.tsx): render the protected
    view when a session is present, otherwise redirect to the login page with the
    requested path as navigation state. */
module Guard {
  import opened Common
  import opened Types
  import Auth

  const LoginPath := "/login"

  datatype Decision = Redirect(to: string, from: string) | RenderChildren

  /** JavaScript truthiness of the session: a user object and a non-empty token. */
  predicate HasSession(user: Option<User>, token: Option<string>)
  {
    user.Some? && token.Some? && token.value != ""
  }

  function Decide(user: Option<User>, token: Option<string>, pathname: string): (d: Decision)
    ensures d.RenderChildren? <==> HasSession(user, token)
    ensures d.Redirect? ==> d.to == LoginPath && d.from == pathname
  {
    if user.None? || token.None? || token.value == "" then Redirect(LoginPath, pathname)
    else RenderChildren
  }

  /** Whether the guard renders or redirects never depends on the requested path. */
  lemma DecisionIgnoresPath(user: Option<User>, token: Option<string>, p: string, q: string)
    ensures Decide(user, token, p).RenderChildren? == Decide(user, token, q).RenderChildren?
  {
  }

  /** After a successful login with a non-empty token every protected view renders. */
  lemma LoginOpensGuard(s: Auth.AuthState, token: string, user: User, pathname: string)
    requires token != ""
    ensures var r := Auth.Login(s, Auth.LoginOk(token, user, false)).state;
            Decide(r.user, r.token, pathname) == RenderChildren
  {
  }

  /** An OTP-gated login leaves the guard exactly as it was. */
  lemma OtpLoginKeepsGuard(s: Auth.AuthState, token: string, user: User, pathname: string)
    ensures var r := Auth.Login(s, Auth.LoginOk(token, user, true)).state;
            Decide(r.user, r.token, pathname) == Decide(s.user, s.token, pathname)
  {
  }

  /** After logout every protected view redirects to the login page. */
  lemma LogoutClosesGuard(s: Auth.AuthState, pathname: string)
    ensures Decide(Auth.Logout(s).user, Auth.Logout(s).token, pathname) == Redirect(LoginPath, pathname)
  {
  }
}

=== FILE: otp.dfy ===
/** The OTP verification page (src/pages/OTPVerifyPage.tsx): six one-character
    cells, a 300-second countdown driven by a one-second interval, submission
    through the auth provider, and the resend button. Interval ticks are
    explicit steps. */
module OtpVerify {
  import opened Common
  import opened Types
  import opened Text
  import Auth

  const Cells := 6
  const Countdown := 300

  /** `ticking` says whether the interval is still installed. */
  datatype OtpPage = OtpPage(otp: seq<string>, timeLeft: int, ticking: bool, toasts: Toasts)

  predicate Valid(p: OtpPage)
  {
    && |p.otp| == Cells
    && (forall i :: 0 <= i < |p.otp| ==> |p.otp[i]| <= 1)
    && 0 <= p.timeLeft <= Countdown
    && (p.ticking ==> p.timeLeft > 0)
  }

  const Initial := OtpPage(["", "", "", "", "", ""], Countdown, true, [])

  /** Entering the page: without a (truthy) email in navigation state the page
      navigates to the login page and renders nothing. */
  datatype Entry = GoToLogin | Show(page: OtpPage, email: string)

  function Enter(email: Option<string>): (e: Entry)
    ensures e.GoToLogin? <==> email.None? || email.value == ""
    ensures e.Show? ==> Valid(e.page) && e.page.timeLeft == Countdown && e.page.ticking && e.email == email.value
    ensures e.Show? ==> forall i :: 0 <= i < |e.page.otp| ==> e.page.otp[i] == ""
  {
    if email.None? || email.value == "" then GoToLogin else Show(Initial, email.value)
  }

  /** An edit of one cell and the cell that receives focus afterwards. */
  datatype Edit = Edit(page: OtpPage, focus: Option<nat>)

  function ChangeDigit(p: OtpPage, index: nat, value: string): (r: Edit)
    requires Valid(p) && index < Cells
    ensures Valid(r.page)
    ensures |value| > 1 ==> r.page == p && r.focus == None
    ensures |value| <= 1 ==> r.page.otp[index] == value && r.page.timeLeft == p.timeLeft
    ensures |value| <= 1 ==> r.page == p.(otp := p.otp[index := value])
    ensures forall j :: 0 <= j < Cells && j != index ==> r.page.otp[j] == p.otp[j]
    ensures r.focus.Some? <==> |value| == 1 && index < Cells - 1
    ensures r.focus.Some? ==> r.focus.value == index + 1
  {
    if |value| > 1 then Edit(p, None)
    else
      var page := p.(otp := p.otp[index := value]);
      if value != "" && index < 5 then Edit(page, Some(index + 1)) else Edit(page, None)
  }

  /** Backspace on an empty cell other than the first moves focus back one cell. */
  function KeyDown(p: OtpPage, index: nat, key: string): (focus: Option<nat>)
    requires Valid(p) && index < Cells
    ensures focus.Some? <==> key == "Backspace" && p.otp[index] == "" && index > 0
    ensures focus.Some? ==> focus.value + 1 == index
  {
    if key == "Backspace" && p.otp[index] == "" && index > 0 then Some(index - 1) else None
  }

  /** Typing one character into a cell before the last moves focus to the
      next cell; Backspace there, while that cell is still empty, brings focus
      back to the cell just typed in. */
  lemma TypeThenBackspace(p: OtpPage, i: nat, c: string)
    requires Valid(p) && i < Cells - 1 && |c| == 1 && p.otp[i + 1] == ""
    ensures ChangeDigit(p, i, c).focus == Some(i + 1)
    ensures KeyDown(ChangeDigit(p, i, c).page, i + 1, "Backspace") == Some(i)
  {
  }

  /** Erasing a cell keeps focus where it is; a Backspace there then moves
      focus to the previous cell, except on the first one. */
  lemma EraseThenBackspace(p: OtpPage, i: nat)
    requires Valid(p) && i < Cells
    ensures ChangeDigit(p, i, "").focus.None?
    ensures i > 0 ==> KeyDown(ChangeDigit(p, i, "").page, i, "Backspace") == Some(i - 1)
    ensures i == 0 ==> KeyDown(ChangeDigit(p, i, "").page, i, "Backspace").None?
  {
  }

  /** One firing of the interval; once the count reaches zero the interval is
      cleared and further firings do nothing. */
  function Tick(p: OtpPage): (r: OtpPage)
    requires Valid(p)
    ensures Valid(r) && r.otp == p.otp
    ensures p.ticking ==> r.timeLeft == p.timeLeft - 1 && (r.ticking <==> r.timeLeft > 0)
    ensures !p.ticking ==> r == p
  {
    if !p.ticking then p
    else if p.timeLeft <= 1 then p.(timeLeft := 0, ticking := false)
    else p.(timeLeft := p.timeLeft - 1)
  }

  function Ticks(p: OtpPage, n: nat): (r: OtpPage)
    requires Valid(p)
    ensures Valid(r)
    decreases n
  {
    if n == 0 then p else Ticks(Tick(p), n - 1)
  }

  /** While the interval runs, each second takes one off the clock; it stops at
      zero and never goes below it. */
  lemma {:induction false} TicksCountDown(p: OtpPage, n: nat)
    requires Valid(p) && p.ticking
    ensures n < p.timeLeft ==> Ticks(p, n).timeLeft == p.timeLeft - n && Ticks(p, n).ticking
    ensures n >= p.timeLeft ==> Ticks(p, n).timeLeft == 0 && !Ticks(p, n).ticking
    decreases n
  {
    if n > 0 {
      var q := Tick(p);
      if q.ticking {
        TicksCountDown(q, n - 1);
      } else {
        StoppedStaysStopped(q, n - 1);
      }
    }
  }

  lemma {:induction false} StoppedStaysStopped(p: OtpPage, n: nat)
    requires Valid(p) && !p.ticking
    ensures Ticks(p, n) == p
    decreases n
  {
    if n > 0 {
      StoppedStaysStopped(Tick(p), n - 1);
    }
  }

  /** The six cells concatenated into the code. */
  function Join(cells: seq<string>): (s: string)
    decreases |cells|
  {
    if |cells| == 0 then "" else cells[0] + Join(cells[1..])
  }

  /** With cells of at most one character, the joined code has length six
      exactly when every one of the six cells is filled. */
  lemma {:induction false} JoinFullIffAllFilled(cells: seq<string>)
    requires forall i :: 0 <= i < |cells| ==> |cells[i]| <= 1
    ensures |Join(cells)| <= |cells|
    ensures |Join(cells)| == |cells| <==> forall i :: 0 <= i < |cells| ==> |cells[i]| == 1
    decreases |cells|
  {
    if |cells| > 0 {
      JoinFullIffAllFilled(cells[1..]);
      if |Join(cells)| == |cells| {
        forall i | 0 <= i < |cells|
          ensures |cells[i]| == 1
        {
          if i > 0 {
            assert cells[i] == cells[1..][i - 1];
          }
        }
      }
    }
  }

  /** The digits of the cells, concatenated, are digits. */
  lemma {:induction false} JoinAllDigits(cells: seq<string>)
    requires forall i :: 0 <= i < |cells| ==> AllDigits(cells[i])
    ensures AllDigits(Join(cells))
    decreases |cells|
  {
    if |cells| > 0 {
      JoinAllDigits(cells[1..]);
      var rest := Join(cells[1..]);
      assert Join(cells) == cells[0] + rest;
      forall k | 0 <= k < |Join(cells)|
        ensures IsDigit(Join(cells)[k])
      {
        if k >= |cells[0]| {
          assert Join(cells)[k] == rest[k - |cells[0]|];
        }
      }
    }
  }

  /** Every cell matches the inputs' `[0-9]*` pattern (an empty cell does).
      The form has no `noValidate`, so otherwise the browser reports the
      mismatch and the submit event never fires. */
  predicate CellsMatchPattern(p: OtpPage)
  {
    forall i :: 0 <= i < |p.otp| ==> AllDigits(p.otp[i])
  }

  predicate SubmitEnabled(p: OtpPage, loading: bool)
  {
    !loading && p.timeLeft != 0
  }

  predicate ResendEnabled(p: OtpPage)
  {
    !(p.timeLeft > 0)
  }

  /** The `verifyOTP(email, code)` call a submission makes. */
  datatype VerifyCall = VerifyCall(email: string, code: string)

  datatype Submitted = Submitted(page: OtpPage, auth: Auth.AuthState, navigate: Option<string>, call: Option<VerifyCall>)

  /** The submit handler: a code shorter than six characters is refused locally;
      otherwise the auth provider verifies it and the page goes home on success. */
  function HandleSubmit(p: OtpPage, auth: Auth.AuthState, email: string, reply: Auth.VerifyReply): (r: Submitted)
    requires Valid(p)
    ensures Valid(r.page)
    ensures r.call.Some? <==> forall i :: 0 <= i < Cells ==> p.otp[i] != ""
    ensures r.call.Some? ==> r.call.value == VerifyCall(email, Join(p.otp)) && |r.call.value.code| == Cells
    ensures r.call.None? ==> r.auth == auth && r.navigate.None? &&
                             r.page.toasts == p.toasts + [Error("6 raqamli kodni to'liq kiriting")]
    ensures r.call.Some? ==> r.auth == Auth.VerifyOtp(auth, reply).state && r.page == p
    ensures r.navigate.Some? <==> r.call.Some? && reply.VerifyOk?
    ensures r.navigate.Some? ==> r.navigate.value == "/"
  {
    JoinFullIffAllFilled(p.otp);
    var code := Join(p.otp);
    if |code| != 6 then
      Submitted(p.(toasts := p.toasts + [Error("6 raqamli kodni to'liq kiriting")]), auth, None, None)
    else
      var step := Auth.VerifyOtp(auth, reply);
      Submitted(p, step.state, if step.settled == Auth.Resolved then Some("/") else None, Some(VerifyCall(email, code)))
  }

  /** The form submit: nothing happens while the submit button is disabled or
      while a cell holds a non-digit, which the browser's pattern check
      blocks; otherwise the submit handler runs. */
  function OnSubmit(p: OtpPage, auth: Auth.AuthState, email: string, reply: Auth.VerifyReply): (r: Submitted)
    requires Valid(p)
    ensures Valid(r.page)
    ensures p.timeLeft == 0 || auth.loading ==> r.call.None? && r.page == p && r.auth == auth && r.navigate.None?
    ensures !CellsMatchPattern(p) ==> r.call.None? && r.page == p && r.auth == auth && r.navigate.None?
    ensures r.call.Some? ==> p.timeLeft > 0 && !auth.loading && forall i :: 0 <= i < Cells ==> p.otp[i] != ""
    ensures r.call.Some? ==> CellsMatchPattern(p) && AllDigits(r.call.value.code) && |r.call.value.code| == Cells
    ensures SubmitEnabled(p, auth.loading) && CellsMatchPattern(p) && (forall i :: 0 <= i < Cells ==> p.otp[i] != "")
            ==> r.call == Some(VerifyCall(email, Join(p.otp)))
  {
    if SubmitEnabled(p, auth.loading) && CellsMatchPattern(p) then
      JoinAllDigits(p.otp);
      HandleSubmit(p, auth, email, reply)
    else Submitted(p, auth, None, None)
  }

  /** A letter in the last cell: the browser's pattern check stops the submit,
      so no code is sent and no toast is shown. */
  lemma LetterCellSendsNothing(auth: Auth.AuthState, email: string, reply: Auth.VerifyReply)
    ensures var p := OtpPage(["1", "2", "3", "4", "5", "a"], 100, true, []);
            OnSubmit(p, auth, email, reply) == Submitted(p, auth, None, None)
  {
    var p := OtpPage(["1", "2", "3", "4", "5", "a"], 100, true, []);
    assert !IsDigit(p.otp[5][0]);
  }

  /** The resend handler as written: the clock is set back to 300 but the
      interval, already cleared when the clock reached zero, is not restarted. */
  function ResendAsWritten(p: OtpPage): (r: OtpPage)
    requires Valid(p)
    ensures Valid(r) && r.timeLeft == Countdown && r.ticking == p.ticking
  {
    p.(timeLeft := Countdown, toasts := p.toasts + [Success("OTP kod qayta yuborildi")])
  }

  /** Resend is enabled only at zero, when the interval is already gone, so as
      written the clock then shows 300 for ever and the code never expires again. */
  lemma {:induction false} ResendFreezesCountdown(p: OtpPage, n: nat)
    requires Valid(p) && ResendEnabled(p)
    ensures Ticks(ResendAsWritten(p), n).timeLeft == Countdown
  {
    StoppedStaysStopped(ResendAsWritten(p), n);
  }

  /** Resend with the countdown restarted, as the page evidently intends. */
  function Resend(p: OtpPage): (r: OtpPage)
    requires Valid(p)
    ensures Valid(r) && r.timeLeft == Countdown && r.ticking && r.otp == p.otp
  {
    p.(timeLeft := Countdown, ticking := true, toasts := p.toasts + [Success("OTP kod qayta yuborildi")])
  }

  /** After a corrected resend the new code expires again after 300 ticks. */
  lemma ResendRestartsCountdown(p: OtpPage, n: nat)
    requires Valid(p)
    ensures n < Countdown ==> Ticks(Resend(p), n).timeLeft == Countdown - n
    ensures n >= Countdown ==> Ticks(Resend(p), n).timeLeft == 0 && !ResendEnabled(Resend(p))
  {
    TicksCountDown(Resend(p), n);
  }

  /** `formatTime`: minutes, a colon, and the seconds padded to two digits. */
  function FormatTime(seconds: nat): string
  {
    NatToString(seconds / 60) + ":" + PadStart2(NatToString(seconds % 60))
  }

  /** The text reads back as the number of seconds it was made from: the part
      before the colon is the minutes, the two digits after it the seconds. */
  lemma FormatTimeReadsBack(seconds: nat)
    ensures var t := FormatTime(seconds);
            && |t| >= 4 && t[|t| - 3] == ':'
            && AllDigits(t[..|t| - 3]) && AllDigits(t[|t| - 2..])
            && ParseDigits(t[|t| - 2..]) < 60
            && ParseDigits(t[..|t| - 3]) * 60 + ParseDigits(t[|t| - 2..]) == seconds
  {
    var m := NatToString(seconds / 60);
    var sec := NatToString(seconds % 60);
    NatToStringLength(seconds % 60);
    PadKeepsValue(sec);
    ParseNatToString(seconds / 60);
    ParseNatToString(seconds % 60);
    var t := FormatTime(seconds);
    assert t == m + ":" + PadStart2(sec);
    assert t[..|t| - 3] == m;
    assert t[|t| - 2..] == PadStart2(sec);
  }

  lemma FormatTimeExamples()
    ensures FormatTime(300) == "5:00"
    ensures FormatTime(65) == "1:05"
  {
    var five, zero, one := NatToString(5), NatToString(0), NatToString(1);
    assert five == "5" && zero == "0" && one == "1";
    assert PadStart2(zero) == "00" && PadStart2(five) == "05";
    assert FormatTime(300) == five + ":" + PadStart2(zero);
    assert FormatTime(65) == one + ":" + PadStart2(five);
  }
}

=== FILE: partnerships.dfy ===
/** The partnerships page (src/pages/PartnershipsPage.tsx): the request
    schema and the switch between the form and the thank-you panel. */
module Partnerships {
  import opened Common
  import opened Types
  import opened Validation

  datatype PartnershipForm = PartnershipForm(
    companyName: string,
    contactPerson: string,
    email: string,
    phone: string,
    serviceType: string,
    description: string)

  /** What `reset()` leaves: every field empty. */
  const EmptyForm := PartnershipForm("", "", "", "", "", "")

  const MinDescription := 50

  /** The schema: company and contact names of at least two characters, a
      required email in email format, a required phone matching the phone
      pattern, a chosen service type and a description of at least 50
      characters. */
  predicate Valid(f: PartnershipForm, isEmail: string -> bool)
  {
    && Required(f.companyName) && MinLength(f.companyName, 2)
    && Required(f.contactPerson) && MinLength(f.contactPerson, 2)
    && Required(f.email) && isEmail(f.email)
    && Required(f.phone) && PhonePattern(f.phone)
    && Required(f.serviceType)
    && Required(f.description) && MinLength(f.description, MinDescription)
  }

  /** The rules reject what they say they reject, whatever the email test. */
  lemma RejectedRequests(f: PartnershipForm, isEmail: string -> bool)
    ensures |f.description| < MinDescription ==> !Valid(f, isEmail)
    ensures |f.companyName| < 2 || |f.contactPerson| < 2 ==> !Valid(f, isEmail)
    ensures !PhonePattern(f.phone) ==> !Valid(f, isEmail)
    ensures f.serviceType == "" ==> !Valid(f, isEmail)
    ensures !Valid(EmptyForm, isEmail)
  {
  }

  datatype PartnershipState = PartnershipState(form: PartnershipForm, submitted: bool, loading: bool, toasts: Toasts)

  datatype Sent = Sent(state: PartnershipState, call: Option<PartnershipForm>)

  /** `handleSubmit(onSubmit)`: the form is shown only before a request is
      sent; a valid form is sent, and on success the thank-you panel replaces
      the cleared form; on failure the form stays as typed. `loading` is
      cleared either way. */
  function Submit(st: PartnershipState, isEmail: string -> bool, reply: Reply): (r: Sent)
    ensures r.call.Some? <==> !st.submitted && Valid(st.form, isEmail)
    ensures r.call.Some? ==> r.call.value == st.form && !r.state.loading
    ensures r.call.None? ==> r.state == st
    ensures r.call.Some? && reply.Done? ==>
              r.state.submitted && r.state.form == EmptyForm &&
              r.state.toasts == st.toasts + [Success("Hamkorlik so'rovi muvaffaqiyatli yuborildi!")]
    ensures r.call.Some? && reply.Failed? ==>
              !r.state.submitted && r.state.form == st.form &&
              r.state.toasts == st.toasts + [Error("Hamkorlik so'rovini yuborishda xatolik yuz berdi")]
  {
    if st.submitted || !Valid(st.form, isEmail) then Sent(st, None)
    else match reply
      case Done =>
        Sent(PartnershipState(EmptyForm, true, false, st.toasts + [Success("Hamkorlik so'rovi muvaffaqiyatli yuborildi!")]), Some(st.form))
      case Failed(_) =>
        Sent(st.(loading := false, toasts := st.toasts + [Error("Hamkorlik so'rovini yuborishda xatolik yuz berdi")]), Some(st.form))
  }

  /** "Yangi so'rov yuborish": back to the form. */
  function NewRequest(st: PartnershipState): (r: PartnershipState)
    ensures !r.submitted
    ensures r.form == st.form && r.loading == st.loading && r.toasts == st.toasts
  {
    st.(submitted := false)
  }

  /** After a successful request and "new request" the page shows an empty
      form again, which cannot be sent until it is filled in: one request is
      never sent twice by accident. */
  lemma NewRequestStartsOver(st: PartnershipState, isEmail: string -> bool, reply2: Reply)
    requires !st.submitted && Valid(st.form, isEmail)
    ensures var again := NewRequest(Submit(st, isEmail, Done).state);
            !again.submitted && again.form == EmptyForm &&
            Submit(again, isEmail, reply2).call.None?
  {
  }

  /** While the thank-you panel shows nothing can be sent. */
  lemma SubmittedSendsNothing(st: PartnershipState, isEmail: string -> bool, reply: Reply)
    requires st.submitted
    ensures Submit(st, isEmail, reply) == Sent(st, None)
  {
  }
}

=== FILE: profile.dfy ===
/** The profile page (src/pages/ProfilePage.tsx): the profile and password
    schemas, the two submit handlers and the cancel button. The email test is
    a parameter, as in the other forms. */
module Profile {
  import opened Common
  import opened Types
  import opened Validation
  import Auth

  datatype ProfileForm = ProfileForm(firstName: string, lastName: string, email: string, phoneNumber: string)

  /** The profile schema as written: `.matches` without `excludeEmptyString`
      also tests the empty phone field, so an empty phone fails. */
  predicate ProfileValidAsWritten(f: ProfileForm, isEmail: string -> bool)
  {
    && Required(f.firstName) && MinLength(f.firstName, 2)
    && Required(f.lastName) && MinLength(f.lastName, 2)
    && Required(f.email) && isEmail(f.email)
    && PhonePattern(f.phoneNumber)
  }

  /** The profile schema with the phone optional, as the absence of
      `.required()` on it means: empty, or a phone number. */
  predicate ProfileValid(f: ProfileForm, isEmail: string -> bool)
  {
    && Required(f.firstName) && MinLength(f.firstName, 2)
    && Required(f.lastName) && MinLength(f.lastName, 2)
    && Required(f.email) && isEmail(f.email)
    && (f.phoneNumber == "" || PhonePattern(f.phoneNumber))
  }

  /** The user's fields, with the empty string for a missing one: the form's
      default values and what cancel restores. */
  function FormFor(user: Option<User>): (f: ProfileForm)
    ensures user.None? ==> f == ProfileForm("", "", "", "")
    ensures user.Some? ==> f.firstName == user.value.firstName && f.lastName == user.value.lastName && f.email == user.value.email
    ensures user.Some? && user.value.phoneNumber.Some? ==> f.phoneNumber == user.value.phoneNumber.value
    ensures user.Some? && user.value.phoneNumber.None? ==> f.phoneNumber == ""
  {
    match user
    case None => ProfileForm("", "", "", "")
    case Some(u) => ProfileForm(u.firstName, u.lastName, u.email, match u.phoneNumber case Some(p) => p case None => "")
  }

  /** As written, a user without a phone number cannot save the profile
      without typing one, however well the other fields are filled in. */
  lemma PhonelessUserBlockedAsWritten(user: User, isEmail: string -> bool)
    requires user.phoneNumber.None?
    ensures !ProfileValidAsWritten(FormFor(Some(user)), isEmail)
  {
    PhonePatternEdges();
  }

  /** With the phone optional, such a user's own details pass whenever the
      names and the email do. */
  lemma PhonelessUserAccepted(user: User, isEmail: string -> bool)
    requires user.phoneNumber.None?
    requires |user.firstName| >= 2 && |user.lastName| >= 2 && user.email != "" && isEmail(user.email)
    ensures ProfileValid(FormFor(Some(user)), isEmail)
  {
  }

  /** The two schemas differ only on the empty phone field. */
  lemma SchemasAgreeOnGivenPhone(f: ProfileForm, isEmail: string -> bool)
    requires f.phoneNumber != ""
    ensures ProfileValid(f, isEmail) <==> ProfileValidAsWritten(f, isEmail)
  {
  }

  datatype ProfileState = ProfileState(form: ProfileForm, editMode: bool, loading: bool, toasts: Toasts)

  datatype ProfileSaved = ProfileSaved(state: ProfileState, auth: Auth.AuthState, call: Option<ProfileForm>)

  /** `handleProfileSubmit(onProfileSubmit)` with the form checked by
      `schema`: a form the schema accepts is sent to the profile update; on
      success edit mode ends, on failure it stays and the message is shown;
      `loading` is cleared either way. The signed-in user kept by the auth
      context is not touched. The page as written checks with
      `ProfileValidAsWritten`; the corrected page with `ProfileValid`. */
  function ProfileSubmit(st: ProfileState, schema: ProfileForm -> bool, auth: Auth.AuthState, reply: Reply): (r: ProfileSaved)
    ensures r.call.Some? <==> schema(st.form)
    ensures r.call.Some? ==> r.call.value == st.form && !r.state.loading && r.state.form == st.form
    ensures r.call.None? ==> r.state == st
    ensures r.call.Some? && reply.Done? ==>
              !r.state.editMode && r.state.toasts == st.toasts + [Success("Profil muvaffaqiyatli yangilandi")]
    ensures r.call.Some? && reply.Failed? ==>
              r.state.editMode == st.editMode &&
              r.state.toasts == st.toasts + [Error("Profilni yangilashda xatolik: " + reply.message)]
    ensures r.auth == auth
  {
    if !schema(st.form) then ProfileSaved(st, auth, None)
    else match reply
      case Done =>
        ProfileSaved(st.(editMode := false, loading := false, toasts := st.toasts + [Success("Profil muvaffaqiyatli yangilandi")]), auth, Some(st.form))
      case Failed(message) =>
        ProfileSaved(st.(loading := false, toasts := st.toasts + [Error("Profilni yangilashda xatolik: " + message)]), auth, Some(st.form))
  }

  /** The page as written: a user without a phone number who saves their own
      details without typing one sends nothing, and the page stays as it was. */
  lemma PhonelessSaveBlockedAsWritten(st: ProfileState, user: User, isEmail: string -> bool, auth: Auth.AuthState, reply: Reply)
    requires user.phoneNumber.None? && st.form == FormFor(Some(user))
    ensures ProfileSubmit(st, f => ProfileValidAsWritten(f, isEmail), auth, reply) == ProfileSaved(st, auth, None)
  {
    PhonelessUserBlockedAsWritten(user, isEmail);
  }

  /** The corrected page: the same save sends the user's details unchanged. */
  lemma PhonelessSaveSent(st: ProfileState, user: User, isEmail: string -> bool, auth: Auth.AuthState, reply: Reply)
    requires user.phoneNumber.None? && st.form == FormFor(Some(user))
    requires |user.firstName| >= 2 && |user.lastName| >= 2 && user.email != "" && isEmail(user.email)
    ensures ProfileSubmit(st, f => ProfileValid(f, isEmail), auth, reply).call == Some(FormFor(Some(user)))
  {
    PhonelessUserAccepted(user, isEmail);
  }

  /** `handleCancel`: the form goes back to the user's own details and edit
      mode ends. */
  function Cancel(st: ProfileState, user: Option<User>): (r: ProfileState)
    ensures !r.editMode
    ensures r.form == FormFor(user)
    ensures r.loading == st.loading && r.toasts == st.toasts
  {
    st.(form := FormFor(user), editMode := false)
  }

  /** Whatever was typed, cancelling leaves the same page: the edits are gone. */
  lemma CancelForgetsEdits(a: ProfileState, b: ProfileState, user: Option<User>)
    requires a.loading == b.loading && a.toasts == b.toasts
    ensures Cancel(a, user) == Cancel(b, user)
  {
  }

  datatype PasswordForm = PasswordForm(currentPassword: string, newPassword: string, confirmPassword: string)

  const EmptyPasswordForm := PasswordForm("", "", "")

  /** The password schema: the current password given, a new one of at least
      six characters, and the confirmation equal to it. */
  predicate PasswordValid(f: PasswordForm)
  {
    && Required(f.currentPassword)
    && Required(f.newPassword) && MinLength(f.newPassword, 6)
    && Required(f.confirmPassword) && f.confirmPassword == f.newPassword
  }

  datatype PasswordState = PasswordState(form: PasswordForm, passwordLoading: bool, toasts: Toasts)

  /** `handlePasswordSubmit(onPasswordSubmit)`: no backend is called; a form
      that passes the schema is reported changed and cleared. */
  function PasswordSubmit(st: PasswordState): (r: PasswordState)
    ensures !PasswordValid(st.form) ==> r == st
    ensures PasswordValid(st.form) ==>
              r.form == EmptyPasswordForm && !r.passwordLoading &&
              r.toasts == st.toasts + [Success("Parol muvaffaqiyatli o'zgartirildi")]
  {
    if !PasswordValid(st.form) then st
    else PasswordState(EmptyPasswordForm, false, st.toasts + [Success("Parol muvaffaqiyatli o'zgartirildi")])
  }

  /** A password change never reports an error, and the cleared form cannot
      be submitted again as it stands. */
  lemma PasswordChangeNeverFails(st: PasswordState)
    ensures forall i :: |st.toasts| <= i < |PasswordSubmit(st).toasts| ==> PasswordSubmit(st).toasts[i].Success?
    ensures PasswordSubmit(PasswordSubmit(st)) == PasswordSubmit(st)
  {
  }

  /** The rules reject what they say they reject. */
  lemma RejectedPasswords(f: PasswordForm)
    ensures |f.newPassword| < 6 ==> !PasswordValid(f)
    ensures f.confirmPassword != f.newPassword ==> !PasswordValid(f)
    ensures f.currentPassword == "" ==> !PasswordValid(f)
  {
  }
}

=== FILE: register.dfy ===
/** The registration page (src/pages/RegisterPage.tsx): its form schema and the
    submit handler that hands the email over to the OTP page. */
module RegisterPage {
  import opened Common
  import opened Types
  import opened Validation
  import Auth
  import OtpVerify

  datatype RegisterForm = RegisterForm(
    firstName: string,
    lastName: string,
    email: string,
    password: string,
    confirmPassword: string)

  /** The schema: names of at least two characters, a required email in email
      format, a password of at least six characters and a matching confirmation. */
  predicate Valid(f: RegisterForm, isEmail: string -> bool)
  {
    && Required(f.firstName) && MinLength(f.firstName, 2)
    && Required(f.lastName) && MinLength(f.lastName, 2)
    && Required(f.email) && isEmail(f.email)
    && Required(f.password) && MinLength(f.password, 6)
    && Required(f.confirmPassword) && f.confirmPassword == f.password
  }

  /** A navigation with the `{ email }` state the OTP page reads. */
  datatype Navigation = Navigation(path: string, email: string)

  datatype Submitted = Submitted(auth: Auth.AuthState, navigate: Option<Navigation>, call: Option<RegisterForm>)

  /** `handleSubmit(onSubmit)`: nothing is sent while the button is disabled or
      the schema fails; after a resolved registration the page moves to the OTP
      page carrying the email, after a rejected one it stays. */
  function Submit(f: RegisterForm, isEmail: string -> bool, auth: Auth.AuthState, reply: Auth.RegisterReply): (r: Submitted)
    ensures r.call.Some? <==> !auth.loading && Valid(f, isEmail)
    ensures r.call.Some? ==> r.call.value == f && r.auth == Auth.Register(auth, reply).state
    ensures r.call.None? ==> r.auth == auth && r.navigate.None?
    ensures r.navigate.Some? <==> r.call.Some? && reply.RegisterOk?
    ensures r.navigate.Some? ==> r.navigate.value == Navigation("/verify-otp", f.email)
    ensures Auth.SameSession(r.auth, auth)
  {
    if auth.loading || !Valid(f, isEmail) then Submitted(auth, None, None)
    else
      var step := Auth.Register(auth, reply);
      Submitted(step.state, if step.settled == Auth.Resolved then Some(Navigation("/verify-otp", f.email)) else None, Some(f))
  }

  /** The hand-off works: a successful registration opens the OTP page for the
      registered email rather than bouncing back to the login page. */
  lemma HandOffOpensOtpPage(f: RegisterForm, isEmail: string -> bool, auth: Auth.AuthState, reply: Auth.RegisterReply)
    requires Submit(f, isEmail, auth, reply).navigate.Some?
    ensures var nav := Submit(f, isEmail, auth, reply).navigate.value;
            OtpVerify.Enter(Some(nav.email)).Show? && OtpVerify.Enter(Some(nav.email)).email == f.email
  {
  }

  /** The rules reject what they say they reject, whatever the email test. */
  lemma RejectedForms(f: RegisterForm, isEmail: string -> bool)
    ensures |f.firstName| < 2 || |f.lastName| < 2 ==> !Valid(f, isEmail)
    ensures |f.password| < 6 ==> !Valid(f, isEmail)
    ensures f.confirmPassword != f.password ==> !Valid(f, isEmail)
    ensures f.email == "" ==> !Valid(f, isEmail)
  {
  }
}

=== FILE: reviews.dfy ===
/** The reviews page (src/pages/ReviewsPage.tsx): the review filters, the
    positive-review count, the star row and the average rating. */
module Reviews {
  import opened Common
  import opened Types

  /** The fields of a review the page reads; `createdAt` is the creation time
      in milliseconds, the date text already parsed. */
  datatype Review = Review(id: string, rating: int, createdAt: int)

  /** Thirty days in milliseconds: the window of the "recent" filter. */
  const RecentWindow := 30 * 24 * 60 * 60 * 1000

  /** The switch inside `filteredReviews`: "all" and any other value keep
      every review. */
  predicate Keeps(filter: string, now: int, review: Review)
  {
    if filter == "recent" then review.createdAt > now - RecentWindow
    else if filter == "high" then review.rating >= 4
    else if filter == "low" then review.rating <= 2
    else true
  }

  function KeepsFn(filter: string, now: int): Review -> bool
  {
    (r: Review) => Keeps(filter, now, r)
  }

  /** `filteredReviews`, with `Date.now()` as the parameter `now`. */
  function FilteredReviews(reviews: seq<Review>, filter: string, now: int): (r: seq<Review>)
    ensures Subseq(r, reviews)
    ensures filter == "high" ==> forall i :: 0 <= i < |r| ==> r[i].rating >= 4
    ensures filter == "low" ==> forall i :: 0 <= i < |r| ==> r[i].rating <= 2
    ensures filter == "recent" ==> forall i :: 0 <= i < |r| ==> r[i].createdAt > now - RecentWindow
    ensures forall i :: 0 <= i < |reviews| && Keeps(filter, now, reviews[i]) ==> reviews[i] in r
  {
    FilterIsSubseq(reviews, KeepsFn(filter, now));
    Filter(reviews, KeepsFn(filter, now))
  }
  /** The filter keeps every review it admits as often as it is listed and
      no other review. */
  lemma FilteredReviewsCount(reviews: seq<Review>, filter: string, now: int, x: Review)
    ensures multiset(FilteredReviews(reviews, filter, now))[x]
            == if Keeps(filter, now, x) then multiset(reviews)[x] else 0
  {
    FilterCount(reviews, KeepsFn(filter, now), x);
  }


  /** "all" shows every review. */
  lemma AllKeepsEverything(reviews: seq<Review>, now: int)
    ensures FilteredReviews(reviews, "all", now) == reviews
  {
    FilterAll(reviews, KeepsFn("all", now));
  }

  /** No review is both high and low, and a rating of 3 is in neither list. */
  lemma HighAndLowDisjoint(reviews: seq<Review>, now: int)
    ensures forall x :: !(x in FilteredReviews(reviews, "high", now) && x in FilteredReviews(reviews, "low", now))
    ensures forall x: Review :: x.rating == 3 ==> x !in FilteredReviews(reviews, "high", now) && x !in FilteredReviews(reviews, "low", now)
  {
    FilterDisjoint(reviews, KeepsFn("high", now), KeepsFn("low", now));
  }

  /** The "Ijobiy sharhlar" tile: reviews rated 4 or more. */
  function PositiveCount(reviews: seq<Review>): nat
  {
    |Filter(reviews, (r: Review) => r.rating >= 4)|
  }

  /** The positive count is the length of the "high" list, whenever it is read. */
  lemma PositiveCountIsHigh(reviews: seq<Review>, now: int)
    ensures PositiveCount(reviews) == |FilteredReviews(reviews, "high", now)|
  {
    FilterExt(reviews, (r: Review) => r.rating >= 4, KeepsFn("high", now));
  }

  /** `renderStars`: five stars, the first `rating` of them filled. */
  function RenderStars(rating: int): (stars: seq<bool>)
    ensures |stars| == 5
  {
    seq(5, i => i < rating)
  }

  function CountFilled(stars: seq<bool>): nat
    decreases |stars|
  {
    if |stars| == 0 then 0 else CountFilled(stars[..|stars| - 1]) + (if stars[|stars| - 1] then 1 else 0)
  }

  function Clamp(x: int, lo: int, hi: int): int
    requires lo <= hi
  {
    if x < lo then lo else if x > hi then hi else x
  }

  lemma {:induction false} FilledPrefix(n: nat, rating: int)
    ensures CountFilled(seq(n, i => i < rating)) == Clamp(rating, 0, n)
    decreases n
  {
    if n > 0 {
      var s := seq(n, i => i < rating);
      assert s[..n - 1] == seq(n - 1, i => i < rating);
      FilledPrefix(n - 1, rating);
    }
  }

  /** The filled stars are the rating cut to the range 0 to 5, and every
      filled star comes before every empty one. */
  lemma StarsShowRating(rating: int)
    ensures CountFilled(RenderStars(rating)) == Clamp(rating, 0, 5)
    ensures forall i, j :: 0 <= i < j < 5 && RenderStars(rating)[j] ==> RenderStars(rating)[i]
  {
    FilledPrefix(5, rating);
  }

  function SumRatings(reviews: seq<Review>): int
    decreases |reviews|
  {
    if |reviews| == 0 then 0 else reviews[0].rating + SumRatings(reviews[1..])
  }

  /** `getAverageRating` before the rounding to one decimal: 0 with no
      reviews, otherwise the mean rating. */
  function AverageRating(reviews: seq<Review>): (avg: real)
    ensures |reviews| == 0 ==> avg == 0.0
    ensures |reviews| > 0 ==> avg * |reviews| as real == SumRatings(reviews) as real
  {
    if |reviews| == 0 then 0.0 else SumRatings(reviews) as real / |reviews| as real
  }

  lemma {:induction false} SumBounds(reviews: seq<Review>, lo: int, hi: int)
    requires forall i :: 0 <= i < |reviews| ==> lo <= reviews[i].rating <= hi
    ensures lo * |reviews| <= SumRatings(reviews) <= hi * |reviews|
    decreases |reviews|
  {
    if |reviews| > 0 {
      SumBounds(reviews[1..], lo, hi);
    }
  }

  /** With ratings between 1 and 5 the average lies between 1 and 5. */
  lemma AverageWithinRatings(reviews: seq<Review>)
    requires |reviews| > 0
    requires forall i :: 0 <= i < |reviews| ==> 1 <= reviews[i].rating <= 5
    ensures 1.0 <= AverageRating(reviews) <= 5.0
  {
    SumBounds(reviews, 1, 5);
    var n := |reviews| as real;
    var s := SumRatings(reviews) as real;
    QuotientBounds(s, n, 1.0, 5.0);
  }

  lemma QuotientBounds(s: real, n: real, lo: real, hi: real)
    requires n > 0.0 && lo * n <= s <= hi * n
    ensures lo <= s / n <= hi
  {
    var q := s / n;
    assert (q - lo) * n == s - lo * n;
    assert (hi - q) * n == hi * n - s;
  }

  datatype ReviewsState = ReviewsState(reviews: seq<Review>, loading: bool, toasts: Toasts)

  datatype ReviewsReply = ReviewsFetched(list: seq<Review>) | ReviewsFailed

  datatype ReviewsLoaded = ReviewsLoaded(state: ReviewsState, called: bool)

  /** The effect on `user` and `loadReviews`: only a signed-in user's reviews
      are fetched; a failure keeps the list and toasts; `loading` is cleared
      once the fetch settles. */
  function LoadReviews(st: ReviewsState, user: Option<User>, reply: ReviewsReply): (r: ReviewsLoaded)
    ensures r.called <==> user.Some?
    ensures user.None? ==> r.state == st
    ensures user.Some? ==> !r.state.loading
    ensures user.Some? && reply.ReviewsFetched? ==> r.state.reviews == reply.list && r.state.toasts == st.toasts
    ensures user.Some? && reply.ReviewsFailed? ==>
              r.state.reviews == st.reviews && r.state.toasts == st.toasts + [Error("Sharhlarni yuklashda xatolik yuz berdi")]
  {
    if user.None? then ReviewsLoaded(st, false)
    else match reply
      case ReviewsFetched(list) => ReviewsLoaded(st.(reviews := list, loading := false), true)
      case ReviewsFailed =>
        ReviewsLoaded(st.(loading := false, toasts := st.toasts + [Error("Sharhlarni yuklashda xatolik yuz berdi")]), true)
  }

  /** For a signed-in user, a successful load shown under "all" lists exactly
      the reviews the server returned. */
  lemma LoadThenShowAll(st: ReviewsState, user: Option<User>, list: seq<Review>, now: int)
    requires user.Some?
    ensures FilteredReviews(LoadReviews(st, user, ReviewsFetched(list)).state.reviews, "all", now) == list
  {
    AllKeepsEverything(list, now);
  }

  /** A failed load leaves nothing behind but its toast: loading again
      successfully gives the same page as a first successful load, with the
      error toast added. */
  lemma RetryAfterFailure(st: ReviewsState, user: Option<User>, list: seq<Review>)
    requires user.Some?
    ensures var failed := LoadReviews(st, user, ReviewsFailed);
            LoadReviews(failed.state, user, ReviewsFetched(list)).state
            == LoadReviews(st, user, ReviewsFetched(list)).state.(toasts := st.toasts + [Error("Sharhlarni yuklashda xatolik yuz berdi")])
  {
  }
}

=== FILE: routeplanner.dfy ===
/** The route planner page (src/pages/RoutePlannerPage.tsx): the check before
    a route is requested, the request it sends, and the texts that show the
    route's duration and a short distance. */
module RoutePlanner {
  import opened Common
  import opened Types
  import opened Text

  /** The fields of a computed route the page shows. */
  datatype RouteInfo = RouteInfo(distance: int, duration: int, fuelCost: real, tollCost: real, totalCost: real)

  datatype PlannerState = PlannerState(
    origin: string,
    destination: string,
    vehicleType: string,
    routeInfo: Option<RouteInfo>,
    loading: bool,
    toasts: Toasts)

  /** The route request; the addresses typed are not geocoded, so both ends
      are fixed points in Tashkent. */
  datatype RouteRequest = RouteRequest(origin: Location, destination: Location, vehicleType: string)

  const OriginCoords := Location(41.2995, 69.2401)
  const DestinationCoords := Location(41.3775, 69.3406)

  datatype RouteReply = RouteComputed(info: RouteInfo) | RouteFailed

  datatype Calculated = Calculated(state: PlannerState, call: Option<RouteRequest>)

  /** `handleCalculateRoute`: both addresses must be filled in; the route
      shown is replaced only by a computed one, and `loading` is cleared once
      the request settles. */
  function CalculateRoute(st: PlannerState, reply: RouteReply): (r: Calculated)
    ensures r.call.Some? <==> st.origin != "" && st.destination != ""
    ensures r.call.Some? ==> r.call.value == RouteRequest(OriginCoords, DestinationCoords, st.vehicleType)
    ensures r.call.None? ==> r.state == st.(toasts := st.toasts + [Error("Boshlang'ich va yakuniy manzillarni kiriting")])
    ensures r.call.Some? ==> !r.state.loading && r.state.origin == st.origin && r.state.destination == st.destination
    ensures r.call.Some? && reply.RouteComputed? ==>
              r.state.routeInfo == Some(reply.info) &&
              r.state.toasts == st.toasts + [Success("Yo'nalish muvaffaqiyatli hisoblandi")]
    ensures r.call.Some? && reply.RouteFailed? ==>
              r.state.routeInfo == st.routeInfo &&
              r.state.toasts == st.toasts + [Error("Yo'nalishni hisoblashda xatolik yuz berdi")]
  {
    if st.origin == "" || st.destination == "" then
      Calculated(st.(toasts := st.toasts + [Error("Boshlang'ich va yakuniy manzillarni kiriting")]), None)
    else
      var request := RouteRequest(OriginCoords, DestinationCoords, st.vehicleType);
      match reply
      case RouteComputed(info) =>
        Calculated(st.(routeInfo := Some(info), loading := false,
                       toasts := st.toasts + [Success("Yo'nalish muvaffaqiyatli hisoblandi")]), Some(request))
      case RouteFailed =>
        Calculated(st.(loading := false, toasts := st.toasts + [Error("Yo'nalishni hisoblashda xatolik yuz berdi")]), Some(request))
  }

  /** The route form's submit: both address inputs are `required` and the
      submit button is disabled while a request is pending, so with an empty
      address or while loading nothing happens; otherwise the handler runs. */
  function SubmitRoute(st: PlannerState, reply: RouteReply): (r: Calculated)
    ensures st.loading || st.origin == "" || st.destination == "" ==> r == Calculated(st, None)
    ensures r.call.Some? <==> !st.loading && st.origin != "" && st.destination != ""
    ensures r.call.Some? ==> r == CalculateRoute(st, reply)
  {
    if st.loading || st.origin == "" || st.destination == "" then Calculated(st, None)
    else CalculateRoute(st, reply)
  }

  /** Through the form the handler's own missing-address toast is never
      shown: the browser has already stopped such a submit. */
  lemma SubmitNeverShowsAddressToast(st: PlannerState, reply: RouteReply)
    ensures var r := SubmitRoute(st, reply);
            && |r.state.toasts| >= |st.toasts|
            && r.state.toasts[..|st.toasts|] == st.toasts
            && Error("Boshlang'ich va yakuniy manzillarni kiriting") !in r.state.toasts[|st.toasts|..]
  {
  }

  /** Whatever addresses were typed, two filled-in forms with the same vehicle
      send the same request. */
  lemma RequestIgnoresAddresses(a: PlannerState, b: PlannerState, ra: RouteReply, rb: RouteReply)
    requires a.origin != "" && a.destination != "" && b.origin != "" && b.destination != ""
    requires a.vehicleType == b.vehicleType
    ensures CalculateRoute(a, ra).call == CalculateRoute(b, rb).call
  {
  }

  const CurrentLocationText := "Joriy joylashuv"

  /** What the current-location button leads to: the page state after the
      click, whether a new position fix was requested, and whether the handler
      threw. */
  datatype LocationAsked = LocationAsked(state: PlannerState, requested: bool, threw: bool)

  /** `useCurrentLocation`: with a known position the origin becomes the
      current-location text. Otherwise a new fix is requested, and the notice
      that follows calls `toast.info`, which the notification library
      (react-hot-toast) does not provide: the handler throws a TypeError right
      after the request, so no notice is shown and nothing else changes. */
  function UseCurrentLocation(st: PlannerState, location: Option<Location>): (r: LocationAsked)
    ensures r.requested <==> location.None?
    ensures r.threw <==> location.None?
    ensures location.Some? ==> r.state == st.(origin := CurrentLocationText)
    ensures location.None? ==> r.state == st
  {
    if location.Some? then LocationAsked(st.(origin := CurrentLocationText), false, false)
    else LocationAsked(st, true, true)
  }

  /** With a known position, the origin is filled in: only the destination can
      still block the request. */
  lemma CurrentLocationFillsOrigin(st: PlannerState, location: Location, reply: RouteReply)
    ensures var s := UseCurrentLocation(st, Some(location)).state;
            CalculateRoute(s, reply).call.Some? <==> st.destination != ""
  {
  }

  /** JavaScript's `%`: the remainder takes the sign of the dividend. */
  function TruncRem(a: int, b: int): (r: int)
    requires b > 0
    ensures a >= 0 ==> r == a % b
    ensures a < 0 ==> -b < r <= 0
    ensures a < 0 ==> r == a - b * -((-a) / b)
  {
    if a >= 0 then a % b else -((-a) % b)
  }

  /** `formatDuration`: the whole hours (rounded down) and the remaining
      minutes (JavaScript's remainder), the hours only when there is at least
      one. */
  function FormatDuration(minutes: int): (text: string)
    ensures 0 <= minutes < 60 ==> text == NatToString(minutes) + " daqiqa"
  {
    var hours := minutes / 60;
    var mins := TruncRem(minutes, 60);
    if hours > 0 then IntToString(hours) + " soat " + IntToString(mins) + " daqiqa"
    else IntToString(mins) + " daqiqa"
  }

  /** For a non-negative duration the hours and minutes shown add back up to
      it, the minutes stay below an hour, and the hours part appears exactly
      from one hour on. */
  lemma DurationParts(minutes: nat)
    ensures var hours := minutes / 60;
            var mins := TruncRem(minutes, 60);
            hours * 60 + mins == minutes && 0 <= mins < 60 &&
            (hours > 0 <==> minutes >= 60) &&
            FormatDuration(minutes) ==
              if minutes >= 60 then NatToString(hours) + " soat " + NatToString(mins) + " daqiqa"
              else NatToString(mins) + " daqiqa"
  {
  }

  /** A digit string followed by a space is no shorter than another such
      string the same text starts with. */
  lemma SpaceNotEarlier(x: string, y: string, rx: string, ry: string)
    requires AllDigits(y)
    requires x + " " + rx == y + " " + ry
    ensures |y| <= |x|
  {
    SpaceAt(x, rx);
  }

  lemma SpaceAt(x: string, rx: string)
    ensures (x + " " + rx)[|x|] == ' '
  {
  }

  /** Two digit strings each followed by a space split the same way. */
  lemma SplitAtSpace(x: string, y: string, rx: string, ry: string)
    requires AllDigits(x) && AllDigits(y)
    requires x + " " + rx == y + " " + ry
    ensures x == y && rx == ry
  {
    var s := x + " " + rx;
    SpaceNotEarlier(x, y, rx, ry);
    SpaceNotEarlier(y, x, ry, rx);
    assert x == s[..|x|];
    assert y == (y + " " + ry)[..|y|];
    assert rx == s[|x| + 1..];
    assert ry == (y + " " + ry)[|y| + 1..];
  }

  lemma NatToStringInjective(a: nat, b: nat)
    requires NatToString(a) == NatToString(b)
    ensures a == b
  {
    ParseNatToString(a);
    ParseNatToString(b);
  }

  /** The minutes text before " daqiqa" names the minutes. */
  lemma MinutesTextInjective(a: nat, b: nat)
    requires NatToString(a) + " daqiqa" == NatToString(b) + " daqiqa"
    ensures a == b
  {
    assert NatToString(a) + " daqiqa" == NatToString(a) + " " + "daqiqa";
    assert NatToString(b) + " daqiqa" == NatToString(b) + " " + "daqiqa";
    SplitAtSpace(NatToString(a), NatToString(b), "daqiqa", "daqiqa");
    NatToStringInjective(a, b);
  }

  /** The text of an hour or more. */
  function HoursText(minutes: nat): string
  {
    NatToString(minutes / 60) + " soat " + NatToString(minutes % 60) + " daqiqa"
  }

  /** The hours text split at its first space. */
  lemma HoursTextSplit(minutes: nat)
    ensures HoursText(minutes) == NatToString(minutes / 60) + " " + ("soat " + NatToString(minutes % 60) + " daqiqa")
    ensures ("soat " + NatToString(minutes % 60) + " daqiqa")[5..] == NatToString(minutes % 60) + " daqiqa"
    ensures ("soat " + NatToString(minutes % 60) + " daqiqa")[0] == 's'
  {
  }

  /** Two texts of an hour or more are equal only for equal durations. */
  lemma HoursTextInjective(a: nat, b: nat)
    requires HoursText(a) == HoursText(b)
    ensures a == b
  {
    var ma, mb := NatToString(a % 60), NatToString(b % 60);
    HoursTextSplit(a);
    HoursTextSplit(b);
    SplitAtSpace(NatToString(a / 60), NatToString(b / 60), "soat " + ma + " daqiqa", "soat " + mb + " daqiqa");
    NatToStringInjective(a / 60, b / 60);
    MinutesTextInjective(a % 60, b % 60);
  }

  /** A text with hours never equals a text of minutes only. */
  lemma HoursTextNotMinutesText(a: nat, b: nat)
    ensures HoursText(a) != NatToString(b) + " daqiqa"
  {
    HoursTextSplit(a);
    assert NatToString(b) + " daqiqa" == NatToString(b) + " " + "daqiqa";
    if HoursText(a) == NatToString(b) + " daqiqa" {
      SplitAtSpace(NatToString(a / 60), NatToString(b), "soat " + NatToString(a % 60) + " daqiqa", "daqiqa");
    }
  }

  /** Different non-negative durations are shown as different texts. */
  lemma DurationTextDistinguishes(a: nat, b: nat)
    requires FormatDuration(a) == FormatDuration(b)
    ensures a == b
  {
    DurationParts(a);
    DurationParts(b);
    if a >= 60 && b >= 60 {
      HoursTextInjective(a, b);
    } else if a < 60 && b < 60 {
      MinutesTextInjective(a, b);
    } else if a >= 60 {
      HoursTextNotMinutesText(a, b);
      assert false;
    } else {
      HoursTextNotMinutesText(b, a);
      assert false;
    }
  }

  /** `formatDistance` below one kilometre: the metres as given. The kilometre
      branch formats a fraction and is not modelled (no text). */
  function FormatDistance(meters: int): (text: Option<string>)
    ensures text.Some? <==> meters < 1000
    ensures 0 <= meters < 1000 ==> text == Some(NatToString(meters) + " m")
  {
    if meters < 1000 then Some(IntToString(meters) + " m") else None
  }

  /** A distance text below one kilometre reads back as the metres it shows. */
  lemma DistanceTextReadsBack(meters: nat)
    requires meters < 1000
    ensures var t := FormatDistance(meters).value;
            |t| >= 3 && t[|t| - 2..] == " m" && AllDigits(t[..|t| - 2]) && ParseDigits(t[..|t| - 2]) == meters
  {
    var d := NatToString(meters);
    var t := d + " m";
    assert t[..|t| - 2] == d;
    ParseNatToString(meters);
  }
}

=== FILE: servicedetail.dfy ===
/** The service detail page (src/pages/ServiceDetailPage.tsx): the category
    label, the half-hour time slots offered for a booking, and the booking
    handler's checks. */
module ServiceDetail {
  import opened Common
  import opened Types
  import opened Text
  import Guard

  /** `getCategoryName`: the category's label, "Xizmat" for any other value. */
  function CategoryName(category: string): string
  {
    Types.CategoryName(category, "Xizmat")
  }

  /** The template `${hour}:${minutes}` with the hour padded to two digits. */
  function HourText(hour: nat, minutes: string): string
  {
    PadStart2(NatToString(hour)) + ":" + minutes
  }

  /** A time of day given in minutes after midnight, as "HH:MM". */
  function ClockText(minutes: nat): string
  {
    HourText(minutes / 60, PadStart2(NatToString(minutes % 60)))
  }

  /** "HH:MM" read back as minutes after midnight. */
  predicate IsClockText(t: string)
  {
    |t| == 5 && t[2] == ':' && AllDigits(t[..2]) && AllDigits(t[3..])
  }

  function ClockMinutes(t: string): nat
    requires IsClockText(t)
  {
    ParseDigits(t[..2]) * 60 + ParseDigits(t[3..])
  }

  /** Below 100 hours the text has the "HH:MM" shape and reads back as the
      minutes it was made from. */
  lemma ClockTextReadsBack(minutes: nat)
    requires minutes < 6000
    ensures IsClockText(ClockText(minutes)) && ClockMinutes(ClockText(minutes)) == minutes
  {
    var h := NatToString(minutes / 60);
    var m := NatToString(minutes % 60);
    NatToStringLength(minutes / 60);
    NatToStringLength(minutes % 60);
    PadKeepsValue(h);
    PadKeepsValue(m);
    ParseNatToString(minutes / 60);
    ParseNatToString(minutes % 60);
    var t := ClockText(minutes);
    assert t[..2] == PadStart2(h);
    assert t[3..] == PadStart2(m);
  }

  lemma DivMod60(h: nat, r: nat)
    requires r < 60
    ensures (h * 60 + r) / 60 == h && (h * 60 + r) % 60 == r
  {
  }

  lemma MinuteTexts()
    ensures PadStart2(NatToString(0)) == "00" && PadStart2(NatToString(30)) == "30"
  {
    assert NatToString(3) == "3";
    assert NatToString(30) == NatToString(3) + "0";
  }

  /** The full and the half hour of `hour` as clock text. */
  lemma HourTexts(hour: nat)
    ensures ClockText(hour * 60) == HourText(hour, "00")
    ensures ClockText(hour * 60 + 30) == HourText(hour, "30")
  {
    DivMod60(hour, 0);
    DivMod60(hour, 30);
    MinuteTexts();
  }

  const FirstSlot := 9 * 60
  const SlotCount := 19

  /** Slot `k` lies `30 * k` minutes after the first slot. */
  predicate HalfHoursFromFirst(slots: seq<string>)
  {
    forall k :: 0 <= k < |slots| ==> slots[k] == ClockText(FirstSlot + 30 * k)
  }

  lemma AppendSlot(slots: seq<string>, t: string)
    requires HalfHoursFromFirst(slots)
    requires t == ClockText(FirstSlot + 30 * |slots|)
    ensures HalfHoursFromFirst(slots + [t])
  {
  }

  /** `generateTimeSlots`: for each hour from 9 to 18 the full hour, and the half
      hour except after 18. */
  method TimeSlots() returns (slots: seq<string>)
    ensures |slots| == SlotCount
    ensures forall k :: 0 <= k < |slots| ==> slots[k] == ClockText(FirstSlot + 30 * k)
  {
    slots := [];
    var hour := 9;
    while hour <= 18
      invariant 9 <= hour <= 19
      invariant |slots| == if hour == 19 then SlotCount else 2 * (hour - 9)
      invariant HalfHoursFromFirst(slots)
    {
      HourTexts(hour);
      AppendSlot(slots, HourText(hour, "00"));
      slots := slots + [HourText(hour, "00")];
      if hour != 18 {
        AppendSlot(slots, HourText(hour, "30"));
        slots := slots + [HourText(hour, "30")];
      }
      hour := hour + 1;
    }
  }

  /** The slots run from 09:00 to 18:00, each 30 minutes after the previous,
      so 18:30 is never offered. */
  lemma SlotsAreHalfHours(slots: seq<string>)
    requires |slots| == SlotCount
    requires forall k :: 0 <= k < |slots| ==> slots[k] == ClockText(FirstSlot + 30 * k)
    ensures forall k :: 0 <= k < |slots| ==> IsClockText(slots[k]) && ClockMinutes(slots[k]) == FirstSlot + 30 * k
    ensures ClockMinutes(slots[0]) == 9 * 60 && ClockMinutes(slots[|slots| - 1]) == 18 * 60
    ensures forall k :: 0 < k < |slots| ==> ClockMinutes(slots[k]) == ClockMinutes(slots[k - 1]) + 30
    ensures forall k :: 0 <= k < |slots| ==> slots[k] != ClockText(18 * 60 + 30)
  {
    forall k | 0 <= k < |slots|
      ensures IsClockText(slots[k]) && ClockMinutes(slots[k]) == FirstSlot + 30 * k
    {
      ClockTextReadsBack(FirstSlot + 30 * k);
    }
    ClockTextReadsBack(18 * 60 + 30);
  }

  /** The request a booking sends; the ISO conversion of the chosen date and
      time is not modelled, so the request carries them as chosen. */
  datatype BookingRequest = BookingRequest(serviceId: string, date: string, time: string, notes: Option<string>)

  datatype BookingForm = BookingForm(date: string, time: string, notes: string, bookingLoading: bool)

  datatype Booked = Booked(form: BookingForm, toasts: Toasts, navigate: Option<string>, call: Option<BookingRequest>)

  /** The book button is disabled while a booking runs or a date or time is missing. */
  predicate BookDisabled(f: BookingForm)
  {
    f.bookingLoading || f.date == "" || f.time == ""
  }

  /** `handleBooking`: without a session the visitor is sent to the login page;
      without a date and time nothing is sent; otherwise the booking is created
      and the page moves to the bookings list on success. */
  function HandleBooking(f: BookingForm, user: Option<User>, token: Option<string>, service: Service, reply: Reply): (r: Booked)
    ensures r.call.Some? <==> Guard.HasSession(user, token) && f.date != "" && f.time != ""
    ensures r.call.Some? ==> r.call.value == BookingRequest(service.id, f.date, f.time, if f.notes == "" then None else Some(f.notes))
    ensures !Guard.HasSession(user, token) ==>
              r.toasts == [Error("Xizmatni band qilish uchun tizimga kiring")] && r.navigate == Some(Guard.LoginPath)
    ensures Guard.HasSession(user, token) && r.call.None? ==> r.toasts == [Error("Sana va vaqtni tanlang")] && r.navigate.None?
    ensures r.call.Some? ==> (r.navigate.Some? <==> reply.Done?)
    ensures r.call.Some? && reply.Done? ==> r.navigate == Some("/bookings") && r.toasts == [Success("Xizmat muvaffaqiyatli band qilindi!")]
    ensures r.call.Some? && reply.Failed? ==> r.toasts == [Error("Xizmatni band qilishda xatolik yuz berdi")]
    ensures !r.form.bookingLoading || r.form == f
  {
    if !Guard.HasSession(user, token) then
      Booked(f, [Error("Xizmatni band qilish uchun tizimga kiring")], Some(Guard.LoginPath), None)
    else if f.date == "" || f.time == "" then
      Booked(f, [Error("Sana va vaqtni tanlang")], None, None)
    else
      var request := BookingRequest(service.id, f.date, f.time, if f.notes == "" then None else Some(f.notes));
      if reply.Done? then
        Booked(f.(bookingLoading := false), [Success("Xizmat muvaffaqiyatli band qilindi!")], Some("/bookings"), Some(request))
      else
        Booked(f.(bookingLoading := false), [Error("Xizmatni band qilishda xatolik yuz berdi")], None, Some(request))
  }

  /** Through the enabled button a signed-in visitor always reaches the backend:
      the date-and-time error cannot show. */
  lemma EnabledButtonSends(f: BookingForm, user: Option<User>, token: Option<string>, service: Service, reply: Reply)
    requires !BookDisabled(f) && Guard.HasSession(user, token)
    ensures HandleBooking(f, user, token, service, reply).call.Some?
    ensures !HandleBooking(f, user, token, service, reply).form.bookingLoading
  {
  }
}

=== FILE: services.dfy ===
/** The services page (src/pages/ServicesPage.tsx): the sort applied to every
    fetched list, the request a load sends, and the handlers that change the
    category or the sort key and reload. A load is one step that receives the
    backend's list as a parameter. */
module Services {
  import opened Common
  import opened Types

  /** A list is in ascending order of `key`. */
  ghost predicate SortedBy(s: seq<Service>, key: Service -> real)
  {
    forall i, j :: 0 <= i < j < |s| ==> key(s[i]) <= key(s[j])
  }

  /** Inserts `x` before the first element whose key is not below its own. */
  function Insert(x: Service, s: seq<Service>, key: Service -> real): (r: seq<Service>)
    requires SortedBy(s, key)
    ensures SortedBy(r, key)
    ensures multiset(r) == multiset(s) + multiset{x}
    ensures forall i :: 0 <= i < |r| ==> r[i] == x || r[i] in s
    decreases |s|
  {
    if |s| == 0 then [x]
    else if key(x) <= key(s[0]) then [x] + s
    else
      var rest := Insert(x, s[1..], key);
      assert s == [s[0]] + s[1..];
      assert forall i :: 0 <= i < |rest| ==> key(s[0]) <= key(rest[i]);
      [s[0]] + rest
  }

  /** Insertion sort ascending by `key`. */
  function SortBy(s: seq<Service>, key: Service -> real): (r: seq<Service>)
    ensures SortedBy(r, key)
    ensures multiset(r) == multiset(s)
    decreases |s|
  {
    if |s| == 0 then []
    else
      assert s == [s[0]] + s[1..];
      Insert(s[0], SortBy(s[1..], key), key)
  }

  const PriceKey := (x: Service) => x.price
  const RatingKey := (x: Service) => -x.rating

  /** `sortServices`: a sorted copy; by price ascending, by rating descending,
      and for any other key (the comparator returns 0) the input order. */
  function SortServices(services: seq<Service>, sortType: string): (r: seq<Service>)
    ensures multiset(r) == multiset(services) && |r| == |services|
    ensures sortType == "price" ==> forall i, j :: 0 <= i < j < |r| ==> r[i].price <= r[j].price
    ensures sortType == "rating" ==> forall i, j :: 0 <= i < j < |r| ==> r[i].rating >= r[j].rating
    ensures sortType != "price" && sortType != "rating" ==> r == services
  {
    if sortType == "price" then
      var r := SortBy(services, PriceKey);
      assert |r| == |multiset(r)|;
      r
    else if sortType == "rating" then
      var r := SortBy(services, RatingKey);
      assert |r| == |multiset(r)|;
      assert forall i, j :: 0 <= i < j < |r| ==> RatingKey(r[i]) <= RatingKey(r[j]);
      r
    else services
  }

  /** The request a load sends: nearby services within 25 km when a location
      is known, otherwise the listing with the truthy filters. */
  datatype Query = Nearby(location: Location, radius: int) | Listing(search: Option<string>, category: Option<string>)

  const NearbyRadius := 25

  datatype ServicesState = ServicesState(
    searchTerm: string,
    selectedCategory: string,
    sortBy: string,
    location: Option<Location>,
    services: seq<Service>,
    toasts: Toasts)

  function Truthy(s: string): Option<string>
  {
    if s == "" then None else Some(s)
  }

  function QueryFor(st: ServicesState): (q: Query)
    ensures st.location.Some? <==> q.Nearby?
    ensures q.Nearby? ==> q == Nearby(st.location.value, NearbyRadius)
    ensures q.Listing? ==> (q.search.None? <==> st.searchTerm == "") && (q.category.None? <==> st.selectedCategory == "")
  {
    if st.location.Some? then Nearby(st.location.value, NearbyRadius)
    else Listing(Truthy(st.searchTerm), Truthy(st.selectedCategory))
  }

  datatype FetchReply = Fetched(list: seq<Service>) | FetchFailed

  datatype Loaded = Loaded(state: ServicesState, query: Query)

  /** `loadServices` run with the state `st`: the reply is sorted with `st`'s
      sort key; a failure keeps the old list and toasts. */
  function Load(st: ServicesState, reply: FetchReply): (r: Loaded)
    ensures r.query == QueryFor(st)
    ensures reply.Fetched? ==> r.state == st.(services := SortServices(reply.list, st.sortBy))
    ensures reply.FetchFailed? ==> r.state == st.(toasts := st.toasts + [Error("Xizmatlarni yuklashda xatolik yuz berdi")])
  {
    match reply
    case Fetched(list) => Loaded(st.(services := SortServices(list, st.sortBy)), QueryFor(st))
    case FetchFailed => Loaded(st.(toasts := st.toasts + [Error("Xizmatlarni yuklashda xatolik yuz berdi")]), QueryFor(st))
  }

  /** The sort select as written: the new key is stored, but the reload it
      starts runs in the render that still holds the previous key, so the
      fetched list is sorted by the previous key. */
  function ChangeSortAsWritten(st: ServicesState, sortType: string, reply: FetchReply): (r: Loaded)
    ensures r.state.sortBy == sortType
    ensures reply.Fetched? ==> r.state.services == SortServices(reply.list, st.sortBy)
  {
    var loaded := Load(st, reply);
    loaded.(state := loaded.state.(sortBy := sortType))
  }

  /** Switching from rating to price as written can leave the list in rating
      order with the cheaper service last. */
  lemma SortChangeAsWrittenKeepsOldOrder()
    ensures var a := Service("a", "A", "", "technical", 20.0, 60, 5.0, true);
            var b := Service("b", "B", "", "technical", 10.0, 60, 1.0, true);
            var st := ServicesState("", "", "rating", None, [], []);
            var r := ChangeSortAsWritten(st, "price", Fetched([b, a])).state;
            r.sortBy == "price" && r.services == [a, b] && r.services[0].price > r.services[1].price
  {
    var a := Service("a", "A", "", "technical", 20.0, 60, 5.0, true);
    var b := Service("b", "B", "", "technical", 10.0, 60, 1.0, true);
    assert SortBy([a], RatingKey) == [a];
    assert SortBy([b, a], RatingKey) == Insert(b, [a], RatingKey);
  }

  /** The sort select reloading with the key just chosen. */
  function ChangeSort(st: ServicesState, sortType: string, reply: FetchReply): (r: Loaded)
    ensures r.state.sortBy == sortType
    ensures reply.Fetched? ==> r.state.services == SortServices(reply.list, sortType)
  {
    Load(st.(sortBy := sortType), reply)
  }

  /** After a corrected sort change to price the shown list is in price order. */
  lemma ChangeSortShowsNewOrder(st: ServicesState, list: seq<Service>)
    ensures var r := ChangeSort(st, "price", Fetched(list)).state;
            forall i, j :: 0 <= i < j < |r.services| ==> r.services[i].price <= r.services[j].price
  {
  }

  /** The URL effect as written: a truthy `category` parameter becomes the
      selected category, but the load started in the same effect still sends
      the category selected before. */
  function OnParamsAsWritten(st: ServicesState, category: Option<string>, reply: FetchReply): (r: Loaded)
    ensures category.Some? && category.value != "" ==> r.state.selectedCategory == category.value
    ensures category.None? || category.value == "" ==> r.state.selectedCategory == st.selectedCategory
    ensures r.query == QueryFor(st)
  {
    var loaded := Load(st, reply);
    if category.Some? && category.value != "" then loaded.(state := loaded.state.(selectedCategory := category.value))
    else loaded
  }

  /** Opening `/services?category=parking` without a location as written lists
      services of every category although "parking" is selected. */
  lemma UrlCategoryAsWrittenNotSent(reply: FetchReply)
    ensures var st := ServicesState("", "", "rating", None, [], []);
            var r := OnParamsAsWritten(st, Some("parking"), reply);
            r.state.selectedCategory == "parking" && r.query == Listing(None, None)
  {
  }

  /** The URL effect sending the category it selects. */
  function OnParams(st: ServicesState, category: Option<string>, reply: FetchReply): (r: Loaded)
    ensures category.Some? && category.value != "" ==> r.state.selectedCategory == category.value
    ensures category.None? || category.value == "" ==> r.state.selectedCategory == st.selectedCategory
    ensures r.query == QueryFor(r.state)
  {
    var st' := if category.Some? && category.value != "" then st.(selectedCategory := category.value) else st;
    Load(st', reply)
  }

  /** Without a location, the corrected effect asks for exactly the category
      taken from the URL. */
  lemma UrlCategorySent(st: ServicesState, category: string, reply: FetchReply)
    requires st.location.None? && category != ""
    ensures OnParams(st, Some(category), reply).query.category == Some(category)
  {
  }
}

=== FILE: sidebar.dfy ===
/** The admin sidebar (src/components/Admin/Layout/AdminSidebar.tsx): the fixed
    menu, filtered by the admin provider's permission test, with the entry for
    the current path highlighted. */
module Sidebar {
  import opened Common
  import opened Types
  import Admin

  datatype MenuItem = MenuItem(title: string, path: string, permission: string)

  const Menu := [
    MenuItem("Dashboard", "/admin", "dashboard.read"),
    MenuItem("Users", "/admin/users", "users.read"),
    MenuItem("Orders", "/admin/orders", "orders.read"),
    MenuItem("Services", "/admin/services", "services.read"),
    MenuItem("Payments", "/admin/payments", "payments.read"),
    MenuItem("Staff", "/admin/staff", "staff.read"),
    MenuItem("Notifications", "/admin/notifications", "notifications.read"),
    MenuItem("Settings", "/admin/settings", "settings.read")
  ]

  /** An entry is listed when its permission is held. */
  predicate Shown(admin: Option<Admin.AdminUser>, item: MenuItem)
  {
    Admin.HasPermission(admin, item.permission)
  }

  /** The entries shown: menu order, only those whose permission is held. */
  function Visible(admin: Option<Admin.AdminUser>): (r: seq<MenuItem>)
    ensures forall i :: 0 <= i < |r| ==> r[i] in Menu && Admin.HasPermission(admin, r[i].permission)
    ensures forall i :: 0 <= i < |Menu| && Admin.HasPermission(admin, Menu[i].permission) ==> Menu[i] in r
    ensures Subseq(r, Menu)
  {
    FilterIsSubseq(Menu, (m: MenuItem) => Shown(admin, m));
    Filter(Menu, (m: MenuItem) => Shown(admin, m))
  }
  /** Each permitted item appears exactly as often as in the menu, and no
      other item appears. */
  lemma VisibleCount(admin: Option<Admin.AdminUser>, x: MenuItem)
    ensures multiset(Visible(admin))[x]
            == if Admin.HasPermission(admin, x.permission) then multiset(Menu)[x] else 0
  {
    FilterCount(Menu, (m: MenuItem) => Shown(admin, m), x);
  }


  /** The highlighted entry: its path equals the current path exactly. */
  predicate IsActive(item: MenuItem, pathname: string)
  {
    pathname == item.path
  }

  /** What the filter keeps of position `i`: the element or nothing. */
  function Kept<T>(s: seq<T>, p: T -> bool, i: nat): seq<T>
    requires i < |s|
  {
    if p(s[i]) then [s[i]] else []
  }

  /** One step of the filter, from position `k` of the list on. */
  lemma FilterFrom<T>(s: seq<T>, p: T -> bool, k: nat)
    requires k < |s|
    ensures Filter(s[k..], p) == Kept(s, p, k) + Filter(s[k + 1..], p)
  {
    assert s[k..][1..] == s[k + 1..];
  }

  /** The last four of those eight: only the sixth passes. */
  lemma FilterManagerTail<T>(s: seq<T>, p: T -> bool)
    requires |s| == 8
    requires !p(s[4]) && p(s[5]) && !p(s[6]) && !p(s[7])
    ensures Filter(s[4..], p) == [s[5]]
  {
    assert Filter(s[7..], p) == [] by { FilterFrom(s, p, 7); assert Filter(s[8..], p) == []; }
    assert Filter(s[6..], p) == [] by { FilterFrom(s, p, 6); }
    assert Filter(s[5..], p) == [s[5]] by { FilterFrom(s, p, 5); }
    FilterFrom(s, p, 4);
  }

  /** The filter over eight elements of which the second, third, fourth and
      sixth pass. */
  lemma FilterManagerPattern<T>(s: seq<T>, p: T -> bool)
    requires |s| == 8
    requires !p(s[0]) && p(s[1]) && p(s[2]) && p(s[3]) && !p(s[4]) && p(s[5]) && !p(s[6]) && !p(s[7])
    ensures Filter(s, p) == [s[1], s[2], s[3], s[5]]
  {
    FilterManagerTail(s, p);
    assert Filter(s[3..], p) == [s[3], s[5]] by { FilterFrom(s, p, 3); }
    assert Filter(s[2..], p) == [s[2], s[3], s[5]] by { FilterFrom(s, p, 2); }
    assert Filter(s[1..], p) == [s[1], s[2], s[3], s[5]] by { FilterFrom(s, p, 1); }
    assert Filter(s[0..], p) == [s[1], s[2], s[3], s[5]] by { FilterFrom(s, p, 0); }
    assert s[0..] == s;
  }

  /** The filter over eight elements of which the third and fourth pass. */
  lemma FilterOperatorPattern<T>(s: seq<T>, p: T -> bool)
    requires |s| == 8
    requires !p(s[0]) && !p(s[1]) && p(s[2]) && p(s[3]) && !p(s[4]) && !p(s[5]) && !p(s[6]) && !p(s[7])
    ensures Filter(s, p) == [s[2], s[3]]
  {
    assert Filter(s[7..], p) == [] by { FilterFrom(s, p, 7); assert Filter(s[8..], p) == []; }
    assert Filter(s[6..], p) == [] by { FilterFrom(s, p, 6); }
    assert Filter(s[5..], p) == [] by { FilterFrom(s, p, 5); }
    assert Filter(s[4..], p) == [] by { FilterFrom(s, p, 4); }
    assert Filter(s[3..], p) == [s[3]] by { FilterFrom(s, p, 3); }
    assert Filter(s[2..], p) == [s[2], s[3]] by { FilterFrom(s, p, 2); }
    assert Filter(s[1..], p) == [s[2], s[3]] by { FilterFrom(s, p, 1); }
    assert Filter(s[0..], p) == [s[2], s[3]] by { FilterFrom(s, p, 0); }
    assert s[0..] == s;
  }

  /** An admin sees the whole menu. */
  lemma AdminMenu(user: User, now: string)
    ensures Visible(Some(Admin.Project(user, "admin", now))) == Menu
  {
    var a := Some(Admin.Project(user, "admin", now));
    FilterAll(Menu, (m: MenuItem) => Shown(a, m));
  }

  lemma ManagerShown(user: User, now: string)
    ensures var a := Some(Admin.Project(user, "manager", now));
            && !Shown(a, Menu[0]) && Shown(a, Menu[1]) && Shown(a, Menu[2]) && Shown(a, Menu[3])
            && !Shown(a, Menu[4]) && Shown(a, Menu[5]) && !Shown(a, Menu[6]) && !Shown(a, Menu[7])
  {
    var a := Some(Admin.Project(user, "manager", now));
    assert a.value.permissions == Admin.ManagerPermissions;
  }

  lemma OperatorShown(user: User, now: string)
    ensures var a := Some(Admin.Project(user, "operator", now));
            && !Shown(a, Menu[0]) && !Shown(a, Menu[1]) && Shown(a, Menu[2]) && Shown(a, Menu[3])
            && !Shown(a, Menu[4]) && !Shown(a, Menu[5]) && !Shown(a, Menu[6]) && !Shown(a, Menu[7])
  {
    var a := Some(Admin.Project(user, "operator", now));
    assert a.value.permissions == Admin.OperatorPermissions;
  }

  /** A manager holds no `dashboard.read`, so the dashboard entry is missing. */
  lemma ManagerMenu(user: User, now: string)
    ensures Visible(Some(Admin.Project(user, "manager", now))) == [Menu[1], Menu[2], Menu[3], Menu[5]]
  {
    var a := Some(Admin.Project(user, "manager", now));
    var p := (m: MenuItem) => Shown(a, m);
    ManagerShown(user, now);
    FilterManagerPattern(Menu, p);
  }

  /** An operator sees only orders and services. */
  lemma OperatorMenu(user: User, now: string)
    ensures Visible(Some(Admin.Project(user, "operator", now))) == [Menu[2], Menu[3]]
  {
    var a := Some(Admin.Project(user, "operator", now));
    var p := (m: MenuItem) => Shown(a, m);
    OperatorShown(user, now);
    FilterOperatorPattern(Menu, p);
  }

  /** Without an admin projection the menu is empty. */
  lemma SignedOutMenu()
    ensures Visible(None) == []
  {
  }

  /** No two menu entries share a path. */
  lemma MenuPathsDistinct(x: MenuItem, y: MenuItem)
    requires x in Menu && y in Menu && x.path == y.path
    ensures x == y
  {
  }

  /** At most one entry is highlighted. */
  lemma AtMostOneActive(admin: Option<Admin.AdminUser>, pathname: string, i: nat, j: nat)
    requires i < |Visible(admin)| && j < |Visible(admin)|
    requires IsActive(Visible(admin)[i], pathname) && IsActive(Visible(admin)[j], pathname)
    ensures Visible(admin)[i] == Visible(admin)[j]
  {
    MenuPathsDistinct(Visible(admin)[i], Visible(admin)[j]);
  }
}

=== FILE: storage.dfy ===
/** Browser `localStorage` as a value. Every value is a string in the browser;
    the JSON text written by `JSON.stringify` is represented by the value it
    encodes, so that reading it back with `JSON.parse` is a pattern match. */
module Storage {
  import opened Common
  import opened Types

  datatype Value = Text(text: string) | UserJson(user: User) | BoolJson(flag: bool)

  type Store = map<string, Value>

  const TokenKey := "authToken"
  const UserKey := "user"
  const DarkModeKey := "adminDarkMode"

  /** The string stored under `key`, when it is truthy: present and non-empty. */
  function StoredText(st: Store, key: string): (r: Option<string>)
    ensures r.Some? <==> key in st && st[key].Text? && st[key].text != ""
    ensures r.Some? ==> st[key] == Text(r.value)
  {
    if key in st && st[key].Text? && st[key].text != "" then Some(st[key].text) else None
  }

  /** The user stored as JSON under `key`, parsed back. JSON text is never
      empty, so a stored user is always truthy. */
  function StoredUser(st: Store, key: string): (r: Option<User>)
    ensures r.Some? <==> key in st && st[key].UserJson?
    ensures r.Some? ==> st[key] == UserJson(r.value)
  {
    if key in st && st[key].UserJson? then Some(st[key].user) else None
  }

  /** `setItem` then `getItem` on the same key gives back the string written,
      when it is truthy; `removeItem` forgets it; neither touches what another
      key reads. */
  lemma TextRoundTrip(st: Store, key: string, t: string, other: string)
    requires other != key
    ensures StoredText(st[key := Text(t)], key) == if t == "" then None else Some(t)
    ensures StoredText(st - {key}, key) == None
    ensures StoredText(st[key := Text(t)], other) == StoredText(st, other)
    ensures StoredText(st - {key}, other) == StoredText(st, other)
  {
  }

  /** A user written as JSON reads back as the same user; a removed key reads
      back as no user; other keys are unaffected. */
  lemma UserRoundTrip(st: Store, key: string, u: User, other: string)
    requires other != key
    ensures StoredUser(st[key := UserJson(u)], key) == Some(u)
    ensures StoredUser(st - {key}, key) == None
    ensures StoredUser(st[key := UserJson(u)], other) == StoredUser(st, other)
    ensures StoredUser(st - {key}, other) == StoredUser(st, other)
  {
  }
}

=== FILE: support.dfy ===
/** The support page (src/pages/SupportPage.tsx): the contact form, the FAQ
    search and the accordion that opens one answer at a time. The FAQ texts
    are a parameter. */
module Support {
  import opened Common
  import opened Types
  import opened Text
  import opened Validation

  datatype ContactForm = ContactForm(name: string, email: string, subject: string, message: string)

  const EmptyContact := ContactForm("", "", "", "")

  /** The contact schema: a name of at least two characters, a required email
      in email format, a subject, and a message of at least ten characters. */
  predicate ContactValid(f: ContactForm, isEmail: string -> bool)
  {
    && Required(f.name) && MinLength(f.name, 2)
    && Required(f.email) && isEmail(f.email)
    && Required(f.subject)
    && Required(f.message) && MinLength(f.message, 10)
  }

  datatype ContactState = ContactState(form: ContactForm, loading: bool, toasts: Toasts)

  /** `handleSubmit(onSubmit)`: nothing is sent anywhere; a form that passes
      the schema is reported sent after a delay and cleared. */
  function ContactSubmit(st: ContactState, isEmail: string -> bool): (r: ContactState)
    ensures !ContactValid(st.form, isEmail) ==> r == st
    ensures ContactValid(st.form, isEmail) ==>
              r.form == EmptyContact && !r.loading &&
              r.toasts == st.toasts + [Success("Xabaringiz muvaffaqiyatli yuborildi!")]
  {
    if !ContactValid(st.form, isEmail) then st
    else ContactState(EmptyContact, false, st.toasts + [Success("Xabaringiz muvaffaqiyatli yuborildi!")])
  }

  /** A contact message never reports an error, and the cleared form has to
      be filled in again before the next one. */
  lemma ContactNeverFails(st: ContactState, isEmail: string -> bool)
    ensures forall i :: |st.toasts| <= i < |ContactSubmit(st, isEmail).toasts| ==> ContactSubmit(st, isEmail).toasts[i].Success?
    ensures !ContactValid(ContactSubmit(st, isEmail).form, isEmail) || ContactSubmit(st, isEmail) == st
  {
  }

  /** The rules reject what they say they reject. */
  lemma RejectedContacts(f: ContactForm, isEmail: string -> bool)
    ensures |f.name| < 2 || f.subject == "" || |f.message| < 10 ==> !ContactValid(f, isEmail)
  {
  }

  datatype Faq = Faq(question: string, answer: string)

  function FaqMatches(term: string): Faq -> bool
  {
    (q: Faq) => EitherIncludes(q.question, q.answer, term)
  }

  /** `filteredFaqs`: the questions whose question or answer holds the search
      term, ignoring case, in their order. */
  function FilteredFaqs(faqs: seq<Faq>, term: string): (r: seq<Faq>)
    ensures Subseq(r, faqs)
    ensures forall i :: 0 <= i < |r| ==> EitherIncludes(r[i].question, r[i].answer, term)
    ensures forall i :: 0 <= i < |faqs| && EitherIncludes(faqs[i].question, faqs[i].answer, term) ==> faqs[i] in r
  {
    FilterIsSubseq(faqs, FaqMatches(term));
    Filter(faqs, FaqMatches(term))
  }
  /** The search keeps every matching question as often as it is listed and
      no other question. */
  lemma FilteredFaqsCount(faqs: seq<Faq>, term: string, x: Faq)
    ensures multiset(FilteredFaqs(faqs, term))[x]
            == if EitherIncludes(x.question, x.answer, term) then multiset(faqs)[x] else 0
  {
    FilterCount(faqs, FaqMatches(term), x);
  }


  /** An empty search lists every question. */
  lemma EmptySearchKeepsAll(faqs: seq<Faq>)
    ensures FilteredFaqs(faqs, "") == faqs
  {
    forall q: Faq
      ensures FaqMatches("")(q)
    {
      EmptyTermMatches(q.question);
    }
    FilterAll(faqs, FaqMatches(""));
  }

  /** The accordion button at `index`: closes it if it is the open one and
      opens it (closing any other) otherwise. */
  function ToggleFaq(expanded: Option<nat>, index: nat): (r: Option<nat>)
    ensures r == Some(index) <==> expanded != Some(index)
    ensures r.None? <==> expanded == Some(index)
  {
    if expanded == Some(index) then None else Some(index)
  }

  /** Clicking an item twice closes it again whatever was open before, and a
      click never opens an item other than the one clicked. */
  lemma ToggleTwiceCloses(expanded: Option<nat>, index: nat, other: nat)
    requires other != index
    ensures ToggleFaq(ToggleFaq(expanded, index), index) == (if expanded == Some(index) then Some(index) else None)
    ensures ToggleFaq(expanded, index) != Some(other)
  {
  }

  /** The answer shown open: the item at position `expanded` of the filtered
      list, if there is one. */
  function OpenFaq(faqs: seq<Faq>, term: string, expanded: Option<nat>): (r: Option<Faq>)
    ensures r.Some? ==> r.value in FilteredFaqs(faqs, term)
    ensures r.Some? <==> expanded.Some? && expanded.value < |FilteredFaqs(faqs, term)|
    ensures r.Some? ==> r.value == FilteredFaqs(faqs, term)[expanded.value]
  {
    var shown := FilteredFaqs(faqs, term);
    if expanded.Some? && expanded.value < |shown| then Some(shown[expanded.value]) else None
  }

  /** The open item is remembered by position, not by question: with the
      first question open, a search that hides it opens the next matching one
      instead. */
  lemma OpenItemFollowsPosition()
    ensures var a := Faq("a", "a");
            var b := Faq("b", "b");
            OpenFaq([a, b], "", Some(0)) == Some(a) && OpenFaq([a, b], "b", Some(0)) == Some(b)
  {
    var a := Faq("a", "a");
    var b := Faq("b", "b");
    EmptySearchKeepsAll([a, b]);
    assert ToLower("b") == "b" && ToLower("a") == "a";
    assert "a"[..1][0] == 'a' && "b"[0] == 'b';
    assert !Includes("a"[1..], "b");
    assert !Includes("a", "b");
    assert "b"[..1] == "b";
    assert Includes("b", "b");
    assert !FaqMatches("b")(a) && FaqMatches("b")(b);
    assert [a, b][1..] == [b] && [b][1..] == [];
    assert Filter([a, b], FaqMatches("b")) == Filter([b], FaqMatches("b"));
  }
}

=== FILE: text.dfy ===
/** String helpers the pages rely on: an ASCII lower-casing, substring search,
    the decimal text of an integer and padding to two digits. */
module Text {

  predicate IsDigit(c: char)
  {
    '0' <= c <= '9'
  }

  predicate AllDigits(s: string)
  {
    forall i :: 0 <= i < |s| ==> IsDigit(s[i])
  }

  /** ASCII case fold: 'A'..'Z' become 'a'..'z', everything else is kept. */
  function LowerChar(c: char): (r: char)
    ensures 'A' <= c <= 'Z' ==> 'a' <= r <= 'z' && r as int - c as int == 32
    ensures !('A' <= c <= 'Z') ==> r == c
  {
    if 'A' <= c <= 'Z' then (c as int + 32) as char else c
  }

  function ToLower(s: string): (r: string)
    ensures |r| == |s|
    ensures forall i :: 0 <= i < |r| ==> r[i] == LowerChar(s[i])
  {
    seq(|s|, i requires 0 <= i < |s| => LowerChar(s[i]))
  }

  predicate IsPrefix(p: string, s: string)
  {
    |p| <= |s| && s[..|p|] == p
  }

  /** `needle` sits in `hay` starting at position `i`. */
  predicate OccursAt(hay: string, needle: string, i: int)
  {
    0 <= i && i + |needle| <= |hay| && hay[i..i + |needle|] == needle
  }

  /** Whether `needle` occurs in `hay` (JavaScript's `includes`), scanning start
      positions left to right. */
  function Includes(hay: string, needle: string): bool
    decreases |hay|
  {
    if IsPrefix(needle, hay) then true
    else if |hay| == 0 then false
    else Includes(hay[1..], needle)
  }

  /** The scan answers yes exactly when some window of `hay` equals `needle`. */
  lemma {:induction false} IncludesSpec(hay: string, needle: string)
    ensures Includes(hay, needle) <==> exists i :: OccursAt(hay, needle, i)
    decreases |hay|
  {
    if IsPrefix(needle, hay) {
      assert OccursAt(hay, needle, 0);
    } else if |hay| > 0 {
      IncludesSpec(hay[1..], needle);
      if Includes(hay[1..], needle) {
        var i :| OccursAt(hay[1..], needle, i);
        assert hay[1..][i..i + |needle|] == hay[i + 1..i + 1 + |needle|];
        assert OccursAt(hay, needle, i + 1);
      } else {
        forall i | OccursAt(hay, needle, i)
          ensures false
        {
          if i > 0 {
            assert hay[1..][i - 1..i - 1 + |needle|] == hay[i..i + |needle|];
            assert OccursAt(hay[1..], needle, i - 1);
          }
        }
      }
    }
  }

  /** Whether `term` occurs in `text` once both are lower-cased, with an ASCII
      case fold. */
  predicate IncludesIgnoringCase(text: string, term: string)
  {
    Includes(ToLower(text), ToLower(term))
  }

  /** The empty search term is found in every text. */
  lemma EmptyTermMatches(text: string)
    ensures IncludesIgnoringCase(text, "")
  {
    assert IsPrefix(ToLower(""), ToLower(text));
  }

  /** The pages' search test: the term occurs, ignoring case, in either of two fields. */
  predicate EitherIncludes(a: string, b: string, term: string)
  {
    IncludesIgnoringCase(a, term) || IncludesIgnoringCase(b, term)
  }

  /** The pages' category test: an empty selection (falsy) accepts every category. */
  predicate CategoryMatches(category: string, selected: string)
  {
    selected == "" || category == selected
  }

  function DigitChar(d: nat): (c: char)
    requires d < 10
    ensures IsDigit(c)
  {
    ('0' as int + d) as char
  }

  function DigitValue(c: char): (d: nat)
    requires IsDigit(c)
    ensures d < 10
  {
    c as int - '0' as int
  }

  /** The decimal text of a non-negative integer, without leading zeros. */
  function NatToString(n: nat): (r: string)
    ensures |r| >= 1 && AllDigits(r)
    ensures |r| > 1 ==> r[0] != '0'
    decreases n
  {
    if n < 10 then [DigitChar(n)] else NatToString(n / 10) + [DigitChar(n % 10)]
  }

  /** The decimal text of any integer, with a minus sign in front of negatives. */
  function IntToString(i: int): (r: string)
    ensures |r| >= 1
    ensures i < 0 <==> r[0] == '-'
  {
    if i < 0 then "-" + NatToString(-i) else NatToString(i)
  }

  /** Reads a string of decimal digits back as a number. */
  function ParseDigits(s: string): nat
    requires AllDigits(s)
    decreases |s|
  {
    if |s| == 0 then 0 else ParseDigits(s[..|s| - 1]) * 10 + DigitValue(s[|s| - 1])
  }

  lemma {:induction false} ParseNatToString(n: nat)
    ensures ParseDigits(NatToString(n)) == n
    decreases n
  {
    var r := NatToString(n);
    if n >= 10 {
      ParseNatToString(n / 10);
      assert r[..|r| - 1] == NatToString(n / 10);
    }
  }

  /** Numbers below ten print as one digit, larger ones as more. */
  lemma {:induction false} NatToStringLength(n: nat)
    ensures n < 10 <==> |NatToString(n)| == 1
    ensures n < 100 ==> |NatToString(n)| <= 2
  {
  }

  /** A string shorter than two characters padded on the left with '0' up to
      two characters; longer strings unchanged. */
  function PadStart2(s: string): (r: string)
    ensures |s| >= 2 ==> r == s
    ensures |s| < 2 ==> |r| == 2 && r[2 - |s|..] == s && forall i :: 0 <= i < 2 - |s| ==> r[i] == '0'
  {
    if |s| >= 2 then s else seq(2 - |s|, _ => '0') + s
  }

  /** Zero padding does not change the value a string of digits reads as. */
  lemma PadKeepsValue(s: string)
    requires AllDigits(s)
    ensures AllDigits(PadStart2(s)) && ParseDigits(PadStart2(s)) == ParseDigits(s)
  {
    if |s| < 2 {
      var r := PadStart2(s);
      if |s| == 0 {
        assert r == "00";
        assert r[..1] == "0";
        assert ParseDigits(r[..1]) == ParseDigits(r[..0]) * 10 + 0;
      } else {
        assert r == ['0', s[0]];
        assert r[..1] == "0";
        assert ParseDigits(r[..1]) == ParseDigits(r[..0]) * 10 + 0;
        assert s[..0] == "";
      }
    }
  }
}

=== FILE: types.dfy ===
/** The records the core reads and the enums it switches on. Enum-typed fields
    arrive from the backend as strings, so records keep the wire string and each
    enum offers `Value` (its wire string) and a `Parse` back. */
module Types {
  import opened Common

  /** A signed-in user. `role` is the untyped field that the admin context reads
      from the backend payload; it is not part of the declared user type. */
  datatype User = User(
    id: string,
    firstName: string,
    lastName: string,
    email: string,
    phoneNumber: Option<string>,
    avatar: Option<string>,
    role: Option<string>)

  datatype UserRole = Admin | Manager | Operator | Technician
  {
    function Value(): string
    {
      match this
      case Admin => "admin"
      case Manager => "manager"
      case Operator => "operator"
      case Technician => "technician"
    }
  }

  function ParseRole(s: string): (r: Option<UserRole>)
    ensures r.Some? ==> r.value.Value() == s
    ensures forall e: UserRole :: e.Value() == s ==> r == Some(e)
  {
    if s == "admin" then Some(Admin)
    else if s == "manager" then Some(Manager)
    else if s == "operator" then Some(Operator)
    else if s == "technician" then Some(Technician)
    else None
  }

  datatype BookingStatus = Pending | Approved | Completed | Cancelled
  {
    function Value(): string
    {
      match this
      case Pending => "pending"
      case Approved => "approved"
      case Completed => "completed"
      case Cancelled => "cancelled"
    }
  }

  function ParseStatus(s: string): (r: Option<BookingStatus>)
    ensures r.Some? ==> r.value.Value() == s
    ensures forall e: BookingStatus :: e.Value() == s ==> r == Some(e)
  {
    if s == "pending" then Some(Pending)
    else if s == "approved" then Some(Approved)
    else if s == "completed" then Some(Completed)
    else if s == "cancelled" then Some(Cancelled)
    else None
  }

  datatype ServiceCategory = Technical | Parking | GasStation
  {
    function Value(): string
    {
      match this
      case Technical => "technical"
      case Parking => "parking"
      case GasStation => "gas_station"
    }

    /** The Uzbek name the pages show for the category. */
    function Label(): string
    {
      match this
      case Technical => "Texnik xizmat"
      case Parking => "Parkovka"
      case GasStation => "Yoqilg'i quyish"
    }
  }

  function ParseCategory(s: string): (r: Option<ServiceCategory>)
    ensures r.Some? ==> r.value.Value() == s
    ensures forall e: ServiceCategory :: e.Value() == s ==> r == Some(e)
  {
    if s == "technical" then Some(Technical)
    else if s == "parking" then Some(Parking)
    else if s == "gas_station" then Some(GasStation)
    else None
  }

  /** The `getCategoryName` switch: a known category's label, `fallback` for
      any other value. Each page that shows categories picks its own fallback. */
  function CategoryName(category: string, fallback: string): (name: string)
    ensures ParseCategory(category).Some? ==> name == ParseCategory(category).value.Label()
    ensures ParseCategory(category).None? ==> name == fallback
    ensures (forall c: ServiceCategory :: c.Label() != fallback) ==>
              (name == fallback <==> ParseCategory(category).None?)
  {
    match ParseCategory(category)
    case Some(c) => c.Label()
    case None => fallback
  }

  /** Different known categories get different names. */
  lemma CategoryNameDistinguishes(a: string, b: string, fallback: string)
    requires ParseCategory(a).Some? && ParseCategory(b).Some?
    requires CategoryName(a, fallback) == CategoryName(b, fallback)
    ensures a == b
  {
  }

  /** A bookable service; the provider record it nests is not read by the core. */
  datatype Service = Service(
    id: string,
    name: string,
    description: string,
    category: string,
    price: real,
    duration: int,
    rating: real,
    isAvailable: bool)

  /** A booking of the signed-in user; the nested service record is not read by the core. */
  datatype Booking = Booking(
    id: string,
    serviceId: string,
    userId: string,
    bookingDate: string,
    status: string,
    totalPrice: real,
    notes: Option<string>,
    createdAt: string)

  /** A point on the map: a geolocation fix or a route end. */
  datatype Location = Location(latitude: real, longitude: real)

  /** One notification: `toast.success` or `toast.error`. */
  datatype Toast = Success(message: string) | Error(message: string)

  /** The notification log a handler appends to. */
  type Toasts = seq<Toast>

  /** How a backend call the core awaits settled: resolved, or rejected with
      an error message. */
  datatype Reply = Done | Failed(message: string)
}

=== FILE: validation.dfy ===
/** The form rules the pages' schemas use: required (a non-empty string),
    minimum length, equality with another field, and the phone pattern
    `^\+?[1-9]\d{1,14}$`. Email format is left abstract: schemas take the
    email test as a parameter. */
module Validation {
  import opened Text

  /** `.required()` on a string field: the empty string fails. */
  predicate Required(s: string)
  {
    s != ""
  }

  /** `.min(n)` on a string field. */
  predicate MinLength(s: string, n: nat)
  {
    |s| >= n
  }

  /** The text after the optional leading plus sign. */
  function PhoneDigits(s: string): string
  {
    if |s| > 0 && s[0] == '+' then s[1..] else s
  }

  /** `^\+?[1-9]\d{1,14}$`: an optional '+', then 2 to 15 ASCII digits of which
      the first is not zero. */
  predicate PhonePattern(s: string)
  {
    var d := PhoneDigits(s);
    2 <= |d| <= 15 && d[0] != '0' && AllDigits(d)
  }

  /** A left-to-right scan of the pattern: optional '+', one digit 1-9, then
      digits only, and a length check on the digit run. */
  method MatchPhone(s: string) returns (ok: bool)
    ensures ok <==> PhonePattern(s)
  {
    var start := 0;
    if |s| > 0 && s[0] == '+' {
      start := 1;
    }
    assert s[start..] == PhoneDigits(s);
    if start >= |s| || !('1' <= s[start] <= '9') {
      return false;
    }
    var i := start + 1;
    while i < |s|
      invariant start < i <= |s|
      invariant AllDigits(s[start..i])
    {
      if !IsDigit(s[i]) {
        assert PhoneDigits(s)[i - start] == s[i];
        return false;
      }
      assert s[start..i + 1] == s[start..i] + [s[i]];
      i := i + 1;
    }
    assert s[start..i] == PhoneDigits(s);
    ok := 2 <= |s| - start <= 15;
  }

  /** What the pattern accepts and rejects at its edges. */
  lemma PhonePatternEdges()
    ensures !PhonePattern("")
    ensures !PhonePattern("+")
    ensures !PhonePattern("5")
    ensures PhonePattern("12")
    ensures PhonePattern("+998901234567")
    ensures !PhonePattern("0123")
    ensures !PhonePattern("++12")
    ensures PhonePattern("123456789012345") && !PhonePattern("1234567890123456")
  {
    assert PhoneDigits("+998901234567") == "998901234567";
    assert PhoneDigits("++12") == "+12";
  }
}
